=== FILE: README.md ===
# Attribute permissions of the strapi users-permissions plugin, in Dafny

This project models the field-level ("attribute") permission layer of the
strapi users-permissions plugin and proves properties of it. The layer has four parts:

- **Reconciliation** (`attribute_permission.dfy`, `reconcile_properties.dfy`).
  For one role and one model, `updateModelPermissions` brings the stored
  attribute-permission records in line with the model's schema:
  - it deletes records for attributes that are no longer declared, and duplicates;
  - it flips `enabled` on records that disagree with the attribute's `private` flag;
  - it creates the model-scope record when it is missing;
  - it creates one attribute record for each declared attribute that has none.

  The store is a class (`PermissionStore.Store`) whose rows and write log
  the methods update in place. Each method is proved against a functional
  specification (`Scan`, `Plan`, `Reconciled`), and the properties of the
  reconciliation are lemmas about that specification.
- **Serialization** (`serialize.dfy`). This covers the walk over a response
  (`SerializePlainObject`/`SerializePlainAttribute`) and the model
  serializer (`SerializeModel`/`SerializeAttribute`). The serializer checks
  the model-level permission of the role. It then looks up per-attribute
  permissions, but only for the keys `_id`, `id`, `createdAt` and `updatedAt`,
  and it deletes each of those it reaches, whether or not the role may read
  it. Every other field, private or not, is kept.
- **The user service** (`user.dfy`). This covers:
  - password-hash detection, and the branch `hashPassword` takes before bcrypt;
  - the current user and role lookups;
  - the id list of `removeAll`;
  - the in-place rewriting of `params` and `query` by `edit`, `remove` and `removeAll`.
- **The controller** (`controller.dfy`). `find` chooses between search and
  fetch-all. `findOne` checks its id against `/^[0-9a-fA-F]{24}$/`.

JavaScript values are the tree `Js.Value`. An object is a sequence of fields
in the order they were added, and `Object.keys` is that order (see "Left out"
for integer-like keys). Also in `Js`:
- truthiness, `||`, property reads, assignment (`SetKey`) and `delete`
  (`RemoveKey`) are functions with contracts;
- an exception is `Err(TypeError(..))` or `Err(InvalidToken)`.

The order of the store's writes stands for the order in which the source
issues its queries. A `Promise.all` over a list is modelled as the
left-to-right loop that issues the same calls.

## Model

All source paths are under `packages/strapi-plugin-users-permissions/`
(written out in full in the table).

| member | source | states |
|---|---|---|
| AttributePermissionService.RoleKey | packages/strapi-plugin-users-permissions/services/AttributePermission.js:154 | the role key is `role._id` when that is set, otherwise `role.id` |
| AttributePermissionService.Namespace | packages/strapi-plugin-users-permissions/services/AttributePermission.js:155 | the record type is the plugin name when there is one, otherwise the non-empty default (`application`) |
| AttributePermissionService.KeyFor | packages/strapi-plugin-users-permissions/services/AttributePermission.js:153-157 | the selection triple is (role key, type, model's global name) |
| AttributePermissionService.IndexOf | packages/strapi-plugin-users-permissions/services/AttributePermission.js:188 | `indexOf` is -1 exactly when the attribute is absent (or unset), and otherwise is the position of its first occurrence |
| AttributePermissionService.Step | packages/strapi-plugin-users-permissions/services/AttributePermission.js:165-171 | visiting one record appends exactly that record's writes to the log |
| AttributePermissionService.AttrPerms | packages/strapi-plugin-users-permissions/services/AttributePermission.js:229-238 | one attribute record per pending name, in order, disabled when the attribute is private and otherwise carrying the model default |
| AttributePermissionService.Numbered | packages/strapi-plugin-users-permissions/services/AttributePermission.js:228-239 | created records receive consecutive ids in creation order |
| AttributePermissionService.Creates | packages/strapi-plugin-users-permissions/services/AttributePermission.js:228-239 | one create query per added record, in order |
| AttributePermissionService.AdditionsAt | packages/strapi-plugin-users-permissions/services/AttributePermission.js:220-239 | the additions are the model record (only when no default was found) followed by one record per pending attribute, each with its `enabled` value |
| AttributePermissionService.AdditionsInKey | packages/strapi-plugin-users-permissions/services/AttributePermission.js:222-237 | every added record carries the role, type and model of the selection triple |
| AttributePermissionService.CheckExistingPermission | packages/strapi-plugin-users-permissions/services/AttributePermission.js:186-211 | the method issues a delete, an update or nothing exactly as the specification verdict says; it returns the pending list with the attribute spliced out; no other row changes |
| AttributePermissionService.AddNeededPermissions | packages/strapi-plugin-users-permissions/services/AttributePermission.js:213-240 | it appends the model record when there was no default, then the attribute records; the rows grow by exactly `Additions`, numbered from the old counter; records of other triples are untouched |
| AttributePermissionService.AddAttributePermissions | packages/strapi-plugin-users-permissions/services/AttributePermission.js:228-239 | the `toUpdate.map` creates `AttrPerms` in order, numbered from the counter |
| AttributePermissionService.AddedInOrder | packages/strapi-plugin-users-permissions/services/AttributePermission.js:220-239 | creating the model record first and the attribute records after yields exactly the additions in order |
| AttributePermissionService.NumberedCons | packages/strapi-plugin-users-permissions/services/AttributePermission.js:228-239 | numbering a record followed by others gives the first the counter and the others the following ids |
| AttributePermissionService.VisitPermission | packages/strapi-plugin-users-permissions/services/AttributePermission.js:165-171 | one iteration of the `map` over current records: the model record sets the default, other records go through the existence check; it follows `Step` |
| AttributePermissionService.VisitAll | packages/strapi-plugin-users-permissions/services/AttributePermission.js:165-171 | after all records are visited, the pending list, the default and the writes are those of `Scan`; the surviving rows of the triple are `Scan`'s kept records |
| AttributePermissionService.UpdateModelPermissions | packages/strapi-plugin-users-permissions/services/AttributePermission.js:148-184 | the rows of the triple become `Reconciled(current)`, the log grows by `Plan(current)`, and rows of every other triple are unchanged |
| AttributePermissionService.ClauseFor | packages/strapi-plugin-users-permissions/services/AttributePermission.js:330-351 | each attribute contributes at most one `$or` clause |
| AttributePermissionService.SearchClauses | packages/strapi-plugin-users-permissions/services/AttributePermission.js:329-352 | the `$or` list has at most one clause per attribute |
| AttributePermissionService.ClausesOf | packages/strapi-plugin-users-permissions/services/AttributePermission.js:335-345 | the clause list of the searched attributes is positionwise their clauses |
| AttributePermissionService.ClauseForIsClauseOf | packages/strapi-plugin-users-permissions/services/AttributePermission.js:330-351 | an attribute yields its clause when it is searched and nothing otherwise |
| AttributePermissionService.SearchClausesAreSearchedAttrs | packages/strapi-plugin-users-permissions/services/AttributePermission.js:329-352 | the reduce yields exactly the clauses of the searched attributes, in declaration order |
| AttributePermissionService.SearchedAttrsMembers | packages/strapi-plugin-users-permissions/services/AttributePermission.js:329-352 | an attribute is searched if and only if it is declared and its type admits the query |
| AttributePermissionService.SearchClauseCases | packages/strapi-plugin-users-permissions/services/AttributePermission.js:330-351 | a text, string or password field always gets a case-insensitive regex clause; a numeric field is searched if and only if `_q` is numeric; a boolean field if and only if `_q` is `"true"` or `"false"`; every other type never |
| AttributePermissionService.PickProps | packages/strapi-plugin-users-permissions/services/AttributePermission.js:245 | `_.pick` keeps exactly the keys that are both present and among the aliases, with their values |
| AttributePermissionService.OmitProps | packages/strapi-plugin-users-permissions/services/AttributePermission.js:246 | `_.omit` keeps exactly the present keys that are not aliases, with their values |
| AttributePermissionService.SplitPartition | packages/strapi-plugin-users-permissions/services/AttributePermission.js:245-246 | relations and data are disjoint, together hold every key of the values, and each value is found on its side; the same split is at lines 261-262 |
| PermissionStore.Store.Find | packages/strapi-plugin-users-permissions/services/AttributePermission.js:159-163 | the query by triple returns the rows of that triple, in store order: a record is found if and only if it is stored with that role, type and model |
| PermissionStore.Store.Create | packages/strapi-plugin-users-permissions/services/AttributePermission.js:242-255 | `add` appends one record with a fresh id and logs a create |
| PermissionStore.Store.Update | packages/strapi-plugin-users-permissions/services/AttributePermission.js:204-207 | the record with that id is replaced, ids stay unique, an update is logged |
| PermissionStore.Store.Delete | packages/strapi-plugin-users-permissions/services/AttributePermission.js:194-196 | the record with that id is removed, a delete is logged |
| PermissionStore.SelectMembers | packages/strapi-plugin-users-permissions/services/AttributePermission.js:159-163 | a record is in the selection if and only if it is in the store and carries the triple's role, type and model |
| PermissionStore.SelectOutsidePartition | packages/strapi-plugin-users-permissions/services/AttributePermission.js:159-163 | the rows of the triple and the rows of every other triple together are all the rows, each once |
| PermissionStore.RemoveId | packages/strapi-plugin-users-permissions/services/AttributePermission.js:194-196 | a row survives a delete if and only if its id differs |
| PermissionStore.ReplaceId | packages/strapi-plugin-users-permissions/services/AttributePermission.js:204-207 | an update replaces exactly the rows with that id and keeps the order |
| PermissionStore.SelectAppendAll | packages/strapi-plugin-users-permissions/services/AttributePermission.js:228-239 | records created inside a triple extend that triple's selection and leave every other triple alone |
| PermissionStore.DeleteSelected | packages/strapi-plugin-users-permissions/services/AttributePermission.js:194-196 | deleting a selected record removes just it from the selection |
| PermissionStore.UpdateSelected | packages/strapi-plugin-users-permissions/services/AttributePermission.js:204-207 | updating a selected record replaces it in place in the selection |
| PermissionStore.RemoveIdUnique | packages/strapi-plugin-users-permissions/services/AttributePermission.js:194-196 | deleting keeps ids unique |
| ReconcileProperties.Without | packages/strapi-plugin-users-permissions/services/AttributePermission.js:151 | the pending list is the declared names minus the ones already handled |
| ReconcileProperties.ScanPending | packages/strapi-plugin-users-permissions/services/AttributePermission.js:188-198 | after the scan, the pending attributes are exactly the declared ones for which no record was met |
| ReconcileProperties.DropIff | packages/strapi-plugin-users-permissions/services/AttributePermission.js:188-197 | a record is deleted if and only if it has no attribute, its attribute is undeclared, or an earlier record already named it |
| ReconcileProperties.ScanWritesFrom | packages/strapi-plugin-users-permissions/services/AttributePermission.js:165-171 | the scan only appends to the log, and each appended update or delete concerns a visited record |
| ReconcileProperties.PlanConfined | packages/strapi-plugin-users-permissions/services/AttributePermission.js:148-184 | every created or updated record lies in the selected triple, and every update or delete targets one of the selected records |
| ReconcileProperties.WritesAbout | packages/strapi-plugin-users-permissions/services/AttributePermission.js:165-171 | the writes about a record are exactly those of its own visit |
| ReconcileProperties.DeletedIff | packages/strapi-plugin-users-permissions/services/AttributePermission.js:186-197 | the plan deletes an attribute record if and only if it has no attribute, the attribute is undeclared, or an earlier record names the same attribute |
| ReconcileProperties.UpdatedIff | packages/strapi-plugin-users-permissions/services/AttributePermission.js:198-208 | the plan updates a record if and only if it survives and its `enabled` equals the attribute's `private` flag; the update flips `enabled` and nothing else |
| ReconcileProperties.ModelRecordsUntouched | packages/strapi-plugin-users-permissions/services/AttributePermission.js:166-168 | model-scope records are never updated or deleted |
| ReconcileProperties.KeptProps | packages/strapi-plugin-users-permissions/services/AttributePermission.js:186-211 | surviving records are declared, name each attribute once, agree with privacy, and cover every declared attribute that had a record |
| ReconcileProperties.LastModel | packages/strapi-plugin-users-permissions/services/AttributePermission.js:166-167 | the default is unset if and only if there is no model-scope record |
| ReconcileProperties.DefaultIsLastModel | packages/strapi-plugin-users-permissions/services/AttributePermission.js:165-171 | the default is the `enabled` of the last model-scope record visited |
| ReconcileProperties.KeptOrigin | packages/strapi-plugin-users-permissions/services/AttributePermission.js:165-171 | every model-scope record survives, and every survivor comes from an existing record |
| ReconcileProperties.CreatedRecords | packages/strapi-plugin-users-permissions/services/AttributePermission.js:213-240 | the additions are the model record (if and only if none existed) followed by records for exactly the declared attributes with no record, each without repeats |
| ReconcileProperties.CreatedAt | packages/strapi-plugin-users-permissions/services/AttributePermission.js:220-239 | the i-th created record has id n+i: the model record (enabled) first, then the attribute records, each disabled when private |
| ReconcileProperties.CreatedPrivacy | packages/strapi-plugin-users-permissions/services/AttributePermission.js:236 | a created record of a private attribute is disabled |
| ReconcileProperties.ReconciledShape | packages/strapi-plugin-users-permissions/services/AttributePermission.js:148-240 | afterwards, every record names a declared attribute or is model-scope; each attribute has one record; every declared attribute has one; a model record exists; private attributes are disabled |
| ReconcileProperties.QuietScan | packages/strapi-plugin-users-permissions/services/AttributePermission.js:186-211 | a consistent set of records passes the checks with no writes and unchanged |
| ReconcileProperties.SettledIsFixpoint | packages/strapi-plugin-users-permissions/services/AttributePermission.js:148-240 | on a settled set of records the run issues no writes and changes nothing |
| ReconcileProperties.ReconciledFollowsPrivacy | packages/strapi-plugin-users-permissions/services/AttributePermission.js:200-207 | with the model default not false, every record's `enabled` is the negation of the attribute's `private` flag |
| ReconcileProperties.Idempotent | packages/strapi-plugin-users-permissions/services/AttributePermission.js:148-240 | with the model default not false, a second run issues no writes and changes nothing |
| ReconcileProperties.Converges | packages/strapi-plugin-users-permissions/services/AttributePermission.js:148-240 | for every default, the result of two runs is settled and a third run issues no writes |
| ReconcileProperties.SecondRunKeeps | packages/strapi-plugin-users-permissions/services/AttributePermission.js:213-240 | once every attribute and the model have records, a run creates nothing |
| ReconcileProperties.NotIdempotentWhenDefaultOff | packages/strapi-plugin-users-permissions/services/AttributePermission.js:236 | with a disabled model default, the second run re-enables the public attribute the first run created disabled |
| Schema.Names | packages/strapi-plugin-users-permissions/services/AttributePermission.js:151 | `Object.keys(model.attributes)` in declaration order |
| Schema.Private | packages/strapi-plugin-users-permissions/services/AttributePermission.js:200 | an attribute is private only when it is declared; its flag is that of its first declaration |
| Schema.AssociationFor | packages/strapi-plugin-users-permissions/services/Serialize.js:119 | the association found has the attribute as alias; none is found if and only if no association has it |
| Schema.TargetName | packages/strapi-plugin-users-permissions/services/Serialize.js:129-130 | the nested model name is `model`, else `modelName`, else `collection` |
| Schema.GetModel | packages/strapi-plugin-users-permissions/services/Serialize.js:63 | a model is found if and only if the name is a string naming a registered model |
| Js.Or | packages/strapi-plugin-users-permissions/services/User.js:52 | the logical or is truthy if and only if one operand is, and is the first operand when that one is truthy |
| Js.SetKey | packages/strapi-plugin-users-permissions/services/User.js:51-52 | assignment sets that key, appends it when new, and leaves every other key unchanged |
| Js.RemoveKey | packages/strapi-plugin-users-permissions/services/Serialize.js:64-65 | `delete` removes exactly the fields with that key |
| Js.DeleteProp | packages/strapi-plugin-users-permissions/services/Serialize.js:112 | `delete` on an object removes the key; on anything else it does nothing |
| Serialize.ScopeFor | packages/strapi-plugin-users-permissions/services/Serialize.js:184 | the scope is `attribute` exactly when the attribute name is truthy |
| Serialize.FindOne | packages/strapi-plugin-users-permissions/services/Serialize.js:178-188 | the record found is a matching enabled record; none is found if and only if no record matches |
| Serialize.PermissionFor | packages/strapi-plugin-users-permissions/services/Serialize.js:167-189 | an undeclared attribute gives `false`; otherwise an enabled record of that role, model, scope and attribute, or nothing if and only if none exists |
| Serialize.ModelPermission | packages/strapi-plugin-users-permissions/services/Serialize.js:158-164 | the model-level lookup never sees an undeclared attribute; it fails when the model is unknown; it finds a record if and only if a matching model-scope record exists |
| Serialize.AllowedKeys | packages/strapi-plugin-users-permissions/services/Serialize.js:79-80 | the filter keeps exactly the keys in `ALLOWED_ATTRS` |
| Serialize.ModelSerialized | packages/strapi-plugin-users-permissions/services/Serialize.js:57-88 | a falsy value passes through; an unknown model, or a missing or disabled model permission, is an error; a known model with an enabled model permission succeeds whenever no allowed-listed key names an association the role may read; a successful result keeps exactly the fields that are neither allowed-listed nor `__strapi_model` nor `__v` |
| Serialize.ModelSerializedErrIff | packages/strapi-plugin-users-permissions/services/Serialize.js:57-88 | serialization fails if and only if the node is truthy and its model is unknown, the model permission is missing, or an allowed key of the stripped node names a permitted association whose nested serialization fails |
| Serialize.AttributesSerialized | packages/strapi-plugin-users-permissions/services/Serialize.js:78-82 | serializing the listed attributes removes exactly those fields; it succeeds whenever none of them names an association the role may read |
| Serialize.AttributesErrIff | packages/strapi-plugin-users-permissions/services/Serialize.js:78-82 | the pass fails if and only if a listed key names a permitted association and the nested serialization of that field's value fails |
| Serialize.AttributeSerialized | packages/strapi-plugin-users-permissions/services/Serialize.js:90-156 | when it succeeds, the attribute is deleted, whatever its permission; a key without an association, or without an enabled record, is deleted without failure |
| Serialize.RemoveSetKey | packages/strapi-plugin-users-permissions/services/Serialize.js:136-152 | assigning the nested result and then deleting the key is the same as deleting it |
| Serialize.Serialized | packages/strapi-plugin-users-permissions/services/Serialize.js:7-32 | a falsy value, or a missing `ctx`, passes through; a scalar is unchanged; a tagged object goes to the model serializer; an untagged object keeps its keys, each array or object field takes the serialization of its value and every other field keeps its value; an array keeps its length and slot j becomes the serialization of element j |
| Serialize.FieldsSerialized | packages/strapi-plugin-users-permissions/services/Serialize.js:27-29 | the keys stay in order; from index i on, each array or object field takes the serialization of its value and every other field keeps the value it had; keys not visited keep theirs |
| Serialize.FieldSerialized | packages/strapi-plugin-users-permissions/services/Serialize.js:34-46 | the object keeps its keys; an array or object field takes the serialization of its value; a scalar field leaves the object unchanged; every other key keeps its value |
| Serialize.AttributeValue | packages/strapi-plugin-users-permissions/services/Serialize.js:35-45 | an array value keeps its length and element j becomes `SerializePlainObject` of element j; a scalar is unchanged |
| Serialize.ElementsSerialized | packages/strapi-plugin-users-permissions/services/Serialize.js:40-42 | the `map` gives one result per element, in order, and result j is `SerializePlainObject` of element j |
| Serialize.SlotsSerialized | packages/strapi-plugin-users-permissions/services/Serialize.js:27-29 | an array walked by its keys gives one result per slot, in order, and slot j is the serialized value of element j |
| Serialize.SerializePlainObject | packages/strapi-plugin-users-permissions/services/Serialize.js:7-32 | the method computes `Serialized` |
| Serialize.SerializeFields | packages/strapi-plugin-users-permissions/services/Serialize.js:27-29 | the loop over `Object.keys(data)` computes `FieldsSerialized` |
| Serialize.SerializePlainAttribute | packages/strapi-plugin-users-permissions/services/Serialize.js:34-46 | the method computes `FieldSerialized` |
| Serialize.SerializeSlots | packages/strapi-plugin-users-permissions/services/Serialize.js:40-42 | the loop over the array computes `SlotsSerialized` |
| Serialize.SerializePlainValue | packages/strapi-plugin-users-permissions/services/Serialize.js:35-45 | the method computes `AttributeValue` |
| Serialize.SerializeElements | packages/strapi-plugin-users-permissions/services/Serialize.js:40-42 | the method computes `ElementsSerialized` |
| Serialize.SerializeModel | packages/strapi-plugin-users-permissions/services/Serialize.js:57-88 | the method computes `ModelSerialized` |
| Serialize.SerializeAttributes | packages/strapi-plugin-users-permissions/services/Serialize.js:78-82 | the loop over the allowed keys computes `AttributesSerialized` |
| Serialize.SerializeAttribute | packages/strapi-plugin-users-permissions/services/Serialize.js:90-156 | the method computes `AttributeSerialized` |
| Serialize.AttributeValueIsSerialized | packages/strapi-plugin-users-permissions/services/Serialize.js:39-45 | with a context, serializing a field's value is serializing it as a plain object |
| Serialize.ElementsAreSlots | packages/strapi-plugin-users-permissions/services/Serialize.js:40-42 | the element-wise and the slot-wise array serializations agree |
| Serialize.PlainTagKept | packages/strapi-plugin-users-permissions/services/Serialize.js:22-24 | the `___strapi_model` tag of a tagged object is still in the output |
| Serialize.PlainTreeUnchanged | packages/strapi-plugin-users-permissions/services/Serialize.js:7-46 | a tree with distinct keys and no truthy `___strapi_model` tag anywhere is returned unchanged |
| Serialize.ModelSerializedAsWritten | packages/strapi-plugin-users-permissions/services/Serialize.js:57-88 | as written, SerializeModel rejects on every truthy node and passes a falsy one through unchanged |
| Serialize.AsWrittenRejectsPermitted | packages/strapi-plugin-users-permissions/services/Serialize.js:158-164 | for every truthy node with a known model, an enabled model permission and no permitted association among the allowed keys, the intended serializer succeeds and the code as written rejects |
| Serialize.RoleLookupNameRejects | packages/strapi-plugin-users-permissions/services/Serialize.js:161 | the Article node that the intended serializer reduces to all fields but `id` is rejected by the code as written |
| Serialize.ModelSerializedObj | packages/strapi-plugin-users-permissions/services/Serialize.js:63-87 | with a known model and a model permission, the result is the attribute pass over the stripped object |
| Serialize.NoPermissionDeletes | packages/strapi-plugin-users-permissions/services/Serialize.js:110-114 | an attribute without an enabled permission is deleted |
| Serialize.OneKey | packages/strapi-plugin-users-permissions/services/Serialize.js:78-82 | the pass over one key is that key's serialization |
| Serialize.ArticleKeepsAllButId | packages/strapi-plugin-users-permissions/services/Serialize.js:57-88 | for an Article with `id`, `title`, a private `secret`, an undeclared `extra` and an `author` association, only `id` is removed |
| UserService.Split | packages/strapi-plugin-users-permissions/services/User.js:97 | `split` yields at least one part and no part holds the separator |
| UserService.SplitJoin | packages/strapi-plugin-users-permissions/services/User.js:97 | joining the parts with the separator gives back the string |
| UserService.SplitCount | packages/strapi-plugin-users-permissions/services/User.js:97 | the number of parts is one more than the number of separators |
| UserService.IsHashed | packages/strapi-plugin-users-permissions/services/User.js:92-98 | a value counts as hashed if and only if it is a string with exactly three `$` |
| UserService.BcryptShapeIsHashed | packages/strapi-plugin-users-permissions/services/User.js:92-98 | a `$version$cost$digest` string is recognised as hashed |
| UserService.HashPassword | packages/strapi-plugin-users-permissions/services/User.js:80-90 | with a `null` user the promise rejects; it resolves null if and only if the password is falsy or already hashed; otherwise the password itself, truthy and not hashed, is hashed |
| UserService.DigestIsNotRehashed | packages/strapi-plugin-users-permissions/services/User.js:82-83 | a stored bcrypt digest is not hashed again |
| UserService.GetCurrentUser | packages/strapi-plugin-users-permissions/services/User.js:166-181 | the state user wins; without authorization the result is null; the "Invalid token" error is thrown if and only if the token has neither `_id` nor a truthy `id`; otherwise the user is looked up by the token's `_id` and `id` |
| UserService.TokenWithoutIdsThrows | packages/strapi-plugin-users-permissions/services/User.js:175-177 | an authorized request whose token has no ids is rejected |
| UserService.PublicRole | packages/strapi-plugin-users-permissions/services/User.js:161-163 | the fallback is the first role of type `public`, or null if and only if there is none |
| UserService.RoleOf | packages/strapi-plugin-users-permissions/services/User.js:154-163 | a user's truthy role wins; otherwise the public role |
| UserService.GetCurrentUserRole | packages/strapi-plugin-users-permissions/services/User.js:150-164 | a given user decides the role; otherwise the current user does, and its errors propagate |
| UserService.StateUserRoleWins | packages/strapi-plugin-users-permissions/services/User.js:150-168 | when the state user has a role, the role depends on neither the token, the lookup nor the stored roles |
| UserService.Values | packages/strapi-plugin-users-permissions/services/User.js:131 | the values of an object in key order |
| UserService.CollectIds | packages/strapi-plugin-users-permissions/services/User.js:129-135 | one id per key except `source` |
| UserService.ToRemove | packages/strapi-plugin-users-permissions/services/User.js:129-135 | no more ids than query keys |
| UserService.CollectIdsAreValues | packages/strapi-plugin-users-permissions/services/User.js:129-135 | collecting over the keys of a suffix yields that suffix's values without `source` |
| UserService.ToRemoveSkipsSource | packages/strapi-plugin-users-permissions/services/User.js:129-135 | the ids to remove are the query's values in key order with `source` removed, and all of them when there is no `source` |
| UserService.Assign | packages/strapi-plugin-users-permissions/services/User.js:57 | `_.assign` leaves every key the source does not name unchanged |
| UserService.AssignOverrides | packages/strapi-plugin-users-permissions/services/User.js:57 | every key the source names takes the source's value |
| UserService.JsObject.Set | packages/strapi-plugin-users-permissions/services/User.js:51 | a property assignment on the shared object |
| UserService.TargetUser | packages/strapi-plugin-users-permissions/services/User.js:51-52 | `params.model` becomes `"user"`, `params.id` becomes `_id` when that is truthy and otherwise `id`, and no other key changes |
| UserService.Edit | packages/strapi-plugin-users-permissions/services/User.js:41-58 | with the content manager, params are retargeted; without it, params become `_.assign(params, values)` |
| UserService.Remove | packages/strapi-plugin-users-permissions/services/User.js:106-116 | with the content manager, params are retargeted; without it, they are unchanged |
| UserService.RemoveAll | packages/strapi-plugin-users-permissions/services/User.js:118-140 | with the content manager, `params.model` and `query.source` are set and no id list is built; without it, both objects are unchanged and the ids are `ToRemove(query)` |
| AttributePermissionController.HexRunMeaning | packages/strapi-plugin-users-permissions/controllers/AttributePermission.js:31 | the anchored run of n hex digits matches exactly the strings of length n made of hex digits |
| AttributePermissionController.ObjectIdMeaning | packages/strapi-plugin-users-permissions/controllers/AttributePermission.js:31 | the ObjectId pattern matches if and only if the string has 24 characters, all hexadecimal |
| AttributePermissionController.FindOne | packages/strapi-plugin-users-permissions/controllers/AttributePermission.js:30-36 | a non-string `_id` throws; a string fails the pattern if and only if the answer is 404; otherwise `fetch` gets the params unchanged |
| AttributePermissionController.WrongLengthNotFound | packages/strapi-plugin-users-permissions/controllers/AttributePermission.js:31-33 | an id whose length is not 24 gets a 404 |
| AttributePermissionController.NonHexNotFound | packages/strapi-plugin-users-permissions/controllers/AttributePermission.js:31-33 | an id with a non-hex character gets a 404 |
| AttributePermissionController.HexIdFetched | packages/strapi-plugin-users-permissions/controllers/AttributePermission.js:31-35 | 24 hexadecimal digits reach `fetch` |
| AttributePermissionController.BothCasesAccepted | packages/strapi-plugin-users-permissions/controllers/AttributePermission.js:31 | the pattern's verdict is the same for an id and for its upper- and lower-case spellings |
| AttributePermissionController.Find | packages/strapi-plugin-users-permissions/controllers/AttributePermission.js:16-22 | the result is a search if and only if `_q` is truthy, otherwise fetch-all; the query is passed on unchanged |

## Left out

- Database plumbing is not modelled. The store is a sequence of records with a write log. `fetch`, `fetchAll`, `count`, the Mongo `remove` cascade (AttributePermission.js:273-314) and sort/skip/limit/populate of `search` are left out.
- Concurrency is left out. `Promise.all` and `await` are modelled as sequential calls in list order.
- The JSON round trip at Serialize.js:9-15 is left out. The serializer works on the tree that comes out of the copy. `toJSON` and cyclic data (the swallowed `JSON.stringify` failure) are not modelled.
- Console logging is left out.
- bcrypt is left out. `HashPassword` stops at the branch taken before `bcrypt.hash`, and `validatePassword` is not modelled.
- JWT decoding is left out. The decoded token is a parameter of `GetCurrentUser`.
- The user lookup `findOne({_id, id})` is a function parameter.
- The role query is a list of stored roles, of which the first public one is taken.
- The content-manager calls of `edit`, `remove` and `removeAll` are left out. Only their effect on the `params` and `query` objects is modelled.
- The final `update` and `delete` queries of `edit`, `remove` and `removeAll` are left out.
- The password hashing inside `edit` (User.js:45-47) and `add` is not modelled. `HashPassword` is modelled separately.
- UserService.RemoveAll: requires `params` and `query` to be two distinct objects. The aliased case is not modelled.
- AttributePermissionService.SearchClauses: whether `_.toNumber(params._q)` is a number is a boolean parameter (`numeric`). Number parsing and `$regex` matching are not modelled.
- Only the `$or` list of `search` is modelled. `convertParams` is not modelled.
- `initialize`/`updatePermissions` (the loop over plugins and models) is left out, and so is `strapi-utils/lib/plugins.js`. The model is one call of `updateModelPermissions` for one role and one model.
- The relation handling in `add` and `edit` (AttributePermission.js:242-271) is left out. `model.create` and `updateRelations` are left out too. Only the pick/omit split is modelled (SplitPartition). The store creates the whole record.
- Serialize.ModelSerialized, Serialize.ModelPermission, Serialize.PermissionFor, Serialize.AttributeSerialized, Serialize.ArticleKeepsAllButId model the intended role lookup, not the code as written. So do the members that reach it through ModelSerialized: Serialize.SerializeModel, Serialize.SerializeAttribute, Serialize.SerializeAttributes, Serialize.AttributesSerialized, Serialize.Serialized, Serialize.FieldsSerialized, Serialize.SerializePlainObject. Serialize.js:161 and 170 call `getCurrentUsersRole`, but User.js:146 exports `getCurrentUserRole`, so as written every truthy model node rejects with a TypeError. The role key the intended call yields is a parameter (`Ctx`). The code as written is Serialize.ModelSerializedAsWritten (see "Findings").
- `getModel` is assumed to return the same model when it is called again with a model (Serialize.js:91, 159, 168).
- In the model-scope permission query, an `attribute: undefined` key is treated as not constraining the query.
- Model-level denial is modelled as in the code. The model permission is null when no enabled model record exists. Line 71 then reads `.enabled` of null and throws (`Err`), instead of returning `undefined` at line 75.
- Serialize.ModelSerialized: an unknown nested association model makes the whole response an error. The model-scope lookup passes `attribute` as undefined, so the guard at Serialize.js:173 does not read `model.attributes`. Reading `model.globalName` at Serialize.js:182 throws instead (Serialize.ModelPermission).
- The reconciliation follows the code in two places where one might expect otherwise:
  - one might expect duplicate model-scope records to be removed, but they are never deleted (ModelRecordsUntouched);
  - one might expect a second run to be a no-op, but it is one only when the model default is not `false`. With a disabled default, every public attribute created disabled is re-enabled by the next run (NotIdempotentWhenDefaultOff, Converges).
- Apart from the role lookup above, the serializer follows the code where one might expect every field the role may not read to be removed:
  - only `_id`, `id`, `createdAt` and `updatedAt` are checked against permissions;
  - the stub policy at Serialize.js:140-155 deletes every permitted field that reaches it;
  - every other field is kept.

  The Article example (ArticleKeepsAllButId) shows that, with the intended role lookup, only `id` is removed and the private `secret` stays.
- Numbers are integers (`Js.Num`). Floating point, `NaN` and number-to-string conversion are not modelled.
- Object key order: integer-like keys, which JavaScript lists first in ascending order, are kept in the order they were added. This affects `Object.keys` in UserService.ToRemove, UserService.ToRemoveSkipsSource and Serialize.FieldsSerialized, and the position Js.SetKey gives a new key. For a query `{1: b, 0: a}` the source collects `[a, b]` and the model `[b, a]`.
- The `newValue === {}` comparisons (Serialize.js:132, 151) compare against a fresh object and are never true. They are modelled as such.

## Findings

| source | as written | input that shows it | evidently intended | confidence | as-written member | corrected member |
|---|---|---|---|---|---|---|
| packages/strapi-plugin-users-permissions/services/Serialize.js:161 | `getPermissionsForModel` calls `services.user.getCurrentUsersRole`, which the user service does not export, so every truthy node passed to SerializeModel rejects with a TypeError | the Article node of ArticleKeepsAllButId (lemma Serialize.RoleLookupNameRejects); in general every node the role may read with no permitted association among its allowed keys (lemma Serialize.AsWrittenRejectsPermitted) | call `getCurrentUserRole` (User.js:146) and filter the node by the role's permissions | high; not executed | Serialize.ModelSerializedAsWritten | Serialize.ModelSerialized |

=== FILE: attribute_permission.dfy ===
/** The attribute-permission service: the reconciliation that keeps the
    stored permission records of one (role, model) pair in step with the
    model's declared attributes, the `$or` clause list built by `search`, and
    the relation/data split done by `add` and `edit`.

    The reconciliation is given twice. The methods follow the service step by
    step against a `Store`; the functions `Scan`, `Plan` and `Reconciled`
    say what those steps amount to, and the module ReconcileProperties proves
    what the service promises about them. */
module AttributePermissionService {
  import opened Js
  import opened Schema
  import opened PermissionStore

  /** A role record; an id the record does not carry is "". */
  datatype Role = Role(mongoId: string, id: string, roleType: string)

  /** `role._id || role.id`. */
  function RoleKey(role: Role): (r: string)
    ensures role.mongoId != "" ==> r == role.mongoId
    ensures role.mongoId == "" ==> r == role.id
  {
    if role.mongoId != "" then role.mongoId else role.id
  }

  /** `pluginName || 'application'`. */
  function Namespace(pluginName: string): (r: string)
    ensures r != ""
    ensures pluginName != "" ==> r == pluginName
  {
    if pluginName != "" then pluginName else "application"
  }

  /** The `commonAttrs` triple that selects the records of one model for one role. */
  function KeyFor(role: Role, model: ModelDef, pluginName: string): (k: Key)
    ensures k.role == RoleKey(role) && k.namespace == Namespace(pluginName) && k.model == model.globalName
  {
    Key(RoleKey(role), Namespace(pluginName), model.globalName)
  }

  /** `toUpdate.indexOf(attribute)`; an absent attribute is never found. */
  function IndexOf(s: seq<string>, a: Option<string>): (i: int)
    ensures -1 <= i < |s|
    ensures i == -1 <==> a.None? || a.value !in s
    ensures 0 <= i ==> a.Some? && s[i] == a.value && a.value !in s[..i]
  {
    if a.None? || s == [] then -1
    else if s[0] == a.value then 0
    else
      var k := IndexOf(s[1..], a);
      if k == -1 then -1
      else
        assert s[..k + 1] == [s[0]] + s[1..][..k];
        k + 1
  }

  /** The record `add` creates for the model scope. */
  function ModelPerm(key: Key, enabled: bool): Permission
  {
    Permission(key.role, key.namespace, key.model, "model", None, enabled)
  }

  /** The record `add` creates for one attribute. */
  function AttrPerm(key: Key, a: string, enabled: bool): Permission
  {
    Permission(key.role, key.namespace, key.model, "attribute", Some(a), enabled)
  }

  /** What checkExistingPermission decides for one stored attribute-scope
      record: drop it, or keep it (with `enabled` re-derived from the privacy
      flag) and take its attribute off the pending list. */
  datatype Verdict = Drop | Keep(pending: seq<string>, entry: Entry)

  function CheckExisting(model: ModelDef, pending: seq<string>, e: Entry): Verdict
  {
    var idx := IndexOf(pending, e.perm.attribute);
    if idx == -1 || !Declared(model, e.perm.attribute.value) then Drop
    else
      var a := e.perm.attribute.value;
      Keep(pending[..idx] + pending[idx + 1..], Entry(e.id, e.perm.(enabled := !Private(model, a))))
  }

  /** The write checkExistingPermission issues for its verdict: a delete, an
      update when `enabled` changes, or nothing. */
  function CheckWrites(e: Entry, v: Verdict): seq<Write>
  {
    match v
    case Drop => [Delete(e.id)]
    case Keep(_, k) => if k.perm.enabled != e.perm.enabled then [Update(k.id, k.perm)] else []
  }

  /** The state of the pass over the stored records: the attributes still
      pending (`toUpdate`), the model default (`enabledDefault`, None for
      `null`), the writes issued and the records that remain. */
  datatype ScanState = ScanState(pending: seq<string>, enabledDefault: Option<bool>, writes: seq<Write>, kept: seq<Entry>)

  function Start(model: ModelDef): ScanState
  {
    ScanState(Names(model), None, [], [])
  }

  /** The writes one record of the pass issues: none for a model-scope
      record, otherwise those of checkExistingPermission. */
  function StepWrites(model: ModelDef, pending: seq<string>, e: Entry): seq<Write>
  {
    if e.perm.scope == "model" then [] else CheckWrites(e, CheckExisting(model, pending, e))
  }

  /** One record of `currentPermissions.map(...)`. */
  function Step(model: ModelDef, st: ScanState, e: Entry): (r: ScanState)
    ensures r.writes == st.writes + StepWrites(model, st.pending, e)
  {
    if e.perm.scope == "model" then
      ScanState(st.pending, Some(e.perm.enabled), st.writes, st.kept + [e])
    else
      var v := CheckExisting(model, st.pending, e);
      match v
      case Drop => ScanState(st.pending, st.enabledDefault, st.writes + CheckWrites(e, v), st.kept)
      case Keep(p, k) => ScanState(p, st.enabledDefault, st.writes + CheckWrites(e, v), st.kept + [k])
  }

  /** The pass over `s`, in order, from state `st`. */
  function ScanFrom(model: ModelDef, st: ScanState, s: seq<Entry>): ScanState
    decreases s
  {
    if s == [] then st else ScanFrom(model, Step(model, st, s[0]), s[1..])
  }

  function Scan(model: ModelDef, s: seq<Entry>): ScanState
  {
    ScanFrom(model, Start(model), s)
  }

  /** The records addNeededPermissions creates, in order: the model-scope
      record when none was seen, then one record per pending attribute,
      disabled when private and otherwise following the model default. */
  function Additions(model: ModelDef, key: Key, pending: seq<string>, enabledDefault: Option<bool>): seq<Permission>
  {
    var enabled := if enabledDefault.None? then true else enabledDefault.value;
    (if enabledDefault.None? then [ModelPerm(key, true)] else []) + AttrPerms(model, key, pending, enabled)
  }

  function AttrPerms(model: ModelDef, key: Key, names: seq<string>, enabled: bool): (ps: seq<Permission>)
    ensures |ps| == |names|
    ensures forall i :: 0 <= i < |names| ==> ps[i] == AttrPerm(key, names[i], if Private(model, names[i]) then false else enabled)
  {
    seq(|names|, i requires 0 <= i < |names| => AttrPerm(key, names[i], if Private(model, names[i]) then false else enabled))
  }

  /** The rows created records become: consecutive ids from `n`. */
  function Numbered(ps: seq<Permission>, n: nat): (es: seq<Entry>)
    ensures |es| == |ps|
    ensures forall i :: 0 <= i < |ps| ==> es[i] == Entry(n + i, ps[i])
  {
    seq(|ps|, i requires 0 <= i < |ps| => Entry(n + i, ps[i]))
  }

  function Creates(ps: seq<Permission>): (ws: seq<Write>)
    ensures |ws| == |ps|
    ensures forall i :: 0 <= i < |ps| ==> ws[i] == Create(ps[i])
  {
    seq(|ps|, i requires 0 <= i < |ps| => Create(ps[i]))
  }

  /** Every write one run of updateModelPermissions issues, in order, given
      the records `current` its find returned. */
  function Plan(model: ModelDef, key: Key, current: seq<Entry>): seq<Write>
  {
    var st := Scan(model, current);
    st.writes + Creates(Additions(model, key, st.pending, st.enabledDefault))
  }

  /** The records of the key after one run, when the next free id was `n`. */
  function Reconciled(model: ModelDef, key: Key, current: seq<Entry>, n: nat): seq<Entry>
  {
    var st := Scan(model, current);
    st.kept + Numbered(Additions(model, key, st.pending, st.enabledDefault), n)
  }

  lemma AdditionsAt(model: ModelDef, key: Key, pending: seq<string>, enabledDefault: Option<bool>, j: nat)
    requires j < |pending|
    ensures var off := if enabledDefault.None? then 1 else 0;
      var enabled := if enabledDefault.None? then true else enabledDefault.value;
      && |Additions(model, key, pending, enabledDefault)| == off + |pending|
      && Additions(model, key, pending, enabledDefault)[off + j] == AttrPerm(key, pending[j], if Private(model, pending[j]) then false else enabled)
  {
  }

  lemma AdditionsInKey(model: ModelDef, key: Key, pending: seq<string>, enabledDefault: Option<bool>, n: nat)
    ensures forall e :: e in Numbered(Additions(model, key, pending, enabledDefault), n) ==> InKey(e.perm, key)
  {
    var adds := Additions(model, key, pending, enabledDefault);
    var off := if enabledDefault.None? then 1 else 0;
    forall e | e in Numbered(adds, n) ensures InKey(e.perm, key) {
      var i :| 0 <= i < |adds| && Numbered(adds, n)[i] == e;
      if i >= off { AdditionsAt(model, key, pending, enabledDefault, i - off); }
    }
  }

  lemma ConcatAssoc<T>(a: seq<T>, b: seq<T>, c: seq<T>)
    ensures a + b + c == a + (b + c)
  {
  }

  lemma AppendAssoc<T>(a: seq<T>, b: seq<T>, x: T)
    ensures a + b + [x] == a + (b + [x])
  {
  }

  lemma NumberedSnoc(ps: seq<Permission>, n: nat, k: nat)
    requires k < |ps|
    ensures Numbered(ps[..k + 1], n) == Numbered(ps[..k], n) + [Entry(n + k, ps[k])]
    ensures Creates(ps[..k + 1]) == Creates(ps[..k]) + [Create(ps[k])]
  {
    assert Numbered(ps[..k + 1], n)[k] == Entry(n + k, ps[k]);
  }

  /** checkExistingPermission: drops a record whose attribute is no longer
      pending or not declared; otherwise splices the attribute out of the
      pending list and updates the record when its `enabled` disagrees with
      the privacy flag. */
  method CheckExistingPermission(store: Store, model: ModelDef, toUpdate: seq<string>, permission: Entry)
    returns (pending: seq<string>)
    requires store.Valid()
    modifies store
    ensures store.Valid() && store.nextId == old(store.nextId)
    ensures var v := CheckExisting(model, toUpdate, permission);
      && pending == (if v.Keep? then v.pending else toUpdate)
      && store.writes == old(store.writes) + CheckWrites(permission, v)
      && store.rows == match v
           case Drop => RemoveId(old(store.rows), permission.id)
           case Keep(_, k) => if CheckWrites(permission, v) == [] then old(store.rows) else ReplaceId(old(store.rows), k.id, k.perm)
  {
    var attribute := permission.perm.attribute;
    var updateIdx := IndexOf(toUpdate, attribute);
    if updateIdx == -1 || !Declared(model, attribute.value) {
      store.Delete(permission);
      pending := toUpdate;
      return;
    }
    pending := toUpdate[..updateIdx] + toUpdate[updateIdx + 1..];
    var toBeEnabled := !Private(model, attribute.value);
    if toBeEnabled != permission.perm.enabled {
      var updated := Entry(permission.id, permission.perm.(enabled := toBeEnabled));
      store.Update(updated);
    }
  }

  /** addNeededPermissions: creates the model-scope record first when none
      was seen, then one attribute-scope record per pending attribute. */
  method AddNeededPermissions(store: Store, model: ModelDef, key: Key, toUpdate: seq<string>, enabledDefault: Option<bool>)
    requires store.Valid()
    modifies store
    ensures store.Valid()
    ensures var adds := Additions(model, key, toUpdate, enabledDefault);
      && store.nextId == old(store.nextId) + |adds|
      && store.rows == old(store.rows) + Numbered(adds, old(store.nextId))
      && store.writes == old(store.writes) + Creates(adds)
      && Select(store.rows, key) == Select(old(store.rows), key) + Numbered(adds, old(store.nextId))
      && Outside(store.rows, key) == Outside(old(store.rows), key)
  {
    ghost var adds := Additions(model, key, toUpdate, enabledDefault);
    ghost var n0 := store.nextId;
    var enabled := true;
    if enabledDefault.None? {
      var _ := store.Create(ModelPerm(key, enabled));
    } else {
      enabled := enabledDefault.value;
    }
    ghost var rows1, writes1 := store.rows, store.writes;
    AddAttributePermissions(store, model, key, toUpdate, enabled);
    AddedInOrder(model, key, toUpdate, enabledDefault, n0, old(store.rows), old(store.writes), rows1, writes1);
    AdditionsInKey(model, key, toUpdate, enabledDefault, n0);
    SelectAppendAll(old(store.rows), key, Numbered(adds, n0));
  }

  /** The `toUpdate.map` of addNeededPermissions: one attribute-scope record
      per pending attribute, disabled when the attribute is private. */
  method AddAttributePermissions(store: Store, model: ModelDef, key: Key, toUpdate: seq<string>, enabled: bool)
    requires store.Valid()
    modifies store
    ensures store.Valid()
    ensures var attrs := AttrPerms(model, key, toUpdate, enabled);
      && store.nextId == old(store.nextId) + |attrs|
      && store.rows == old(store.rows) + Numbered(attrs, old(store.nextId))
      && store.writes == old(store.writes) + Creates(attrs)
  {
    ghost var attrs := AttrPerms(model, key, toUpdate, enabled);
    ghost var rows1, writes1, n1 := store.rows, store.writes, store.nextId;
    var j := 0;
    while j < |toUpdate|
      invariant 0 <= j <= |toUpdate|
      invariant store.Valid() && store.nextId == n1 + j
      invariant store.rows == rows1 + Numbered(attrs[..j], n1)
      invariant store.writes == writes1 + Creates(attrs[..j])
    {
      var attribute := toUpdate[j];
      var e := store.Create(AttrPerm(key, attribute, if Private(model, attribute) then false else enabled));
      NumberedSnoc(attrs, n1, j);
      AppendAssoc(rows1, Numbered(attrs[..j], n1), e);
      AppendAssoc(writes1, Creates(attrs[..j]), Create(e.perm));
      j := j + 1;
    }
    assert attrs[..j] == attrs;
  }

  /** The model-scope record, when one is created, precedes the attribute
      records and takes the first id. */
  lemma AddedInOrder(model: ModelDef, key: Key, toUpdate: seq<string>, enabledDefault: Option<bool>, n0: nat,
                     rows0: seq<Entry>, writes0: seq<Write>, rows1: seq<Entry>, writes1: seq<Write>)
    requires enabledDefault.None? ==> rows1 == rows0 + [Entry(n0, ModelPerm(key, true))] && writes1 == writes0 + [Create(ModelPerm(key, true))]
    requires enabledDefault.Some? ==> rows1 == rows0 && writes1 == writes0
    ensures var adds := Additions(model, key, toUpdate, enabledDefault);
      var off := if enabledDefault.None? then 1 else 0;
      var attrs := AttrPerms(model, key, toUpdate, if enabledDefault.None? then true else enabledDefault.value);
      && rows1 + Numbered(attrs, n0 + off) == rows0 + Numbered(adds, n0)
      && writes1 + Creates(attrs) == writes0 + Creates(adds)
  {
    var adds := Additions(model, key, toUpdate, enabledDefault);
    var off := if enabledDefault.None? then 1 else 0;
    var attrs := AttrPerms(model, key, toUpdate, if enabledDefault.None? then true else enabledDefault.value);
    if enabledDefault.None? {
      assert adds == [ModelPerm(key, true)] + attrs;
      NumberedCons(ModelPerm(key, true), attrs, n0);
      ConcatAssoc(rows0, [Entry(n0, ModelPerm(key, true))], Numbered(attrs, n0 + 1));
      ConcatAssoc(writes0, [Create(ModelPerm(key, true))], Creates(attrs));
    } else {
      assert adds == attrs;
    }
  }

  lemma NumberedCons(p: Permission, ps: seq<Permission>, n: nat)
    ensures Numbered([p] + ps, n) == [Entry(n, p)] + Numbered(ps, n + 1)
    ensures Creates([p] + ps) == [Create(p)] + Creates(ps)
  {
    assert forall i :: 1 <= i < |ps| + 1 ==> ([p] + ps)[i] == ps[i - 1];
  }

  /** The callback `currentPermissions.map` runs on its `i`-th record. `st`
      is the state the earlier records left: a model-scope record only sets
      the default; any other goes through checkExistingPermission. */
  method VisitPermission(store: Store, model: ModelDef, key: Key, currentPermissions: seq<Entry>, i: nat, ghost st: ScanState,
                         toUpdate: seq<string>, enabledDefault: Option<bool>, ghost writes0: seq<Write>)
    returns (toUpdate': seq<string>, enabledDefault': Option<bool>, ghost st': ScanState)
    requires i < |currentPermissions|
    requires store.Valid()
    requires toUpdate == st.pending && enabledDefault == st.enabledDefault
    requires store.writes == writes0 + st.writes
    requires Select(store.rows, key) == st.kept + currentPermissions[i..]
    modifies store
    ensures st' == Step(model, st, currentPermissions[i])
    ensures ScanFrom(model, st', currentPermissions[i + 1..]) == ScanFrom(model, st, currentPermissions[i..])
    ensures store.Valid() && store.nextId == old(store.nextId)
    ensures toUpdate' == st'.pending && enabledDefault' == st'.enabledDefault
    ensures store.writes == writes0 + st'.writes
    ensures Select(store.rows, key) == st'.kept + currentPermissions[i + 1..]
    ensures Outside(store.rows, key) == Outside(old(store.rows), key)
  {
    var permission := currentPermissions[i];
    ghost var rest := currentPermissions[i + 1..];
    assert currentPermissions[i..] == [permission] + rest;
    assert currentPermissions[i..][1..] == rest;
    ConcatAssoc(st.kept, [permission], rest);
    ConcatAssoc(writes0, st.writes, StepWrites(model, st.pending, permission));
    st' := Step(model, st, permission);
    if permission.perm.scope == "model" {
      enabledDefault' := Some(permission.perm.enabled);
      toUpdate' := toUpdate;
      return;
    }
    enabledDefault' := enabledDefault;
    ghost var v := CheckExisting(model, toUpdate, permission);
    toUpdate' := CheckExistingPermission(store, model, toUpdate, permission);
    if v.Drop? {
      DeleteSelected(old(store.rows), key, st.kept, permission, rest);
    } else if CheckWrites(permission, v) != [] {
      assert permission in Select(old(store.rows), key);
      SelectedRow(old(store.rows), key, permission);
      UpdateSelected(old(store.rows), key, st.kept, permission, rest, v.entry.perm);
    }
  }

  /** `currentPermissions.map(...)`: the pass over the records of the key,
      in the order the find returned them. */
  method VisitAll(store: Store, model: ModelDef, key: Key, currentPermissions: seq<Entry>)
    returns (toUpdate: seq<string>, enabledDefault: Option<bool>)
    requires store.Valid()
    requires Select(store.rows, key) == currentPermissions
    modifies store
    ensures store.Valid() && store.nextId == old(store.nextId)
    ensures var st := Scan(model, currentPermissions);
      && toUpdate == st.pending && enabledDefault == st.enabledDefault
      && store.writes == old(store.writes) + st.writes
      && Select(store.rows, key) == st.kept
    ensures Outside(store.rows, key) == Outside(old(store.rows), key)
  {
    enabledDefault := None;
    toUpdate := Names(model);
    ghost var st := Start(model);
    var i := 0;
    while i < |currentPermissions|
      invariant 0 <= i <= |currentPermissions|
      invariant store.Valid() && store.nextId == old(store.nextId)
      invariant ScanFrom(model, st, currentPermissions[i..]) == Scan(model, currentPermissions)
      invariant toUpdate == st.pending && enabledDefault == st.enabledDefault
      invariant store.writes == old(store.writes) + st.writes
      invariant Select(store.rows, key) == st.kept + currentPermissions[i..]
      invariant Outside(store.rows, key) == Outside(old(store.rows), key)
    {
      toUpdate, enabledDefault, st := VisitPermission(store, model, key, currentPermissions, i, st, toUpdate, enabledDefault, old(store.writes));
      i := i + 1;
    }
    assert currentPermissions[i..] == [];
  }

  /** updateModelPermissions: reconciles the stored records of one model for
      one role with the model's declared attributes. Only the records of
      the key are read or written. */
  method UpdateModelPermissions(store: Store, role: Role, model: ModelDef, pluginName: string)
    requires store.Valid()
    modifies store
    ensures store.Valid()
    ensures var key := KeyFor(role, model, pluginName);
      var current := Select(old(store.rows), key);
      && Outside(store.rows, key) == Outside(old(store.rows), key)
      && Select(store.rows, key) == Reconciled(model, key, current, old(store.nextId))
      && store.writes == old(store.writes) + Plan(model, key, current)
  {
    var commonAttrs := KeyFor(role, model, pluginName);
    var currentPermissions := store.Find(commonAttrs);
    var toUpdate, enabledDefault := VisitAll(store, model, commonAttrs, currentPermissions);
    ghost var st := Scan(model, currentPermissions);
    AddNeededPermissions(store, model, commonAttrs, toUpdate, enabledDefault);
    ConcatAssoc(old(store.writes), st.writes, Creates(Additions(model, commonAttrs, toUpdate, enabledDefault)));
  }

  // ---------------------------------------------------------------------
  // search: the `$or` clause list

  /** One clause of the `$or` list: `{ [field]: value }`,
      `{ [field]: { $regex: pattern, $options: options } }`, or
      `{ [field]: b }` for a boolean attribute. */
  datatype Clause =
    | Equals(field: string, value: Value)
    | Regex(field: string, pattern: Value, options: string)
    | IsBool(field: string, b: bool)

  predicate NumericType(t: string) { t == "integer" || t == "float" || t == "decimal" }
  predicate TextType(t: string) { t == "string" || t == "text" || t == "password" }

  /** The clause the `switch` adds for one attribute, if any. `numeric` says
      whether `_.toNumber(params._q)` is a number. */
  function ClauseFor(a: AttrDef, q: Value, numeric: bool): (cs: seq<Clause>)
    ensures |cs| <= 1
  {
    if NumericType(a.attrType) then (if numeric then [Equals(a.name, q)] else [])
    else if TextType(a.attrType) then [Regex(a.name, q, "i")]
    else if a.attrType == "boolean" then
      (if q == Str("true") || q == Str("false") then [IsBool(a.name, q == Str("true"))] else [])
    else []
  }

  /** `Object.keys(model.attributes).reduce(...)`, with the accumulator
      extended by each attribute's clause in key order. */
  function SearchClauses(attrs: seq<AttrDef>, q: Value, numeric: bool): (cs: seq<Clause>)
    ensures |cs| <= |attrs|
  {
    if attrs == [] then []
    else SearchClauses(attrs[..|attrs| - 1], q, numeric) + ClauseFor(attrs[|attrs| - 1], q, numeric)
  }

  /** An independent reading of the switch: whether an attribute is searched
      for this query, and the clause it gets when it is. */
  predicate Searched(a: AttrDef, q: Value, numeric: bool)
  {
    (NumericType(a.attrType) && numeric)
    || TextType(a.attrType)
    || (a.attrType == "boolean" && q in {Str("true"), Str("false")})
  }

  function ClauseOf(a: AttrDef, q: Value): Clause
  {
    if TextType(a.attrType) then Regex(a.name, q, "i")
    else if a.attrType == "boolean" then IsBool(a.name, q == Str("true"))
    else Equals(a.name, q)
  }

  /** The searched attributes, in key order. */
  function SearchedAttrs(attrs: seq<AttrDef>, q: Value, numeric: bool): seq<AttrDef>
  {
    if attrs == [] then []
    else (if Searched(attrs[0], q, numeric) then [attrs[0]] else []) + SearchedAttrs(attrs[1..], q, numeric)
  }

  function ClausesOf(attrs: seq<AttrDef>, q: Value): (cs: seq<Clause>)
    ensures |cs| == |attrs|
    ensures forall i :: 0 <= i < |attrs| ==> cs[i] == ClauseOf(attrs[i], q)
  {
    seq(|attrs|, i requires 0 <= i < |attrs| => ClauseOf(attrs[i], q))
  }

  lemma ClauseForIsClauseOf(a: AttrDef, q: Value, numeric: bool)
    ensures ClauseFor(a, q, numeric) == if Searched(a, q, numeric) then [ClauseOf(a, q)] else []
  {
  }

  lemma {:induction false} SearchedAttrsSnoc(attrs: seq<AttrDef>, q: Value, numeric: bool)
    requires attrs != []
    ensures SearchedAttrs(attrs, q, numeric)
      == SearchedAttrs(attrs[..|attrs| - 1], q, numeric)
         + (if Searched(attrs[|attrs| - 1], q, numeric) then [attrs[|attrs| - 1]] else [])
  {
    var init := attrs[..|attrs| - 1];
    var last := if Searched(attrs[|attrs| - 1], q, numeric) then [attrs[|attrs| - 1]] else [];
    var head := if Searched(attrs[0], q, numeric) then [attrs[0]] else [];
    if |attrs| == 1 {
      assert SearchedAttrs(attrs, q, numeric) == head + SearchedAttrs(attrs[1..], q, numeric);
      assert attrs[1..] == [] && init == [];
    } else {
      var tail := attrs[1..];
      SearchedAttrsSnoc(tail, q, numeric);
      assert tail[..|tail| - 1] == init[1..];
      assert tail[|tail| - 1] == attrs[|attrs| - 1];
      assert SearchedAttrs(tail, q, numeric) == SearchedAttrs(init[1..], q, numeric) + last;
      assert init[0] == attrs[0];
      assert SearchedAttrs(init, q, numeric) == head + SearchedAttrs(init[1..], q, numeric);
      assert SearchedAttrs(attrs, q, numeric) == head + SearchedAttrs(tail, q, numeric);
      ConcatAssoc(head, SearchedAttrs(init[1..], q, numeric), last);
    }
  }

  lemma ClausesOfConcat(a: seq<AttrDef>, b: seq<AttrDef>, q: Value)
    ensures ClausesOf(a + b, q) == ClausesOf(a, q) + ClausesOf(b, q)
  {
  }

  /** The clause list is exactly the searched attributes, in key order, each
      with the clause its type calls for. */
  lemma {:induction false} SearchClausesAreSearchedAttrs(attrs: seq<AttrDef>, q: Value, numeric: bool)
    ensures SearchClauses(attrs, q, numeric) == ClausesOf(SearchedAttrs(attrs, q, numeric), q)
  {
    if attrs != [] {
      var init := attrs[..|attrs| - 1];
      var last := attrs[|attrs| - 1];
      SearchClausesAreSearchedAttrs(init, q, numeric);
      SearchedAttrsSnoc(attrs, q, numeric);
      ClauseForIsClauseOf(last, q, numeric);
      ClausesOfConcat(SearchedAttrs(init, q, numeric), if Searched(last, q, numeric) then [last] else [], q);
    }
  }

  /** The searched attributes are the attributes the switch accepts, in order. */
  lemma {:induction false} SearchedAttrsMembers(attrs: seq<AttrDef>, q: Value, numeric: bool)
    ensures forall a :: a in SearchedAttrs(attrs, q, numeric) <==> a in attrs && Searched(a, q, numeric)
  {
    if attrs != [] {
      SearchedAttrsMembers(attrs[1..], q, numeric);
      assert attrs == [attrs[0]] + attrs[1..];
    }
  }

  /** Text attributes are always searched, as a case-insensitive regex on
      `_q`; numeric ones only when `_q` is a number; boolean ones only for
      `'true'` and `'false'`; attributes of any other type never. */
  lemma SearchClauseCases(attrs: seq<AttrDef>, q: Value, numeric: bool, a: AttrDef)
    requires a in attrs
    ensures TextType(a.attrType) ==> Regex(a.name, q, "i") in SearchClauses(attrs, q, numeric)
    ensures NumericType(a.attrType) ==> (a in SearchedAttrs(attrs, q, numeric) <==> numeric)
    ensures a.attrType == "boolean" ==> (a in SearchedAttrs(attrs, q, numeric) <==> q == Str("true") || q == Str("false"))
    ensures !NumericType(a.attrType) && !TextType(a.attrType) && a.attrType != "boolean" ==> a !in SearchedAttrs(attrs, q, numeric)
  {
    SearchedAttrsMembers(attrs, q, numeric);
    SearchClausesAreSearchedAttrs(attrs, q, numeric);
    if TextType(a.attrType) {
      var s := SearchedAttrs(attrs, q, numeric);
      var i :| 0 <= i < |s| && s[i] == a;
      assert ClausesOf(s, q)[i] == Regex(a.name, q, "i");
    }
  }

  // ---------------------------------------------------------------------
  // add / edit: the relation / data split

  /** `_.pick(values, paths)`: the fields of `values` named in `paths`, in
      the order of `paths`. */
  function Pick(values: seq<Field>, paths: seq<string>): (r: seq<Field>)
  {
    if paths == [] then []
    else
      var acc := Pick(values, paths[..|paths| - 1]);
      var p := paths[|paths| - 1];
      if p in Keys(values) then SetKey(acc, p, Get(values, p)) else acc
  }

  /** `_.omit(values, paths)`: every field of `values` not named in `paths`,
      in the order of `values`. */
  function Omit(values: seq<Field>, paths: seq<string>): (r: seq<Field>)
  {
    if values == [] then []
    else (if values[0].key in paths then [] else [values[0]]) + Omit(values[1..], paths)
  }

  lemma KeysConcat(a: seq<Field>, b: seq<Field>)
    ensures Keys(a + b) == Keys(a) + Keys(b)
  {
  }

  lemma {:induction false} PickProps(values: seq<Field>, paths: seq<string>)
    ensures forall k :: k in Keys(Pick(values, paths)) <==> k in Keys(values) && k in paths
    ensures forall k :: Get(Pick(values, paths), k) == if k in paths then Get(values, k) else Undefined
  {
    if paths != [] {
      var init := paths[..|paths| - 1];
      var p := paths[|paths| - 1];
      PickProps(values, init);
      assert paths == init + [p];
      var acc := Pick(values, init);
      if p in Keys(values) && p !in Keys(acc) {
        KeysConcat(acc, [Field(p, Get(values, p))]);
      }
    }
  }

  lemma {:induction false} OmitProps(values: seq<Field>, paths: seq<string>)
    ensures forall k :: k in Keys(Omit(values, paths)) <==> k in Keys(values) && k !in paths
    ensures forall k :: Get(Omit(values, paths), k) == if k in paths then Undefined else Get(values, k)
  {
    if values != [] {
      var rest := Omit(values[1..], paths);
      OmitProps(values[1..], paths);
      assert Keys(values) == [values[0].key] + Keys(values[1..]);
      if values[0].key in paths {
        assert Omit(values, paths) == rest;
      } else {
        var r := [values[0]] + rest;
        assert Omit(values, paths) == r;
        assert r[1..] == rest;
        KeysConcat([values[0]], rest);
      }
    }
  }

  /** The split `add` and `edit` make: the relation fields and the data fields. */
  function Split(values: seq<Field>, aliases: seq<string>): (seq<Field>, seq<Field>)
  {
    (Pick(values, aliases), Omit(values, aliases))
  }

  /** The two halves are disjoint, together carry exactly the keys of
      `values`, the relation half exactly those named by an association, and
      every key keeps its value in the half that holds it. */
  lemma SplitPartition(values: seq<Field>, aliases: seq<string>)
    ensures var (relations, data) := Split(values, aliases);
      && (forall k :: !(k in Keys(relations) && k in Keys(data)))
      && (forall k :: k in Keys(values) <==> k in Keys(relations) || k in Keys(data))
      && (forall k :: k in Keys(relations) <==> k in Keys(values) && k in aliases)
      && (forall k :: Get(values, k) == if k in aliases then Get(relations, k) else Get(data, k))
  {
    PickProps(values, aliases);
    OmitProps(values, aliases);
  }
}

=== FILE: controller.dfy ===
/** The attribute-permission controller: which service call a request turns
    into. Only `find` and `findOne` decide anything; the other actions pass
    the request through unchanged. */
module AttributePermissionController {
  import opened Js

  /** The service call an action ends in, or the 404 answer. */
  datatype Outcome =
    | Search(query: seq<Field>)
    | FetchAll(query: seq<Field>)
    | Fetch(params: seq<Field>)
    | NotFound

  /** One character of the class `[0-9a-fA-F]`. */
  predicate HexDigit(c: char)
  {
    ('0' <= c <= '9') || ('a' <= c <= 'f') || ('A' <= c <= 'F')
  }

  /** The regular expression `[0-9a-fA-F]{n}` anchored at both ends: `n`
      repetitions of the class, then the end of the input. */
  predicate HexRun(s: string, n: nat)
  {
    if n == 0 then s == []
    else s != [] && HexDigit(s[0]) && HexRun(s[1..], n - 1)
  }

  /** `/^[0-9a-fA-F]{24}$/`, a MongoDB ObjectId in hexadecimal. */
  predicate ObjectIdPattern(s: string)
  {
    HexRun(s, 24)
  }

  /** The anchored run matches exactly the strings of length `n` made of
      hexadecimal digits. */
  lemma {:induction false} HexRunMeaning(s: string, n: nat)
    ensures HexRun(s, n) <==> |s| == n && forall i :: 0 <= i < |s| ==> HexDigit(s[i])
  {
    if n > 0 && s != [] {
      HexRunMeaning(s[1..], n - 1);
      assert forall i :: 1 <= i < |s| ==> s[i] == s[1..][i - 1];
    }
  }

  lemma ObjectIdMeaning(s: string)
    ensures ObjectIdPattern(s) <==> |s| == 24 && forall i :: 0 <= i < |s| ==> HexDigit(s[i])
  {
    HexRunMeaning(s, 24);
  }

  /** findOne: a `params._id` that is not 24 hexadecimal digits is answered
      with 404; anything else reaches the service's fetch with the params
      as they came. `_id.match` throws when `_id` is not a string. */
  function FindOne(params: seq<Field>): (r: Result<Outcome>)
    ensures r.Err? <==> !Get(params, "_id").Str?
    ensures r == Ok(Fetch(params)) <==> Get(params, "_id").Str? && ObjectIdPattern(Get(params, "_id").s)
    ensures r == Ok(NotFound) <==> Get(params, "_id").Str? && !ObjectIdPattern(Get(params, "_id").s)
    ensures r.Ok? ==> r.value.NotFound? || r.value == Fetch(params)
  {
    var id := Get(params, "_id");
    if !id.Str? then Err(TypeError("ctx.params._id.match"))
    else if !ObjectIdPattern(id.s) then Ok(NotFound)
    else Ok(Fetch(params))
  }

  /** An id of the wrong length is answered with 404. */
  lemma WrongLengthNotFound(params: seq<Field>)
    requires Get(params, "_id").Str? && |Get(params, "_id").s| != 24
    ensures FindOne(params) == Ok(NotFound)
  {
    ObjectIdMeaning(Get(params, "_id").s);
  }

  /** An id with a character outside `[0-9a-fA-F]` is answered with 404. */
  lemma NonHexNotFound(params: seq<Field>, i: nat)
    requires Get(params, "_id").Str? && i < |Get(params, "_id").s| && !HexDigit(Get(params, "_id").s[i])
    ensures FindOne(params) == Ok(NotFound)
  {
    ObjectIdMeaning(Get(params, "_id").s);
  }

  /** Twenty-four hexadecimal digits, in either case, reach fetch. */
  lemma HexIdFetched(params: seq<Field>)
    requires Get(params, "_id").Str? && |Get(params, "_id").s| == 24
    requires forall i :: 0 <= i < 24 ==> HexDigit(Get(params, "_id").s[i])
    ensures FindOne(params) == Ok(Fetch(params))
  {
    ObjectIdMeaning(Get(params, "_id").s);
  }

  /** ASCII upper- and lower-casing of one character. */
  function UpperChar(c: char): char
  {
    if 'a' <= c <= 'z' then (c as int - 32) as char else c
  }

  function LowerChar(c: char): char
  {
    if 'A' <= c <= 'Z' then (c as int + 32) as char else c
  }

  /** Both cases of the letters are accepted: an id matches exactly when its
      upper-case spelling does, and exactly when its lower-case one does. */
  lemma {:induction false} BothCasesAccepted(s: string, upper: string, lower: string)
    requires |upper| == |s| && forall i :: 0 <= i < |s| ==> upper[i] == UpperChar(s[i])
    requires |lower| == |s| && forall i :: 0 <= i < |s| ==> lower[i] == LowerChar(s[i])
    ensures ObjectIdPattern(s) <==> ObjectIdPattern(upper)
    ensures ObjectIdPattern(s) <==> ObjectIdPattern(lower)
  {
    ObjectIdMeaning(s);
    ObjectIdMeaning(upper);
    ObjectIdMeaning(lower);
    assert forall i :: 0 <= i < |s| ==> (HexDigit(s[i]) <==> HexDigit(upper[i]) && HexDigit(lower[i]));
  }

  /** find: a search when `ctx.query._q` is truthy, otherwise every record;
      either way the query is passed on as it came. */
  function Find(query: seq<Field>): (r: Outcome)
    ensures r.Search? <==> Truthy(Get(query, "_q"))
    ensures r.FetchAll? <==> !Truthy(Get(query, "_q"))
    ensures (r.Search? || r.FetchAll?) && r.query == query
  {
    if Truthy(Get(query, "_q")) then Search(query) else FetchAll(query)
  }
}

=== FILE: js.dfy ===
/** JavaScript values as the plugin sees them once a document has been turned
    into plain JSON: a finite tree of scalars, arrays and objects. An object's
    fields are kept in the order they were added; JavaScript's own ordering
    of integer-like keys (first, in ascending order) is not modelled. */
module Js {

  datatype Option<T> = None | Some(value: T)

  /** The ways a call can end with an exception instead of a value. */
  datatype Fault =
    | TypeError(site: string)   // a property read on `null` or `undefined`
    | InvalidToken              // the explicit throw of getCurrentUser

  datatype Result<T> = Ok(value: T) | Err(fault: Fault)

  /** Numbers are modelled as integers; floating point and NaN are not modelled. */
  datatype Value =
    | Undefined
    | Null
    | Bool(b: bool)
    | Num(n: int)
    | Str(s: string)
    | Arr(items: seq<Value>)
    | Obj(fields: seq<Field>)

  /** One own property of an object. `Object.keys` is modelled as the order
      of the fields, which matches JavaScript for keys that are not
      integer-like. */
  datatype Field = Field(key: string, val: Value)

  /** JavaScript truthiness: `undefined`, `null`, `false`, `0` and `""` are falsy;
      every array and object is truthy. */
  predicate Truthy(v: Value)
  {
    match v
    case Undefined => false
    case Null => false
    case Bool(b) => b
    case Num(n) => n != 0
    case Str(s) => s != ""
    case Arr(_) => true
    case Obj(_) => true
  }

  /** The `a || b` operator. */
  function Or(a: Value, b: Value): (r: Value)
    ensures Truthy(r) <==> Truthy(a) || Truthy(b)
    ensures Truthy(a) ==> r == a
  {
    if Truthy(a) then a else b
  }

  /** `Object.keys(o)`. */
  function Keys(fields: seq<Field>): (ks: seq<string>)
    ensures |ks| == |fields|
    ensures forall i :: 0 <= i < |fields| ==> ks[i] == fields[i].key
  {
    if fields == [] then [] else [fields[0].key] + Keys(fields[1..])
  }

  /** `o[k]`: the value of the first field named `k`, or `undefined`. */
  function Get(fields: seq<Field>, k: string): (v: Value)
    ensures k !in Keys(fields) ==> v == Undefined
    ensures |fields| > 0 && fields[0].key == k ==> v == fields[0].val
  {
    if fields == [] then Undefined
    else if fields[0].key == k then fields[0].val
    else Get(fields[1..], k)
  }

  /** `v.k` on a value that is not `null` or `undefined`. */
  function Prop(v: Value, k: string): (r: Value)
    ensures !v.Obj? ==> r == Undefined
  {
    if v.Obj? then Get(v.fields, k) else Undefined
  }

  /** `o[k] = v`: overwrites the field in place, or appends a new last field. */
  function SetKey(fields: seq<Field>, k: string, v: Value): (r: seq<Field>)
    ensures k in Keys(fields) ==> Keys(r) == Keys(fields)
    ensures k !in Keys(fields) ==> r == fields + [Field(k, v)]
    ensures Get(r, k) == v
    ensures forall k' :: k' != k ==> Get(r, k') == Get(fields, k')
  {
    if fields == [] then [Field(k, v)]
    else if fields[0].key == k then
      var r := [Field(k, v)] + fields[1..];
      assert r[1..] == fields[1..];
      assert Keys(r) == Keys(fields);
      r
    else
      var rest := SetKey(fields[1..], k, v);
      var r := [fields[0]] + rest;
      assert r[1..] == rest;
      assert Keys(fields) == [fields[0].key] + Keys(fields[1..]);
      assert Keys(r) == [fields[0].key] + Keys(rest);
      assert k !in Keys(fields) ==> r == fields + [Field(k, v)] by {
        if k !in Keys(fields) {
          assert fields == [fields[0]] + fields[1..];
        }
      }
      r
  }

  /** `delete o[k]`: every field named `k` is removed, the others keep their order. */
  function RemoveKey(fields: seq<Field>, k: string): (r: seq<Field>)
    ensures k !in Keys(r)
    ensures forall f :: f in r <==> f in fields && f.key != k
    ensures |r| <= |fields|
  {
    if fields == [] then []
    else if fields[0].key == k then RemoveKey(fields[1..], k)
    else [fields[0]] + RemoveKey(fields[1..], k)
  }

  /** `delete v.k` on any value: only objects are affected. */
  function DeleteProp(v: Value, k: string): (r: Value)
    ensures v.Obj? <==> r.Obj?
    ensures !v.Obj? ==> r == v
    ensures r.Obj? ==> r.fields == RemoveKey(v.fields, k)
  {
    if v.Obj? then Obj(RemoveKey(v.fields, k)) else v
  }

  lemma {:induction false} GetIn(fields: seq<Field>, k: string)
    requires k in Keys(fields)
    ensures Field(k, Get(fields, k)) in fields
  {
    if fields[0].key != k {
      assert Keys(fields) == [fields[0].key] + Keys(fields[1..]);
      GetIn(fields[1..], k);
    }
  }

  /** Deleting one key leaves every other property as it was. */
  lemma {:induction false} GetRemoveOther(fields: seq<Field>, k: string, other: string)
    requires other != k
    ensures Get(RemoveKey(fields, k), other) == Get(fields, other)
  {
    if fields != [] {
      GetRemoveOther(fields[1..], k, other);
    }
  }

  /** An object's keys are distinct. */
  ghost predicate DistinctKeys(fields: seq<Field>)
  {
    forall i, j :: 0 <= i < j < |fields| ==> fields[i].key != fields[j].key
  }

  lemma DistinctKeysTail(fields: seq<Field>)
    requires DistinctKeys(fields) && fields != []
    ensures DistinctKeys(fields[1..])
  {
    forall a, b | 0 <= a < b < |fields[1..]| ensures fields[1..][a].key != fields[1..][b].key {
      assert fields[1..][a] == fields[a + 1] && fields[1..][b] == fields[b + 1];
    }
  }
}

=== FILE: permission_store.dfy ===
/** The store of attribute-permission records, reduced to what the plugin
    relies on: rows kept in insertion order, each with a unique id, a
    filtered find, create, update by id and delete by id. Every write is also
    appended to a log, so that the writes an operation issues can be counted
    and compared. */
module PermissionStore {
  import opened Js

  /** One attribute-permission record. `namespace` is the record's `type`
      key: a plugin name or "application". `attribute` is absent on
      model-scope records. */
  datatype Permission = Permission(
    role: string,
    namespace: string,
    model: string,
    scope: string,
    attribute: Option<string>,
    enabled: bool)

  datatype Entry = Entry(id: nat, perm: Permission)

  /** The (role, type, model) triple that selects the records of one model for one role. */
  datatype Key = Key(role: string, namespace: string, model: string)

  /** A write issued against the store. */
  datatype Write = Create(perm: Permission) | Update(id: nat, perm: Permission) | Delete(id: nat)

  predicate InKey(p: Permission, key: Key)
  {
    p.role == key.role && p.namespace == key.namespace && p.model == key.model
  }

  ghost predicate UniqueIds(rows: seq<Entry>)
  {
    forall i, j :: 0 <= i < j < |rows| ==> rows[i].id != rows[j].id
  }

  /** `find({ where: key })`: the rows of the key, in store order. */
  function Select(rows: seq<Entry>, key: Key): seq<Entry>
  {
    if rows == [] then []
    else if InKey(rows[0].perm, key) then [rows[0]] + Select(rows[1..], key)
    else Select(rows[1..], key)
  }

  /** The rows of every other key, in store order. */
  function Outside(rows: seq<Entry>, key: Key): seq<Entry>
  {
    if rows == [] then []
    else if InKey(rows[0].perm, key) then Outside(rows[1..], key)
    else [rows[0]] + Outside(rows[1..], key)
  }

  /** The selection holds exactly the rows of the key. */
  lemma {:induction false} SelectMembers(rows: seq<Entry>, key: Key)
    ensures forall e :: e in Select(rows, key) <==> e in rows && InKey(e.perm, key)
  {
    if rows != [] {
      SelectMembers(rows[1..], key);
      assert forall e :: e in rows <==> e == rows[0] || e in rows[1..];
    }
  }

  /** Selection and its complement split the rows: every row lands in
      exactly one of the two, as often as it occurs. */
  lemma {:induction false} SelectOutsidePartition(rows: seq<Entry>, key: Key)
    ensures multiset(Select(rows, key)) + multiset(Outside(rows, key)) == multiset(rows)
    ensures |Select(rows, key)| + |Outside(rows, key)| == |rows|
  {
    if rows != [] {
      SelectOutsidePartition(rows[1..], key);
      assert rows == [rows[0]] + rows[1..];
    }
  }

  /** A selected row is a row of the store and belongs to the key. */
  lemma {:induction false} SelectedRow(rows: seq<Entry>, key: Key, e: Entry)
    requires e in Select(rows, key)
    ensures e in rows && InKey(e.perm, key)
  {
    assert rows == [rows[0]] + rows[1..];
    if !(rows[0] == e && InKey(e.perm, key)) {
      assert e in Select(rows[1..], key);
      SelectedRow(rows[1..], key, e);
    }
  }

  /** A row outside the key is a row of the store and does not belong to it. */
  lemma {:induction false} OutsideRow(rows: seq<Entry>, key: Key, e: Entry)
    requires e in Outside(rows, key)
    ensures e in rows && !InKey(e.perm, key)
  {
    assert rows == [rows[0]] + rows[1..];
    if !(rows[0] == e && !InKey(e.perm, key)) {
      assert e in Outside(rows[1..], key);
      OutsideRow(rows[1..], key, e);
    }
  }

  /** Selecting keeps ids unique. */
  lemma {:induction false} SelectUnique(rows: seq<Entry>, key: Key)
    requires UniqueIds(rows)
    ensures UniqueIds(Select(rows, key))
  {
    if rows != [] {
      SelectUnique(rows[1..], key);
      if InKey(rows[0].perm, key) {
        var r := Select(rows, key);
        forall i, j | 0 <= i < j < |r| ensures r[i].id != r[j].id {
          if i == 0 {
            assert r[j] in Select(rows[1..], key);
            SelectedRow(rows[1..], key, r[j]);
            var k :| 0 <= k < |rows[1..]| && rows[1..][k] == r[j];
            assert rows[k + 1] == r[j];
          } else {
            assert r[i] == Select(rows[1..], key)[i - 1];
          }
        }
      }
    }
  }

  /** Deleting by id. */
  function RemoveId(rows: seq<Entry>, id: nat): (r: seq<Entry>)
    ensures forall e :: e in r <==> e in rows && e.id != id
  {
    if rows == [] then []
    else if rows[0].id == id then RemoveId(rows[1..], id)
    else [rows[0]] + RemoveId(rows[1..], id)
  }

  /** Updating by id: the row keeps its place and takes the new record. */
  function ReplaceId(rows: seq<Entry>, id: nat, p: Permission): (r: seq<Entry>)
    ensures |r| == |rows|
    ensures forall i :: 0 <= i < |rows| ==> r[i] == if rows[i].id == id then Entry(id, p) else rows[i]
  {
    if rows == [] then []
    else [if rows[0].id == id then Entry(id, p) else rows[0]] + ReplaceId(rows[1..], id, p)
  }

  lemma {:induction false} RemoveIdAbsent(rows: seq<Entry>, id: nat)
    requires forall e :: e in rows ==> e.id != id
    ensures RemoveId(rows, id) == rows
  {
    if rows != [] { RemoveIdAbsent(rows[1..], id); }
  }

  lemma {:induction false} ReplaceIdAbsent(rows: seq<Entry>, id: nat, p: Permission)
    requires forall e :: e in rows ==> e.id != id
    ensures ReplaceId(rows, id, p) == rows
  {
  }

  lemma {:induction false} RemoveIdConcat(a: seq<Entry>, b: seq<Entry>, id: nat)
    ensures RemoveId(a + b, id) == RemoveId(a, id) + RemoveId(b, id)
  {
    if a == [] {
      assert a + b == b;
    } else {
      assert (a + b)[0] == a[0];
      assert (a + b)[1..] == a[1..] + b;
      RemoveIdConcat(a[1..], b, id);
      if a[0].id != id {
        assert RemoveId(a + b, id) == [a[0]] + RemoveId(a[1..] + b, id);
        assert [a[0]] + (RemoveId(a[1..], id) + RemoveId(b, id)) == ([a[0]] + RemoveId(a[1..], id)) + RemoveId(b, id);
      }
    }
  }

  lemma {:induction false} SelectRemoveId(rows: seq<Entry>, key: Key, id: nat)
    ensures Select(RemoveId(rows, id), key) == RemoveId(Select(rows, key), id)
    ensures Outside(RemoveId(rows, id), key) == RemoveId(Outside(rows, key), id)
  {
    if rows != [] { SelectRemoveId(rows[1..], key, id); }
  }

  lemma {:induction false} SelectReplaceId(rows: seq<Entry>, key: Key, id: nat, p: Permission)
    requires InKey(p, key)
    requires forall e :: e in rows && e.id == id ==> InKey(e.perm, key)
    ensures Select(ReplaceId(rows, id, p), key) == ReplaceId(Select(rows, key), id, p)
    ensures Outside(ReplaceId(rows, id, p), key) == Outside(rows, key)
  {
    if rows != [] {
      SelectReplaceId(rows[1..], key, id, p);
      assert ReplaceId(rows, id, p)[1..] == ReplaceId(rows[1..], id, p);
    }
  }

  lemma {:induction false} SelectAppend(rows: seq<Entry>, key: Key, e: Entry)
    requires InKey(e.perm, key)
    ensures Select(rows + [e], key) == Select(rows, key) + [e]
    ensures Outside(rows + [e], key) == Outside(rows, key)
  {
    if rows != [] {
      assert (rows + [e])[1..] == rows[1..] + [e];
      SelectAppend(rows[1..], key, e);
    }
  }

  lemma {:induction false} SelectAppendAll(rows: seq<Entry>, key: Key, es: seq<Entry>)
    requires forall e :: e in es ==> InKey(e.perm, key)
    ensures Select(rows + es, key) == Select(rows, key) + es
    ensures Outside(rows + es, key) == Outside(rows, key)
  {
    if es != [] {
      var last := es[|es| - 1];
      SelectAppendAll(rows, key, es[..|es| - 1]);
      assert rows + es == (rows + es[..|es| - 1]) + [last];
      SelectAppend(rows + es[..|es| - 1], key, last);
      assert es == es[..|es| - 1] + [last];
    } else {
      assert rows + es == rows;
    }
  }

  /** With unique ids, the entry in the middle shares its id with no other. */
  lemma UniqueAround(pre: seq<Entry>, e: Entry, post: seq<Entry>)
    requires UniqueIds(pre + [e] + post)
    ensures forall x :: x in pre ==> x.id != e.id
    ensures forall x :: x in post ==> x.id != e.id
  {
    var s := pre + [e] + post;
    assert s[|pre|] == e;
    forall x | x in pre ensures x.id != e.id {
      var i :| 0 <= i < |pre| && pre[i] == x;
      assert s[i] == x;
    }
    forall x | x in post ensures x.id != e.id {
      var i :| 0 <= i < |post| && post[i] == x;
      assert s[|pre| + 1 + i] == x;
    }
  }

  /** With unique ids, a row is the only one carrying its id. */
  lemma OnlyRowWithId(rows: seq<Entry>, e: Entry)
    requires UniqueIds(rows) && e in rows
    ensures forall x :: x in rows && x.id == e.id ==> x == e
  {
    forall x | x in rows && x.id == e.id ensures x == e {
      var i :| 0 <= i < |rows| && rows[i] == x;
      var j :| 0 <= j < |rows| && rows[j] == e;
      assert i == j;
    }
  }

  /** The position-wise effect of a delete inside the selected rows, and the
      fact that it leaves every other key's rows alone. */
  lemma DeleteSelected(rows: seq<Entry>, key: Key, pre: seq<Entry>, e: Entry, post: seq<Entry>)
    requires UniqueIds(rows)
    requires Select(rows, key) == pre + [e] + post
    ensures Select(RemoveId(rows, e.id), key) == pre + post
    ensures Outside(RemoveId(rows, e.id), key) == Outside(rows, key)
  {
    SelectUnique(rows, key);
    UniqueAround(pre, e, post);
    SelectRemoveId(rows, key, e.id);
    RemoveIdMiddle(pre, e, post);
    assert e in Select(rows, key);
    SelectedRow(rows, key, e);
    OnlyRowWithId(rows, e);
    forall x | x in Outside(rows, key) ensures x.id != e.id {
      OutsideRow(rows, key, x);
    }
    RemoveIdAbsent(Outside(rows, key), e.id);
  }

  lemma RemoveIdMiddle(pre: seq<Entry>, e: Entry, post: seq<Entry>)
    requires forall x :: x in pre ==> x.id != e.id
    requires forall x :: x in post ==> x.id != e.id
    ensures RemoveId(pre + [e] + post, e.id) == pre + post
  {
    RemoveIdConcat(pre + [e], post, e.id);
    RemoveIdConcat(pre, [e], e.id);
    RemoveIdAbsent(pre, e.id);
    RemoveIdAbsent(post, e.id);
    assert RemoveId([e], e.id) == RemoveId([], e.id) == [];
    assert RemoveId(pre + [e], e.id) == pre + [] == pre;
  }

  /** The position-wise effect of an update inside the selected rows. */
  lemma UpdateSelected(rows: seq<Entry>, key: Key, pre: seq<Entry>, e: Entry, post: seq<Entry>, p: Permission)
    requires UniqueIds(rows)
    requires Select(rows, key) == pre + [e] + post
    requires InKey(p, key)
    ensures Select(ReplaceId(rows, e.id, p), key) == pre + [Entry(e.id, p)] + post
    ensures Outside(ReplaceId(rows, e.id, p), key) == Outside(rows, key)
  {
    SelectUnique(rows, key);
    UniqueAround(pre, e, post);
    assert e in Select(rows, key);
    SelectedRow(rows, key, e);
    OnlyRowWithId(rows, e);
    SelectReplaceId(rows, key, e.id, p);
    ReplaceIdSplit(pre, e, post, p);
  }

  lemma ReplaceIdSplit(pre: seq<Entry>, e: Entry, post: seq<Entry>, p: Permission)
    requires forall x :: x in pre ==> x.id != e.id
    requires forall x :: x in post ==> x.id != e.id
    ensures ReplaceId(pre + [e] + post, e.id, p) == pre + [Entry(e.id, p)] + post
  {
    var s := pre + [e] + post;
    var r := ReplaceId(s, e.id, p);
    var t := pre + [Entry(e.id, p)] + post;
    forall i | 0 <= i < |r| ensures r[i] == t[i] {
      if i < |pre| { assert s[i] == pre[i]; }
      else if i > |pre| { assert s[i] == post[i - |pre| - 1]; }
    }
  }

  class Store {
    var rows: seq<Entry>
    var nextId: nat
    var writes: seq<Write>

    ghost predicate Valid()
      reads this
    {
      UniqueIds(rows) && forall e :: e in rows ==> e.id < nextId
    }

    constructor ()
      ensures Valid() && rows == [] && writes == []
    {
      rows, nextId, writes := [], 0, [];
    }

    /** `find({ where: key })`. */
    method Find(key: Key) returns (found: seq<Entry>)
      ensures found == Select(rows, key)
      ensures forall e :: e in found <==> e in rows && InKey(e.perm, key)
    {
      found := Select(rows, key);
      SelectMembers(rows, key);
    }

    /** `create(record)`: the new row takes the next id and goes last. */
    method Create(p: Permission) returns (e: Entry)
      requires Valid()
      modifies this
      ensures Valid()
      ensures e == Entry(old(nextId), p)
      ensures rows == old(rows) + [e] && nextId == old(nextId) + 1
      ensures writes == old(writes) + [Write.Create(p)]
    {
      e := Entry(nextId, p);
      rows := rows + [e];
      nextId := nextId + 1;
      writes := writes + [Write.Create(p)];
    }

    /** `update(record)`: the row with the record's id takes the record. */
    method Update(e: Entry)
      requires Valid()
      modifies this
      ensures Valid() && nextId == old(nextId)
      ensures rows == ReplaceId(old(rows), e.id, e.perm)
      ensures writes == old(writes) + [Write.Update(e.id, e.perm)]
    {
      rows := ReplaceId(rows, e.id, e.perm);
      writes := writes + [Write.Update(e.id, e.perm)];
      forall i, j | 0 <= i < j < |rows| ensures rows[i].id != rows[j].id {
        assert old(rows)[i].id != old(rows)[j].id;
      }
      forall x | x in rows ensures x.id < nextId {
        var i :| 0 <= i < |rows| && rows[i] == x;
        assert old(rows)[i] in old(rows);
      }
    }

    /** `delete(record)`: the row with the record's id goes. */
    method Delete(e: Entry)
      requires Valid()
      modifies this
      ensures Valid() && nextId == old(nextId)
      ensures rows == RemoveId(old(rows), e.id)
      ensures writes == old(writes) + [Write.Delete(e.id)]
    {
      RemoveIdUnique(rows, e.id);
      rows := RemoveId(rows, e.id);
      writes := writes + [Write.Delete(e.id)];
    }
  }

  lemma {:induction false} RemoveIdUnique(rows: seq<Entry>, id: nat)
    requires UniqueIds(rows)
    ensures UniqueIds(RemoveId(rows, id))
  {
    if rows != [] {
      RemoveIdUnique(rows[1..], id);
      var rest := RemoveId(rows[1..], id);
      if rows[0].id != id {
        forall x | x in rest ensures x.id != rows[0].id {
          var i :| 0 <= i < |rows[1..]| && rows[1..][i] == x;
          assert rows[i + 1] == x;
        }
        var r := [rows[0]] + rest;
        forall i, j | 0 <= i < j < |r| ensures r[i].id != r[j].id {
          if i == 0 { assert r[j] in rest; }
          else { assert r[i] == rest[i - 1] && r[j] == rest[j - 1]; }
        }
      }
    }
  }
}

=== FILE: reconcile_properties.dfy ===
/** What one run of updateModelPermissions amounts to, stated over the
    records `current` that its find returned (`Scan`, `Plan`, `Reconciled`
    in AttributePermissionService), and proved once for every input. */
module ReconcileProperties {
  import opened Js
  import opened Schema
  import opened PermissionStore
  import opened AttributePermissionService

  // ---------------------------------------------------------------------
  // Vocabulary

  /** `names` without the members of `gone`, order kept. */
  function Without(names: seq<string>, gone: set<string>): (r: seq<string>)
    ensures forall x :: x in r <==> x in names && x !in gone
    ensures |r| <= |names|
  {
    if names == [] then []
    else (if names[0] in gone then [] else [names[0]]) + Without(names[1..], gone)
  }

  ghost predicate Distinct(s: seq<string>)
  {
    forall i, j :: 0 <= i < j < |s| ==> s[i] != s[j]
  }

  /** The declared attribute names, as a set. */
  function NameSet(model: ModelDef): set<string>
  {
    set a | a in Names(model)
  }

  /** An attribute-scope record that names its attribute. */
  predicate NamesAttr(e: Entry)
  {
    e.perm.scope != "model" && e.perm.attribute.Some?
  }

  /** The attribute named by a record, as a set of zero or one names. */
  function AttrOf(e: Entry): set<string>
  {
    if NamesAttr(e) then {e.perm.attribute.value} else {}
  }

  /** The attributes the attribute-scope records of `s` name. */
  function Seen(s: seq<Entry>): set<string>
  {
    set i | 0 <= i < |s| && NamesAttr(s[i]) :: s[i].perm.attribute.value
  }

  // ---------------------------------------------------------------------
  // Facts about Without

  lemma {:induction false} WithoutNothing(names: seq<string>)
    ensures Without(names, {}) == names
  {
    if names != [] { WithoutNothing(names[1..]); }
  }

  lemma {:induction false} WithoutTwice(names: seq<string>, g: set<string>, h: set<string>)
    ensures Without(Without(names, g), h) == Without(names, g + h)
  {
    if names != [] {
      WithoutTwice(names[1..], g, h);
      if names[0] !in g {
        var t := Without(names[1..], g);
        assert Without(names, g) == [names[0]] + t;
        assert ([names[0]] + t)[0] == names[0];
        assert ([names[0]] + t)[1..] == t;
        assert Without([names[0]] + t, h) == (if names[0] in h then [] else [names[0]]) + Without(t, h);
        assert Without(names, g + h) == (if names[0] in h then [] else [names[0]]) + Without(names[1..], g + h);
      } else {
        assert Without(names, g) == Without(names[1..], g);
        assert Without(names, g + h) == Without(names[1..], g + h);
      }
    }
  }

  lemma {:induction false} WithoutDistinct(names: seq<string>, g: set<string>)
    requires Distinct(names)
    ensures Distinct(Without(names, g))
  {
    if names != [] {
      WithoutDistinct(names[1..], g);
      var r := Without(names, g);
      var t := Without(names[1..], g);
      if names[0] !in g {
        assert r == [names[0]] + t;
        forall i, j | 0 <= i < j < |r| ensures r[i] != r[j] {
          if i == 0 {
            assert r[j] == t[j - 1] && t[j - 1] in t;
            assert r[j] in names[1..];
            var k :| 0 <= k < |names[1..]| && names[1..][k] == r[j];
            assert names[k + 1] == r[j];
          } else {
            assert r[i] == t[i - 1] && r[j] == t[j - 1];
          }
        }
      }
    }
  }

  /** Splicing the only occurrence of `a` out of a list of distinct names. */
  lemma {:induction false} SpliceIsWithout(s: seq<string>, idx: nat)
    requires Distinct(s) && idx < |s|
    ensures s[..idx] + s[idx + 1..] == Without(s, {s[idx]})
  {
    if idx == 0 {
      assert s[..0] + s[1..] == s[1..];
      WithoutAbsent(s[1..], {s[0]});
    } else {
      SpliceIsWithout(s[1..], idx - 1);
      assert s[1..][..idx - 1] + s[1..][idx..] == Without(s[1..], {s[1..][idx - 1]});
      assert s[1..][idx - 1] == s[idx];
      assert s[..idx] + s[idx + 1..] == [s[0]] + (s[1..][..idx - 1] + s[1..][idx..]);
      assert s[0] != s[idx];
    }
  }

  lemma {:induction false} WithoutAbsent(s: seq<string>, g: set<string>)
    requires forall x :: x in s ==> x !in g
    ensures Without(s, g) == s
  {
    if s != [] {
      WithoutAbsent(s[1..], g);
      assert s == [s[0]] + s[1..];
    }
  }

  lemma NamesDistinct(model: ModelDef)
    requires WellFormed(model)
    ensures Distinct(Names(model))
  {
  }

  // ---------------------------------------------------------------------
  // Splitting the pass

  lemma {:induction false} ScanConcat(model: ModelDef, st: ScanState, s: seq<Entry>, t: seq<Entry>)
    ensures ScanFrom(model, st, s + t) == ScanFrom(model, ScanFrom(model, st, s), t)
    decreases s
  {
    if s == [] {
      assert s + t == t;
    } else {
      assert (s + t)[0] == s[0];
      assert (s + t)[1..] == s[1..] + t;
      ScanConcat(model, Step(model, st, s[0]), s[1..], t);
    }
  }

  /** The pass over `s` is the pass over all but its last record, then one step. */
  lemma ScanSnoc(model: ModelDef, s: seq<Entry>, e: Entry)
    ensures Scan(model, s + [e]) == Step(model, Scan(model, s), e)
  {
    ScanConcat(model, Start(model), s, [e]);
    assert [e][1..] == [];
  }

  lemma SeenConcat(s: seq<Entry>, t: seq<Entry>)
    ensures Seen(s + t) == Seen(s) + Seen(t)
  {
    var l := Seen(s + t);
    var r := Seen(s) + Seen(t);
    forall a | a in l ensures a in r {
      var i :| 0 <= i < |s + t| && NamesAttr((s + t)[i]) && (s + t)[i].perm.attribute.value == a;
      if i >= |s| { assert (s + t)[i] == t[i - |s|]; }
    }
    forall a | a in r ensures a in l {
      if a in Seen(s) {
        var i :| 0 <= i < |s| && NamesAttr(s[i]) && s[i].perm.attribute.value == a;
        assert (s + t)[i] == s[i];
      } else {
        var i :| 0 <= i < |t| && NamesAttr(t[i]) && t[i].perm.attribute.value == a;
        assert (s + t)[|s| + i] == t[i];
      }
    }
  }

  lemma SeenCons(s: seq<Entry>)
    requires s != []
    ensures Seen(s) == AttrOf(s[0]) + Seen(s[1..])
  {
    SeenConcat([s[0]], s[1..]);
    assert [s[0]] + s[1..] == s;
    assert Seen([s[0]]) == AttrOf(s[0]) by {
      if NamesAttr(s[0]) { assert [s[0]][0] == s[0]; }
    }
  }

  // ---------------------------------------------------------------------
  // The pending list

  /** One step keeps `pending` equal to the declared names minus the
      attributes seen so far. */
  lemma StepPending(model: ModelDef, st: ScanState, e: Entry, g: set<string>)
    requires WellFormed(model)
    requires st.pending == Without(Names(model), g)
    ensures Step(model, st, e).pending == Without(Names(model), g + AttrOf(e))
  {
    if e.perm.scope == "model" || e.perm.attribute.None? {
      assert g + AttrOf(e) == g;
    } else {
      var a := e.perm.attribute.value;
      var idx := IndexOf(st.pending, e.perm.attribute);
      if idx == -1 || !Declared(model, a) {
        PendingUnchanged(model, g, a);
      } else {
        PendingSpliced(model, st.pending, g, idx);
      }
    }
  }

  lemma PendingUnchanged(model: ModelDef, g: set<string>, a: string)
    requires WellFormed(model)
    requires a !in Without(Names(model), g)
    ensures Without(Names(model), g + {a}) == Without(Names(model), g)
  {
    WithoutTwice(Names(model), g, {a});
    WithoutAbsent(Without(Names(model), g), {a});
  }

  lemma PendingSpliced(model: ModelDef, pending: seq<string>, g: set<string>, idx: nat)
    requires WellFormed(model)
    requires pending == Without(Names(model), g) && idx < |pending|
    ensures pending[..idx] + pending[idx + 1..] == Without(Names(model), g + {pending[idx]})
  {
    NamesDistinct(model);
    WithoutDistinct(Names(model), g);
    SpliceIsWithout(pending, idx);
    WithoutTwice(Names(model), g, {pending[idx]});
  }

  lemma {:induction false} ScanPendingFrom(model: ModelDef, st: ScanState, s: seq<Entry>, g: set<string>)
    requires WellFormed(model)
    requires st.pending == Without(Names(model), g)
    ensures ScanFrom(model, st, s).pending == Without(Names(model), g + Seen(s))
    decreases s
  {
    if s != [] {
      StepPending(model, st, s[0], g);
      ScanPendingFrom(model, Step(model, st, s[0]), s[1..], g + AttrOf(s[0]));
      SeenCons(s);
      assert g + AttrOf(s[0]) + Seen(s[1..]) == g + Seen(s);
    } else {
      assert Seen(s) == {};
      assert g + Seen(s) == g;
    }
  }

  /** After any prefix, the pending attributes are the declared ones that no
      attribute-scope record of the prefix names, in declaration order. */
  lemma ScanPending(model: ModelDef, s: seq<Entry>)
    requires WellFormed(model)
    ensures Scan(model, s).pending == Without(Names(model), Seen(s))
  {
    WithoutNothing(Names(model));
    ScanPendingFrom(model, Start(model), s, {});
    assert {} + Seen(s) == Seen(s);
  }

  // ---------------------------------------------------------------------
  // Which records are deleted or updated

  /** The verdict on an attribute-scope record visited after the records
      `s`: it is dropped exactly when it names no attribute, names one the
      model does not declare, or names one an earlier attribute-scope record
      already named. */
  lemma DropIff(model: ModelDef, s: seq<Entry>, e: Entry)
    requires WellFormed(model) && e.perm.scope != "model"
    ensures CheckExisting(model, Scan(model, s).pending, e).Drop? <==>
      e.perm.attribute.None? || !Declared(model, e.perm.attribute.value) || e.perm.attribute.value in Seen(s)
  {
    ScanPending(model, s);
  }

  /** The write is about record `e`: it carries its id and, for an update,
      its permission with at most `enabled` changed. */
  predicate Touches(w: Write, e: Entry)
    requires !w.Create?
  {
    w.id == e.id && (w.Update? ==> w.perm == e.perm.(enabled := w.perm.enabled))
  }

  /** The writes of a pass are those it started with, then writes that
      delete or update one of the records visited. */
  lemma {:induction false} ScanWritesFrom(model: ModelDef, st: ScanState, s: seq<Entry>)
    ensures var r := ScanFrom(model, st, s).writes;
      && |st.writes| <= |r| && r[..|st.writes|] == st.writes
      && forall w :: w in r ==> w in st.writes || (!w.Create? && exists e :: e in s && Touches(w, e))
    decreases s
  {
    if s != [] {
      var st' := Step(model, st, s[0]);
      ScanWritesFrom(model, st', s[1..]);
      var r := ScanFrom(model, st, s).writes;
      assert r == ScanFrom(model, st', s[1..]).writes;
      assert st'.writes[..|st.writes|] == st.writes;
      forall w | w in r ensures w in st.writes || (!w.Create? && exists e :: e in s && Touches(w, e)) {
        if w in st'.writes && w !in st.writes {
          assert w in StepWrites(model, st.pending, s[0]);
          assert s[0] in s;
        } else if w !in st'.writes {
          var e :| e in s[1..] && Touches(w, e);
          assert e in s;
        }
      }
    }
  }

  /** Key confinement: when every record found belongs to the key, every
      record the run creates or updates belongs to it as well, and every
      update or delete is about one of the records found. */
  lemma PlanConfined(model: ModelDef, key: Key, current: seq<Entry>)
    requires forall e :: e in current ==> InKey(e.perm, key)
    ensures forall w :: w in Plan(model, key, current) && (w.Create? || w.Update?) ==> InKey(w.perm, key)
    ensures forall w :: w in Plan(model, key, current) && !w.Create? ==> exists e :: e in current && e.id == w.id
  {
    var st := Scan(model, current);
    var adds := Additions(model, key, st.pending, st.enabledDefault);
    ScanWritesFrom(model, Start(model), current);
    AdditionsInKey(model, key, st.pending, st.enabledDefault, 0);
    forall w | w in Plan(model, key, current)
      ensures (w.Create? || w.Update?) ==> InKey(w.perm, key)
      ensures !w.Create? ==> exists e :: e in current && e.id == w.id
    {
      if w in st.writes {
        var e :| e in current && Touches(w, e);
      } else {
        var i :| 0 <= i < |adds| && Creates(adds)[i] == w;
        assert Numbered(adds, 0)[i] in Numbered(adds, 0);
      }
    }
  }

  /** The writes one record's step issues carry that record's id. */
  lemma StepWritesAbout(model: ModelDef, pending: seq<string>, e: Entry)
    ensures forall w :: w in StepWrites(model, pending, e) ==> !w.Create? && w.id == e.id
  {
  }

  /** With unique ids, the writes of a whole pass that carry the id of
      `current[j]` are exactly those of the step that visited it. */
  lemma WritesAbout(model: ModelDef, current: seq<Entry>, j: nat)
    requires UniqueIds(current) && j < |current|
    ensures forall w :: ((w in Scan(model, current).writes && !w.Create? && w.id == current[j].id)
      <==> w in StepWrites(model, Scan(model, current[..j]).pending, current[j]))
  {
    var pre := current[..j];
    var e := current[j];
    var rest := current[j + 1..];
    assert current == pre + ([e] + rest);
    ScanConcat(model, Start(model), pre, [e] + rest);
    var P := Scan(model, pre);
    assert ([e] + rest)[0] == e && ([e] + rest)[1..] == rest;
    var Q := Step(model, P, e);
    assert Scan(model, current) == ScanFrom(model, Q, rest);
    ScanWritesFrom(model, Start(model), pre);
    ScanWritesFrom(model, Q, rest);
    StepWritesAbout(model, P.pending, e);
    var sw := StepWrites(model, P.pending, e);
    var r := Scan(model, current).writes;
    assert Q.writes == P.writes + sw;
    forall w | w in r && !w.Create? && w.id == e.id ensures w in sw {
    }
    forall w | w in sw ensures w in r {
      assert w in Q.writes;
      var i :| 0 <= i < |Q.writes| && Q.writes[i] == w;
      assert r[..|Q.writes|][i] == w;
    }
  }

  /** An attribute-scope record is deleted exactly when it names no
      attribute, names an undeclared one, or names one that an earlier
      attribute-scope record of the key already named. */
  lemma DeletedIff(model: ModelDef, key: Key, current: seq<Entry>, j: nat)
    requires WellFormed(model) && UniqueIds(current) && j < |current|
    requires current[j].perm.scope != "model"
    ensures Delete(current[j].id) in Plan(model, key, current) <==>
      || current[j].perm.attribute.None?
      || !Declared(model, current[j].perm.attribute.value)
      || exists i :: 0 <= i < j && NamesAttr(current[i]) && current[i].perm.attribute == current[j].perm.attribute
  {
    var e := current[j];
    var st := Scan(model, current);
    WritesAbout(model, current, j);
    DropIff(model, current[..j], e);
    var adds := Additions(model, key, st.pending, st.enabledDefault);
    assert Plan(model, key, current) == st.writes + Creates(adds);
    assert Delete(e.id) !in Creates(adds);
    if e.perm.attribute.Some? {
      var a := e.perm.attribute.value;
      if a in Seen(current[..j]) {
        var i :| 0 <= i < |current[..j]| && NamesAttr(current[..j][i]) && current[..j][i].perm.attribute.value == a;
        assert current[i] == current[..j][i];
      }
      if exists i :: 0 <= i < j && NamesAttr(current[i]) && current[i].perm.attribute == e.perm.attribute {
        var i :| 0 <= i < j && NamesAttr(current[i]) && current[i].perm.attribute == e.perm.attribute;
        assert current[..j][i] == current[i];
      }
    }
  }

  /** An attribute-scope record is updated only when it survives and its
      `enabled` differs from the one its privacy flag calls for, and the
      update writes exactly that flag and changes nothing else. */
  lemma UpdatedIff(model: ModelDef, key: Key, current: seq<Entry>, j: nat, p: Permission)
    requires WellFormed(model) && UniqueIds(current) && j < |current|
    requires current[j].perm.scope != "model"
    ensures Update(current[j].id, p) in Plan(model, key, current) <==>
      && Delete(current[j].id) !in Plan(model, key, current)
      && current[j].perm.attribute.Some?
      && var a := current[j].perm.attribute.value;
      && current[j].perm.enabled == Private(model, a)
      && p == current[j].perm.(enabled := !Private(model, a))
  {
    var e := current[j];
    var st := Scan(model, current);
    WritesAbout(model, current, j);
    var adds := Additions(model, key, st.pending, st.enabledDefault);
    assert Plan(model, key, current) == st.writes + Creates(adds);
    assert Update(e.id, p) !in Creates(adds);
    assert Delete(e.id) !in Creates(adds);
  }

  /** Model-scope records are never updated or deleted. */
  lemma ModelRecordsUntouched(model: ModelDef, key: Key, current: seq<Entry>, j: nat)
    requires UniqueIds(current) && j < |current|
    requires current[j].perm.scope == "model"
    ensures forall w :: w in Plan(model, key, current) ==> w.Create? || w.id != current[j].id
  {
    var st := Scan(model, current);
    WritesAbout(model, current, j);
    var adds := Additions(model, key, st.pending, st.enabledDefault);
    assert Plan(model, key, current) == st.writes + Creates(adds);
  }

  // ---------------------------------------------------------------------
  // The records that remain

  /** Every attribute-scope record names a declared attribute. */
  ghost predicate OnlyDeclared(model: ModelDef, rs: seq<Entry>)
  {
    forall i :: 0 <= i < |rs| && rs[i].perm.scope != "model" ==>
      rs[i].perm.attribute.Some? && Declared(model, rs[i].perm.attribute.value)
  }

  /** No two attribute-scope records name the same attribute. */
  ghost predicate OnePerAttr(rs: seq<Entry>)
  {
    forall i, k :: 0 <= i < k < |rs| && NamesAttr(rs[i]) && NamesAttr(rs[k]) ==>
      rs[i].perm.attribute != rs[k].perm.attribute
  }

  /** Every attribute-scope record is enabled exactly when its attribute is not private. */
  ghost predicate FollowsPrivacy(model: ModelDef, rs: seq<Entry>)
  {
    forall i :: 0 <= i < |rs| && NamesAttr(rs[i]) ==>
      rs[i].perm.enabled == !Private(model, rs[i].perm.attribute.value)
  }

  /** Every attribute in `attrs` has an attribute-scope record in `rs`. */
  ghost predicate Covers(rs: seq<Entry>, attrs: set<string>)
  {
    forall a :: a in attrs ==> exists i :: 0 <= i < |rs| && NamesAttr(rs[i]) && rs[i].perm.attribute == Some(a)
  }

  /** Every record of `rs` is a record of `s` whose `enabled` may have changed. */
  ghost predicate FromRecords(rs: seq<Entry>, s: seq<Entry>)
  {
    forall i :: 0 <= i < |rs| ==> exists c :: c in s && rs[i] == Entry(c.id, c.perm.(enabled := rs[i].perm.enabled))
  }

  /** The attributes the attribute-scope records of `rs` name. */
  lemma SeenIn(rs: seq<Entry>, i: nat)
    requires i < |rs| && NamesAttr(rs[i])
    ensures rs[i].perm.attribute.value in Seen(rs)
  {
  }

  function DeclaredOf(model: ModelDef, g: set<string>): set<string>
  {
    set a | a in g && Declared(model, a)
  }

  lemma SeenSnoc(s: seq<Entry>, e: Entry)
    ensures Seen(s + [e]) == Seen(s) + AttrOf(e)
  {
    SeenConcat(s, [e]);
    SeenCons([e]);
    assert Seen([e][1..]) == {};
  }

  lemma StepOnlyDeclared(model: ModelDef, st: ScanState, e: Entry)
    requires OnlyDeclared(model, st.kept)
    ensures OnlyDeclared(model, Step(model, st, e).kept)
  {
    var kept := Step(model, st, e).kept;
    forall i | 0 <= i < |kept| && kept[i].perm.scope != "model"
      ensures kept[i].perm.attribute.Some? && Declared(model, kept[i].perm.attribute.value)
    {
      if i < |st.kept| { assert kept[i] == st.kept[i]; }
    }
  }

  lemma StepFollowsPrivacy(model: ModelDef, st: ScanState, e: Entry)
    requires FollowsPrivacy(model, st.kept)
    ensures FollowsPrivacy(model, Step(model, st, e).kept)
  {
    var kept := Step(model, st, e).kept;
    forall i | 0 <= i < |kept| && NamesAttr(kept[i])
      ensures kept[i].perm.enabled == !Private(model, kept[i].perm.attribute.value)
    {
      if i < |st.kept| { assert kept[i] == st.kept[i]; }
    }
  }

  lemma StepOnePerAttr(model: ModelDef, st: ScanState, e: Entry, g: set<string>)
    requires st.pending == Without(Names(model), g)
    requires OnePerAttr(st.kept) && Seen(st.kept) <= g
    ensures OnePerAttr(Step(model, st, e).kept) && Seen(Step(model, st, e).kept) <= g + AttrOf(e)
  {
    var st' := Step(model, st, e);
    if e.perm.scope == "model" {
      SeenSnoc(st.kept, e);
      forall i, k | 0 <= i < k < |st'.kept| && NamesAttr(st'.kept[i]) && NamesAttr(st'.kept[k])
        ensures st'.kept[i].perm.attribute != st'.kept[k].perm.attribute
      {
        assert st'.kept[i] == st.kept[i] && st'.kept[k] == st.kept[k];
      }
    } else if CheckExisting(model, st.pending, e).Keep? {
      var k := CheckExisting(model, st.pending, e).entry;
      var a := e.perm.attribute.value;
      assert a in st.pending && a !in g;
      SeenSnoc(st.kept, k);
      forall i, j | 0 <= i < j < |st'.kept| && NamesAttr(st'.kept[i]) && NamesAttr(st'.kept[j])
        ensures st'.kept[i].perm.attribute != st'.kept[j].perm.attribute
      {
        assert st'.kept[i] == st.kept[i];
        if j < |st.kept| {
          assert st'.kept[j] == st.kept[j];
        } else {
          SeenIn(st.kept, i);
        }
      }
    }
  }

  lemma CoversSnoc(rs: seq<Entry>, x: Entry, attrs: set<string>)
    requires Covers(rs, attrs)
    ensures Covers(rs + [x], attrs + AttrOf(x))
  {
    var r := rs + [x];
    forall b | b in attrs + AttrOf(x)
      ensures exists i :: 0 <= i < |r| && NamesAttr(r[i]) && r[i].perm.attribute == Some(b)
    {
      if b in attrs {
        var i :| 0 <= i < |rs| && NamesAttr(rs[i]) && rs[i].perm.attribute == Some(b);
        assert r[i] == rs[i];
      } else {
        assert r[|rs|] == x;
      }
    }
  }

  lemma StepCovers(model: ModelDef, st: ScanState, e: Entry, g: set<string>)
    requires st.pending == Without(Names(model), g)
    requires Covers(st.kept, DeclaredOf(model, g))
    ensures Covers(Step(model, st, e).kept, DeclaredOf(model, g + AttrOf(e)))
  {
    var v := CheckExisting(model, st.pending, e);
    if e.perm.scope == "model" {
      assert AttrOf(e) == {};
      CoversSnoc(st.kept, e, DeclaredOf(model, g));
    } else if v.Drop? {
      assert DeclaredOf(model, g + AttrOf(e)) == DeclaredOf(model, g);
    } else {
      assert AttrOf(v.entry) == AttrOf(e);
      CoversSnoc(st.kept, v.entry, DeclaredOf(model, g));
      assert DeclaredOf(model, g + AttrOf(e)) <= DeclaredOf(model, g) + AttrOf(v.entry);
    }
  }

  /** After any prefix `s`, the records kept so far name declared attributes
      only, at most one record per attribute, each enabled exactly when its
      attribute is not private, and every declared attribute that `s` names
      has one. */
  lemma {:induction false} KeptProps(model: ModelDef, s: seq<Entry>)
    requires WellFormed(model)
    ensures var kept := Scan(model, s).kept;
      && OnlyDeclared(model, kept) && OnePerAttr(kept) && FollowsPrivacy(model, kept)
      && Covers(kept, DeclaredOf(model, Seen(s))) && Seen(kept) <= Seen(s)
  {
    if s == [] {
      assert Seen(s) == {};
      assert DeclaredOf(model, {}) == {};
    } else {
      var init := s[..|s| - 1];
      var e := s[|s| - 1];
      assert s == init + [e];
      KeptProps(model, init);
      ScanSnoc(model, init, e);
      ScanPending(model, init);
      SeenSnoc(init, e);
      var st := Scan(model, init);
      StepOnlyDeclared(model, st, e);
      StepFollowsPrivacy(model, st, e);
      StepOnePerAttr(model, st, e, Seen(init));
      StepCovers(model, st, e, Seen(init));
    }
  }

  /** The `enabled` of the last model-scope record of `s`, if any. */
  function LastModel(s: seq<Entry>): (r: Option<bool>)
    ensures r.None? <==> forall i :: 0 <= i < |s| ==> s[i].perm.scope != "model"
  {
    if s == [] then None
    else if s[|s| - 1].perm.scope == "model" then Some(s[|s| - 1].perm.enabled)
    else
      var r := LastModel(s[..|s| - 1]);
      assert forall i :: 0 <= i < |s| - 1 ==> s[..|s| - 1][i] == s[i];
      r
  }

  /** The model default the pass leaves is the `enabled` of the last
      model-scope record, and none when there is no such record. */
  lemma {:induction false} DefaultIsLastModel(model: ModelDef, s: seq<Entry>)
    ensures Scan(model, s).enabledDefault == LastModel(s)
  {
    if s != [] {
      var init := s[..|s| - 1];
      var e := s[|s| - 1];
      assert s == init + [e];
      DefaultIsLastModel(model, init);
      ScanSnoc(model, init, e);
    }
  }

  /** Model-scope records survive the pass unchanged, and every record kept
      is one of the records visited with at most its `enabled` changed. */
  lemma {:induction false} KeptOrigin(model: ModelDef, s: seq<Entry>)
    ensures forall i :: 0 <= i < |s| && s[i].perm.scope == "model" ==> s[i] in Scan(model, s).kept
    ensures FromRecords(Scan(model, s).kept, s)
  {
    if s != [] {
      var init := s[..|s| - 1];
      var e := s[|s| - 1];
      assert s == init + [e];
      KeptOrigin(model, init);
      ScanSnoc(model, init, e);
      var st := Scan(model, init);
      var kept := Scan(model, s).kept;
      var v := CheckExisting(model, st.pending, e);
      assert kept == st.kept || (v.Keep? && kept == st.kept + [v.entry]) || kept == st.kept + [e];
      forall i | 0 <= i < |s| && s[i].perm.scope == "model" ensures s[i] in kept {
        if i < |init| { assert s[i] == init[i]; }
      }
      forall i | 0 <= i < |kept| ensures exists c :: c in s && kept[i] == Entry(c.id, c.perm.(enabled := kept[i].perm.enabled)) {
        if i < |st.kept| {
          assert kept[i] == st.kept[i];
          var c :| c in init && st.kept[i] == Entry(c.id, c.perm.(enabled := st.kept[i].perm.enabled));
          assert c in s;
        } else {
          assert e in s;
        }
      }
    }
  }

  // ---------------------------------------------------------------------
  // The records created

  /** The attribute-scope records created are, in declaration order, one
      per declared attribute that no attribute-scope record of the key
      names; each is disabled when its attribute is private and otherwise
      follows the model default (true when there is no model-scope record).
      A model-scope record, enabled, is created first exactly when the key
      has none. */
  lemma CreatedRecords(model: ModelDef, key: Key, current: seq<Entry>)
    requires WellFormed(model)
    ensures var st := Scan(model, current);
      var adds := Additions(model, key, st.pending, st.enabledDefault);
      var d := LastModel(current);
      && st.pending == Without(Names(model), Seen(current))
      && Distinct(st.pending)
      && adds == (if d.None? then [ModelPerm(key, true)] else [])
                 + AttrPerms(model, key, Without(Names(model), Seen(current)), if d.None? then true else d.value)
      && (d.None? <==> forall i :: 0 <= i < |current| ==> current[i].perm.scope != "model")
  {
    ScanPending(model, current);
    DefaultIsLastModel(model, current);
    NamesDistinct(model);
    WithoutDistinct(Names(model), Seen(current));
  }

  /** The `i`-th record created. */
  lemma CreatedAt(model: ModelDef, key: Key, pending: seq<string>, d: Option<bool>, n: nat, i: nat)
    requires i < |Additions(model, key, pending, d)|
    ensures var off := if d.None? then 1 else 0;
      var enabled := if d.None? then true else d.value;
      var r := Numbered(Additions(model, key, pending, d), n)[i];
      && |Additions(model, key, pending, d)| == off + |pending|
      && r.id == n + i
      && (i < off ==> r.perm == ModelPerm(key, true))
      && (i >= off ==> r.perm == AttrPerm(key, pending[i - off], if Private(model, pending[i - off]) then false else enabled))
  {
    var off := if d.None? then 1 else 0;
    var adds := Additions(model, key, pending, d);
    assert Numbered(adds, n)[i] == Entry(n + i, adds[i]);
    if i >= off {
      AdditionsAt(model, key, pending, d, i - off);
    } else {
      assert adds == [ModelPerm(key, true)] + AttrPerms(model, key, pending, true);
    }
  }

  lemma CreatedDeclared(model: ModelDef, key: Key, pending: seq<string>, d: Option<bool>, n: nat)
    requires forall a :: a in pending ==> Declared(model, a)
    ensures OnlyDeclared(model, Numbered(Additions(model, key, pending, d), n))
  {
    var rs := Numbered(Additions(model, key, pending, d), n);
    forall i | 0 <= i < |rs| && rs[i].perm.scope != "model"
      ensures rs[i].perm.attribute.Some? && Declared(model, rs[i].perm.attribute.value)
    {
      CreatedAt(model, key, pending, d, n, i);
    }
  }

  lemma CreatedOnePerAttr(model: ModelDef, key: Key, pending: seq<string>, d: Option<bool>, n: nat)
    requires Distinct(pending)
    ensures OnePerAttr(Numbered(Additions(model, key, pending, d), n))
  {
    var rs := Numbered(Additions(model, key, pending, d), n);
    forall i, k | 0 <= i < k < |rs| && NamesAttr(rs[i]) && NamesAttr(rs[k])
      ensures rs[i].perm.attribute != rs[k].perm.attribute
    {
      CreatedAt(model, key, pending, d, n, i);
      CreatedAt(model, key, pending, d, n, k);
    }
  }

  lemma CreatedSeen(model: ModelDef, key: Key, pending: seq<string>, d: Option<bool>, n: nat)
    ensures Seen(Numbered(Additions(model, key, pending, d), n)) == set a | a in pending
  {
    var rs := Numbered(Additions(model, key, pending, d), n);
    forall a | a in Seen(rs) ensures a in pending {
      CreatedSeenOnly(model, key, pending, d, n, a);
    }
    forall a | a in pending ensures a in Seen(rs) {
      CreatedSeenAll(model, key, pending, d, n, a);
    }
  }

  lemma CreatedSeenOnly(model: ModelDef, key: Key, pending: seq<string>, d: Option<bool>, n: nat, a: string)
    requires a in Seen(Numbered(Additions(model, key, pending, d), n))
    ensures a in pending
  {
    var rs := Numbered(Additions(model, key, pending, d), n);
    var i :| 0 <= i < |rs| && NamesAttr(rs[i]) && rs[i].perm.attribute.value == a;
    CreatedAt(model, key, pending, d, n, i);
  }

  lemma CreatedSeenAll(model: ModelDef, key: Key, pending: seq<string>, d: Option<bool>, n: nat, a: string)
    requires a in pending
    ensures a in Seen(Numbered(Additions(model, key, pending, d), n))
  {
    var rs := Numbered(Additions(model, key, pending, d), n);
    var off := if d.None? then 1 else 0;
    var j :| 0 <= j < |pending| && pending[j] == a;
    CreatedAt(model, key, pending, d, n, off + j);
    SeenIn(rs, off + j);
  }

  lemma CreatedPrivacy(model: ModelDef, key: Key, pending: seq<string>, d: Option<bool>, n: nat)
    ensures var rs := Numbered(Additions(model, key, pending, d), n);
      forall i :: 0 <= i < |rs| && NamesAttr(rs[i]) && Private(model, rs[i].perm.attribute.value) ==> !rs[i].perm.enabled
    ensures d != Some(false) ==> FollowsPrivacy(model, Numbered(Additions(model, key, pending, d), n))
  {
    var rs := Numbered(Additions(model, key, pending, d), n);
    forall i | 0 <= i < |rs| && NamesAttr(rs[i])
      ensures Private(model, rs[i].perm.attribute.value) ==> !rs[i].perm.enabled
      ensures d != Some(false) ==> rs[i].perm.enabled == !Private(model, rs[i].perm.attribute.value)
    {
      CreatedAt(model, key, pending, d, n, i);
    }
  }

  // ---------------------------------------------------------------------
  // The records after one run

  lemma ConcatProps(model: ModelDef, a: seq<Entry>, b: seq<Entry>)
    requires OnlyDeclared(model, a) && OnlyDeclared(model, b)
    requires OnePerAttr(a) && OnePerAttr(b) && Seen(a) !! Seen(b)
    ensures OnlyDeclared(model, a + b) && OnePerAttr(a + b)
    ensures FollowsPrivacy(model, a) && FollowsPrivacy(model, b) ==> FollowsPrivacy(model, a + b)
  {
    var r := a + b;
    forall i, k | 0 <= i < k < |r| && NamesAttr(r[i]) && NamesAttr(r[k])
      ensures r[i].perm.attribute != r[k].perm.attribute
    {
      if i < |a| && k >= |a| {
        assert r[i] == a[i] && r[k] == b[k - |a|];
        SeenIn(a, i);
        SeenIn(b, k - |a|);
      } else if i >= |a| {
        assert r[i] == b[i - |a|] && r[k] == b[k - |a|];
      } else {
        assert r[i] == a[i] && r[k] == a[k];
      }
    }
    forall i | 0 <= i < |r| ensures r[i] == if i < |a| then a[i] else b[i - |a|] { }
  }

  /** No record for a private attribute is enabled. */
  ghost predicate PrivateOff(model: ModelDef, rs: seq<Entry>)
  {
    forall i :: 0 <= i < |rs| && NamesAttr(rs[i]) && Private(model, rs[i].perm.attribute.value) ==> !rs[i].perm.enabled
  }

  ghost predicate HasModelRecord(rs: seq<Entry>)
  {
    exists i :: 0 <= i < |rs| && rs[i].perm.scope == "model"
  }

  lemma ConcatCovers(a: seq<Entry>, b: seq<Entry>, x: set<string>, y: set<string>)
    requires Covers(a, x) && Covers(b, y)
    ensures Covers(a + b, x + y)
  {
    var r := a + b;
    forall z | z in x + y ensures exists i :: 0 <= i < |r| && NamesAttr(r[i]) && r[i].perm.attribute == Some(z) {
      if z in x {
        var i :| 0 <= i < |a| && NamesAttr(a[i]) && a[i].perm.attribute == Some(z);
        assert r[i] == a[i];
      } else {
        var i :| 0 <= i < |b| && NamesAttr(b[i]) && b[i].perm.attribute == Some(z);
        assert r[|a| + i] == b[i];
      }
    }
  }

  lemma CoversSeen(rs: seq<Entry>)
    ensures Covers(rs, Seen(rs))
  {
  }

  lemma ConcatPrivateOff(model: ModelDef, a: seq<Entry>, b: seq<Entry>)
    requires PrivateOff(model, a) && PrivateOff(model, b)
    ensures PrivateOff(model, a + b)
  {
    var r := a + b;
    forall i | 0 <= i < |r| ensures r[i] == if i < |a| then a[i] else b[i - |a|] { }
  }

  lemma ConcatModelRecord(a: seq<Entry>, b: seq<Entry>)
    requires HasModelRecord(a) || HasModelRecord(b)
    ensures HasModelRecord(a + b)
  {
    if HasModelRecord(a) {
      var i :| 0 <= i < |a| && a[i].perm.scope == "model";
      assert (a + b)[i] == a[i];
    } else {
      var i :| 0 <= i < |b| && b[i].perm.scope == "model";
      assert (a + b)[|a| + i] == b[i];
    }
  }

  /** After one run the key holds exactly one attribute-scope record per
      declared attribute and none for anything else, at least one
      model-scope record, and no enabled record for a private attribute. */
  lemma ReconciledShape(model: ModelDef, key: Key, current: seq<Entry>, n: nat)
    requires WellFormed(model)
    ensures var rs := Reconciled(model, key, current, n);
      && OnlyDeclared(model, rs) && OnePerAttr(rs)
      && Covers(rs, NameSet(model))
      && HasModelRecord(rs)
      && PrivateOff(model, rs)
  {
    var st := Scan(model, current);
    var created := Numbered(Additions(model, key, st.pending, st.enabledDefault), n);
    assert Reconciled(model, key, current, n) == st.kept + created;
    KeptProps(model, current);
    CreatedRecords(model, key, current);
    CreatedDeclared(model, key, st.pending, st.enabledDefault, n);
    CreatedOnePerAttr(model, key, st.pending, st.enabledDefault, n);
    CreatedSeen(model, key, st.pending, st.enabledDefault, n);
    CreatedPrivacy(model, key, st.pending, st.enabledDefault, n);
    ConcatProps(model, st.kept, created);
    CoversSeen(created);
    ConcatCovers(st.kept, created, DeclaredOf(model, Seen(current)), Seen(created));
    assert NameSet(model) <= DeclaredOf(model, Seen(current)) + Seen(created);
    ConcatPrivateOff(model, st.kept, created);
    KeptModelRecord(model, key, current, n);
  }

  lemma KeptModelRecord(model: ModelDef, key: Key, current: seq<Entry>, n: nat)
    ensures HasModelRecord(Reconciled(model, key, current, n))
  {
    var st := Scan(model, current);
    var created := Numbered(Additions(model, key, st.pending, st.enabledDefault), n);
    if st.enabledDefault.None? {
      CreatedAt(model, key, st.pending, st.enabledDefault, n, 0);
      assert HasModelRecord(created);
    } else {
      KeptHasModel(model, current);
    }
    ConcatModelRecord(st.kept, created);
  }

  lemma KeptHasModel(model: ModelDef, current: seq<Entry>)
    requires Scan(model, current).enabledDefault.Some?
    ensures HasModelRecord(Scan(model, current).kept)
  {
    var kept := Scan(model, current).kept;
    DefaultIsLastModel(model, current);
    KeptOrigin(model, current);
    var j :| 0 <= j < |current| && current[j].perm.scope == "model";
    assert current[j] in kept;
    var i :| 0 <= i < |kept| && kept[i] == current[j];
  }

  // ---------------------------------------------------------------------
  // Running again

  /** The state one run leaves: every declared attribute has exactly one
      attribute-scope record, enabled exactly when it is not private, no
      other attribute-scope record exists, and a model-scope record does. */
  ghost predicate Settled(model: ModelDef, rs: seq<Entry>)
  {
    && OnlyDeclared(model, rs) && OnePerAttr(rs) && FollowsPrivacy(model, rs)
    && Covers(rs, NameSet(model)) && HasModelRecord(rs)
  }

  lemma PrefixProps(model: ModelDef, rs: seq<Entry>, k: nat)
    requires k <= |rs|
    requires OnlyDeclared(model, rs) && OnePerAttr(rs) && FollowsPrivacy(model, rs)
    ensures OnlyDeclared(model, rs[..k]) && OnePerAttr(rs[..k]) && FollowsPrivacy(model, rs[..k])
  {
    assert forall i :: 0 <= i < k ==> rs[..k][i] == rs[i];
  }

  /** A pass over records with one declared attribute each, none twice,
      each following the privacy flag, issues no write and keeps them all. */
  lemma {:induction false} QuietScan(model: ModelDef, rs: seq<Entry>)
    requires WellFormed(model)
    requires OnlyDeclared(model, rs) && OnePerAttr(rs) && FollowsPrivacy(model, rs)
    ensures Scan(model, rs).writes == [] && Scan(model, rs).kept == rs
  {
    if rs != [] {
      var init := rs[..|rs| - 1];
      var e := rs[|rs| - 1];
      assert rs == init + [e];
      PrefixProps(model, rs, |rs| - 1);
      QuietScan(model, init);
      ScanSnoc(model, init, e);
      if e.perm.scope != "model" {
        QuietStep(model, rs);
      }
    }
  }

  lemma QuietStep(model: ModelDef, rs: seq<Entry>)
    requires WellFormed(model) && rs != []
    requires OnlyDeclared(model, rs) && OnePerAttr(rs) && FollowsPrivacy(model, rs)
    requires rs[|rs| - 1].perm.scope != "model"
    ensures var e := rs[|rs| - 1];
      var v := CheckExisting(model, Scan(model, rs[..|rs| - 1]).pending, e);
      v.Keep? && v.entry == e
  {
    var init := rs[..|rs| - 1];
    var e := rs[|rs| - 1];
    DropIff(model, init, e);
  }

  lemma CoveredSeen(rs: seq<Entry>, attrs: set<string>, a: string)
    requires Covers(rs, attrs) && a in attrs
    ensures a in Seen(rs)
  {
    var i :| 0 <= i < |rs| && NamesAttr(rs[i]) && rs[i].perm.attribute == Some(a);
    SeenIn(rs, i);
  }

  lemma NoMemberEmpty(s: seq<string>)
    ensures (forall x :: x !in s) ==> s == []
  {
    if s != [] { assert s[0] in s; }
  }

  /** A key whose records name every declared attribute and include a
      model-scope record gets nothing created. */
  lemma NothingToAdd(model: ModelDef, key: Key, rs: seq<Entry>)
    requires WellFormed(model)
    requires Covers(rs, NameSet(model)) && HasModelRecord(rs)
    ensures var st := Scan(model, rs);
      st.pending == [] && st.enabledDefault.Some? && Additions(model, key, st.pending, st.enabledDefault) == []
  {
    var st := Scan(model, rs);
    ScanPending(model, rs);
    DefaultIsLastModel(model, rs);
    var i :| 0 <= i < |rs| && rs[i].perm.scope == "model";
    forall a | a in Names(model) ensures a in Seen(rs) {
      CoveredSeen(rs, NameSet(model), a);
    }
    NoMemberEmpty(st.pending);
  }

  /** A settled key stays as it is: another run issues no write and leaves
      the same records. */
  lemma SettledIsFixpoint(model: ModelDef, key: Key, rs: seq<Entry>, n: nat)
    requires WellFormed(model) && Settled(model, rs)
    ensures Plan(model, key, rs) == []
    ensures Reconciled(model, key, rs, n) == rs
  {
    QuietScan(model, rs);
    NothingToAdd(model, key, rs);
  }

  lemma ReconciledFollowsPrivacy(model: ModelDef, key: Key, current: seq<Entry>, n: nat)
    requires WellFormed(model) && LastModel(current) != Some(false)
    ensures FollowsPrivacy(model, Reconciled(model, key, current, n))
  {
    var st := Scan(model, current);
    var created := Numbered(Additions(model, key, st.pending, st.enabledDefault), n);
    KeptPrivacy(model, current);
    DefaultIsLastModel(model, current);
    CreatedPrivacy(model, key, st.pending, st.enabledDefault, n);
    ConcatPrivacy(model, st.kept, created);
  }

  lemma KeptPrivacy(model: ModelDef, s: seq<Entry>)
    requires WellFormed(model)
    ensures FollowsPrivacy(model, Scan(model, s).kept)
  {
    KeptProps(model, s);
  }

  lemma ConcatPrivacy(model: ModelDef, a: seq<Entry>, b: seq<Entry>)
    requires FollowsPrivacy(model, a) && FollowsPrivacy(model, b)
    ensures FollowsPrivacy(model, a + b)
  {
    forall i | 0 <= i < |a + b| && NamesAttr((a + b)[i])
      ensures (a + b)[i].perm.enabled == !Private(model, (a + b)[i].perm.attribute.value)
    {
      if i < |a| {
        assert (a + b)[i] == a[i];
      } else {
        assert (a + b)[i] == b[i - |a|];
      }
    }
  }

  /** Running the reconciliation twice issues nothing the second time,
      unless the last model-scope record is disabled. */
  lemma Idempotent(model: ModelDef, key: Key, current: seq<Entry>, n: nat, m: nat)
    requires WellFormed(model) && LastModel(current) != Some(false)
    ensures Plan(model, key, Reconciled(model, key, current, n)) == []
    ensures Reconciled(model, key, Reconciled(model, key, current, n), m) == Reconciled(model, key, current, n)
  {
    ReconciledShape(model, key, current, n);
    ReconciledFollowsPrivacy(model, key, current, n);
    SettledIsFixpoint(model, key, Reconciled(model, key, current, n), m);
  }

  /** Whatever the records, a third run issues nothing: the second run
      enables the records the first one created disabled. */
  lemma Converges(model: ModelDef, key: Key, current: seq<Entry>, n: nat, m: nat)
    requires WellFormed(model)
    ensures var twice := Reconciled(model, key, Reconciled(model, key, current, n), m);
      Settled(model, twice) && Plan(model, key, twice) == []
  {
    var once := Reconciled(model, key, current, n);
    ReconciledShape(model, key, current, n);
    ReconciledShape(model, key, once, m);
    KeptProps(model, once);
    SecondRunKeeps(model, key, once, m);
    SettledIsFixpoint(model, key, Reconciled(model, key, once, m), 0);
  }

  lemma SecondRunKeeps(model: ModelDef, key: Key, once: seq<Entry>, m: nat)
    requires WellFormed(model)
    requires Covers(once, NameSet(model)) && HasModelRecord(once)
    ensures Reconciled(model, key, once, m) == Scan(model, once).kept
  {
    NothingToAdd(model, key, once);
  }

  /** The rule has an exception: with the model-scope record disabled, the
      first run creates a non-private attribute disabled and the second run
      updates it to enabled. */
  lemma NotIdempotentWhenDefaultOff()
    ensures var key := Key("public", "application", "article");
      var model := ModelDef("article", [AttrDef("title", "string", false)], []);
      var current := [Entry(0, ModelPerm(key, false))];
      WellFormed(model) && Plan(model, key, Reconciled(model, key, current, 1)) == [Update(1, AttrPerm(key, "title", true))]
  {
    var key := Key("public", "application", "article");
    var model := ModelDef("article", [AttrDef("title", "string", false)], []);
    var current := [Entry(0, ModelPerm(key, false))];
    assert Names(model) == ["title"];
    var st := Step(model, Start(model), current[0]);
    assert Scan(model, current) == st by {
      assert current[1..] == [];
      assert ScanFrom(model, st, []) == st;
    }
    assert Additions(model, key, st.pending, st.enabledDefault) == [AttrPerm(key, "title", false)];
    var once := [current[0], Entry(1, AttrPerm(key, "title", false))];
    assert Reconciled(model, key, current, 1) == once;
    var st1 := Step(model, Start(model), once[0]);
    var st2 := Step(model, st1, once[1]);
    assert Scan(model, once) == st2 by {
      assert once[1..] == [once[1]];
      assert once[1..][1..] == [];
      assert ScanFrom(model, st2, []) == st2;
      assert ScanFrom(model, st1, [once[1]]) == st2;
    }
    assert st2.pending == [];
  }
}

=== FILE: schema.dfy ===
/** The schema of the content models, as the plugin reads it from the
    framework's model registry: declared attributes in declaration order, each
    with a type and a privacy flag, and the association edges. The registry is
    passed in as a value instead of being read from a global. */
module Schema {
  import opened Js

  /** One entry of `model.attributes`; `attrType` (the `type` key) is "" for attributes that declare
      none (associations declare `model` or `collection` instead). */
  datatype AttrDef = AttrDef(name: string, attrType: string, private: bool)

  /** One entry of `model.associations`; a name that is not set is "". */
  datatype Assoc = Assoc(alias: string, model: string, modelName: string, collection: string)

  datatype ModelDef = ModelDef(globalName: string, attributes: seq<AttrDef>, associations: seq<Assoc>)

  /** `Object.keys(model.attributes)`. */
  function Names(m: ModelDef): (ns: seq<string>)
    ensures |ns| == |m.attributes|
    ensures forall i :: 0 <= i < |ns| ==> ns[i] == m.attributes[i].name
  {
    seq(|m.attributes|, i requires 0 <= i < |m.attributes| => m.attributes[i].name)
  }

  /** Object keys are distinct, so a model never declares an attribute twice. */
  ghost predicate WellFormed(m: ModelDef)
  {
    forall i, j :: 0 <= i < j < |m.attributes| ==> m.attributes[i].name != m.attributes[j].name
  }

  /** `model.attributes[a]` is truthy. */
  predicate Declared(m: ModelDef, a: string)
  {
    a in Names(m)
  }

  /** `isAttributePrivate(model, a)`: the privacy flag of the declared attribute;
      an attribute that is not declared is not private. */
  function Private(m: ModelDef, a: string): (p: bool)
    ensures p ==> Declared(m, a)
  {
    PrivateIn(m.attributes, a)
  }

  function PrivateIn(attrs: seq<AttrDef>, a: string): (p: bool)
    ensures p ==> exists i :: 0 <= i < |attrs| && attrs[i].name == a
    ensures forall i :: 0 <= i < |attrs| && attrs[i].name == a && (forall j :: 0 <= j < i ==> attrs[j].name != a) ==> p == attrs[i].private
  {
    if attrs == [] then false
    else if attrs[0].name == a then attrs[0].private
    else
      var p := PrivateIn(attrs[1..], a);
      assert p ==> exists i :: 0 <= i < |attrs| && attrs[i].name == a by {
        if p { var i :| 0 <= i < |attrs[1..]| && attrs[1..][i].name == a; assert attrs[i + 1].name == a; }
      }
      assert forall i :: 0 < i < |attrs| ==> attrs[i] == attrs[1..][i - 1];
      p
  }

  /** `getModelAssociation(model, a)`: the first association whose alias is `a`. */
  function AssociationFor(m: ModelDef, a: string): (r: Option<Assoc>)
    ensures r.Some? ==> r.value in m.associations && r.value.alias == a
    ensures r.None? ==> forall s :: s in m.associations ==> s.alias != a
  {
    AssociationIn(m.associations, a)
  }

  function AssociationIn(assocs: seq<Assoc>, a: string): (r: Option<Assoc>)
    ensures r.Some? ==> r.value in assocs && r.value.alias == a
    ensures r.None? ==> forall s :: s in assocs ==> s.alias != a
  {
    if assocs == [] then None
    else if assocs[0].alias == a then Some(assocs[0])
    else AssociationIn(assocs[1..], a)
  }

  function StrOrUndefined(s: string): Value
  {
    if s == "" then Undefined else Str(s)
  }

  /** `association.model || association.modelName || association.collection`. */
  function TargetName(s: Assoc): (r: Value)
    ensures s.model != "" ==> r == Str(s.model)
    ensures s.model == "" && s.modelName != "" ==> r == Str(s.modelName)
    ensures s.model == "" && s.modelName == "" ==> r == StrOrUndefined(s.collection)
  {
    Or(StrOrUndefined(s.model), Or(StrOrUndefined(s.modelName), StrOrUndefined(s.collection)))
  }

  /** `getModel(name)`: the registry lookup; a name that is not a string, or
      not registered, finds nothing. */
  function GetModel(models: map<string, ModelDef>, name: Value): (r: Option<ModelDef>)
    ensures r.Some? <==> name.Str? && name.s in models
    ensures r.Some? ==> r.value == models[name.s]
  {
    if name.Str? && name.s in models then Some(models[name.s]) else None
  }
}

=== FILE: serialize.dfy ===
/** The serializer that filters a response before it is sent: a walk over
    a JSON tree that hands every node tagged as a model instance to the
    model serializer, which checks the role's model-scope permission and
    prunes the node's fields.

    The tree is the JSON copy the walk makes on entry, so nodes are never
    shared and each node is modelled as a value; an in-place assignment
    `data[field] = v` becomes `SetKey`, a `delete` becomes `RemoveKey`.
    Each operation is given twice: a function that says what it computes,
    and a method whose loop follows the source and is proved to compute
    that function. The `Promise.all` fan-outs run one after the other, in
    key order; the first failure is the result. */
module Serialize {
  import opened Js
  import opened Schema
  import opened PermissionStore

  /** What the request context contributes: the id (`role._id || role.id`)
      of the role the current user acts as. */
  datatype Ctx = Ctx(roleId: string)

  /** The model registry and the attribute-permission records. */
  datatype Env = Env(models: map<string, ModelDef>, rows: seq<Entry>)

  /** The only keys of a model node that are checked against permissions. */
  const AllowedAttrs: seq<string> := ["_id", "id", "createdAt", "updatedAt"]

  /** The tag the walk looks for (three underscores). */
  const PlainMarker: string := "___strapi_model"

  /** The tag the model serializer reads and deletes (two underscores). */
  const ModelMarker: string := "__strapi_model"

  // ---------------------------------------------------------------------
  // A size measure for termination

  function Size(v: Value): nat
  {
    match v
    case Undefined => 0
    case Arr(items) => 1 + ItemsSize(items)
    case Obj(fields) => 1 + FieldsSize(fields)
    case _ => 1
  }

  function ItemsSize(items: seq<Value>): nat
  {
    if items == [] then 0 else Size(items[0]) + ItemsSize(items[1..])
  }

  function FieldsSize(fields: seq<Field>): nat
  {
    if fields == [] then 0 else Size(fields[0].val) + FieldsSize(fields[1..])
  }

  lemma {:induction false} ItemSize(items: seq<Value>, i: nat)
    requires i < |items|
    ensures Size(items[i]) <= ItemsSize(items)
  {
    if i > 0 { ItemSize(items[1..], i - 1); }
  }

  lemma {:induction false} FieldSize(fields: seq<Field>, i: nat)
    requires i < |fields|
    ensures Size(fields[i].val) <= FieldsSize(fields)
  {
    if i > 0 { FieldSize(fields[1..], i - 1); }
  }

  lemma {:induction false} GetSize(fields: seq<Field>, k: string)
    ensures Size(Get(fields, k)) <= FieldsSize(fields)
  {
    if fields != [] && fields[0].key != k { GetSize(fields[1..], k); }
  }

  lemma {:induction false} RemoveKeySize(fields: seq<Field>, k: string)
    ensures FieldsSize(RemoveKey(fields, k)) <= FieldsSize(fields)
  {
    if fields != [] {
      RemoveKeySize(fields[1..], k);
      if fields[0].key != k {
        assert ([fields[0]] + RemoveKey(fields[1..], k))[1..] == RemoveKey(fields[1..], k);
      }
    }
  }

  lemma DeletePropSize(v: Value, k: string)
    ensures Size(DeleteProp(v, k)) <= Size(v)
  {
    if v.Obj? { RemoveKeySize(v.fields, k); }
  }

  // ---------------------------------------------------------------------
  // getPermissionsForAttribute / getPermissionsForModel

  /** `attribute ? 'attribute' : 'model'`. */
  function ScopeFor(attribute: Option<string>): (s: string)
    ensures s == "attribute" <==> attribute.Some? && attribute.value != ""
    ensures s == "model" <==> !(attribute.Some? && attribute.value != "")
  {
    if attribute.Some? && attribute.value != "" then "attribute" else "model"
  }

  /** The query's filter: role, model, scope, `enabled: true` and, when one
      is given, the attribute; the record's `type` is not looked at. */
  predicate Matches(e: Entry, roleId: string, model: ModelDef, attribute: Option<string>)
  {
    && e.perm.role == roleId
    && e.perm.model == model.globalName
    && e.perm.enabled
    && e.perm.scope == ScopeFor(attribute)
    && (attribute.Some? ==> e.perm.attribute == attribute)
  }

  /** `findOne`: the first record, in store order, that the filter accepts. */
  function FindOne(rows: seq<Entry>, roleId: string, model: ModelDef, attribute: Option<string>): (r: Option<Entry>)
    ensures r.Some? ==> r.value in rows && Matches(r.value, roleId, model, attribute)
    ensures r.None? <==> forall e :: e in rows ==> !Matches(e, roleId, model, attribute)
  {
    if rows == [] then None
    else if Matches(rows[0], roleId, model, attribute) then Some(rows[0])
    else FindOne(rows[1..], roleId, model, attribute)
  }

  /** What the lookup answers: `false` for an attribute the model does not
      declare, `null` when no enabled record matches, or the record. */
  datatype Lookup = Undeclared | NoRecord | Found(entry: Entry)

  function PermissionFor(env: Env, ctx: Ctx, model: ModelDef, attribute: Option<string>): (r: Lookup)
    ensures r.Undeclared? <==> attribute.Some? && !Declared(model, attribute.value)
    ensures r.Found? ==> r.entry in env.rows && Matches(r.entry, ctx.roleId, model, attribute) && r.entry.perm.enabled
    ensures r.NoRecord? <==> (attribute.None? || Declared(model, attribute.value))
                             && forall e :: e in env.rows ==> !Matches(e, ctx.roleId, model, attribute)
  {
    if attribute.Some? && !Declared(model, attribute.value) then Undeclared
    else
      match FindOne(env.rows, ctx.roleId, model, attribute)
      case None => NoRecord
      case Some(e) => Found(e)
  }

  /** getPermissionsForModel: the model-scope lookup. A name the registry
      does not know leaves `model` undefined, and reading its `globalName`
      throws. */
  function ModelPermission(env: Env, ctx: Ctx, model: Option<ModelDef>): (r: Result<Lookup>)
    ensures r.Err? <==> model.None?
    ensures r.Ok? ==> !r.value.Undeclared?
    ensures r.Ok? ==> (r.value.Found? <==> exists e :: e in env.rows && Matches(e, ctx.roleId, model.value, None))
  {
    if model.None? then Err(TypeError("model.globalName"))
    else Ok(PermissionFor(env, ctx, model.value, None))
  }

  // ---------------------------------------------------------------------
  // SerializeModel / SerializeAttribute, as functions

  /** `Object.keys(data).filter(attr => ALLOWED_ATTRS.indexOf(attr) !== -1)`. */
  function AllowedKeys(ks: seq<string>): (r: seq<string>)
    ensures forall k :: k in r <==> k in ks && k in AllowedAttrs
    ensures |r| <= |ks|
  {
    if ks == [] then []
    else (if ks[0] in AllowedAttrs then [ks[0]] else []) + AllowedKeys(ks[1..])
  }

  /** No key of `ks` names an association the role may read; only such a
      key sends SerializeAttribute into a nested model serialization. */
  ghost predicate NoPermittedAssociation(env: Env, ctx: Ctx, model: ModelDef, ks: seq<string>)
  {
    forall k :: k in ks ==> AssociationFor(model, k).None? || !PermissionFor(env, ctx, model, Some(k)).Found?
  }

  /** What SerializeModel resolves to for `data` tagged with `modelName`. */
  function ModelSerialized(env: Env, ctx: Ctx, modelName: Value, data: Value): (r: Result<Value>)
    decreases Size(data), 2
    ensures !Truthy(data) ==> r == Ok(data)
    ensures Truthy(data) && GetModel(env.models, Or(modelName, Prop(data, ModelMarker))).None? ==> r.Err?
    ensures Truthy(data) && GetModel(env.models, Or(modelName, Prop(data, ModelMarker))).Some?
            && !PermissionFor(env, ctx, GetModel(env.models, Or(modelName, Prop(data, ModelMarker))).value, None).Found?
            ==> r.Err?
    ensures Truthy(data) && GetModel(env.models, Or(modelName, Prop(data, ModelMarker))).Some?
            && PermissionFor(env, ctx, GetModel(env.models, Or(modelName, Prop(data, ModelMarker))).value, None).Found?
            && NoPermittedAssociation(env, ctx, GetModel(env.models, Or(modelName, Prop(data, ModelMarker))).value, AllowedAttrs)
            ==> r.Ok?
    ensures r.Ok? && data.Obj? ==> r.value.Obj? && |r.value.fields| <= |data.fields|
    ensures r.Ok? && data.Obj? ==> forall f :: f in r.value.fields <==>
              f in data.fields && f.key !in AllowedAttrs && f.key != ModelMarker && f.key != "__v"
    ensures r.Ok? && !data.Obj? ==> r.value == data
  {
    if !Truthy(data) then Ok(data)
    else
      var model := GetModel(env.models, Or(modelName, Prop(data, ModelMarker)));
      var stripped := DeleteProp(DeleteProp(data, ModelMarker), "__v");
      match ModelPermission(env, ctx, model)
      case Err(f) => Err(f)
      case Ok(lookup) =>
        if !lookup.Found? then Err(TypeError("modelPermissions.enabled"))
        else if stripped.Obj? then
          DeletePropSize(data, ModelMarker);
          DeletePropSize(DeleteProp(data, ModelMarker), "__v");
          match AttributesSerialized(env, ctx, model.value, stripped.fields, AllowedKeys(Keys(stripped.fields)))
          case Err(f) => Err(f)
          case Ok(fields) => Ok(Obj(fields))
        else Ok(stripped)
  }

  /** The allowed keys `ks` of a model node, one after the other; `fields`
      is the node as the earlier keys left it. */
  function AttributesSerialized(env: Env, ctx: Ctx, model: ModelDef, fields: seq<Field>, ks: seq<string>): (r: Result<seq<Field>>)
    decreases FieldsSize(fields) + 1, 1, |ks|
    ensures r.Ok? ==> |r.value| <= |fields|
    ensures r.Ok? ==> forall f :: f in r.value <==> f in fields && f.key !in ks
    ensures NoPermittedAssociation(env, ctx, model, ks) ==> r.Ok?
  {
    if ks == [] then Ok(fields)
    else
      match AttributeSerialized(env, ctx, model, fields, ks[0])
      case Err(f) => Err(f)
      case Ok(next) =>
        RemoveKeySize(fields, ks[0]);
        AttributesSerialized(env, ctx, model, next, ks[1..])
  }

  /** What SerializeAttribute leaves of the node: the field is deleted when
      the lookup finds no enabled record; otherwise an association is first
      serialized as a model and stored, and then the stub policy, which
      returns `undefined`, deletes the field anyway. Only a failure of the
      nested model serialization is observable. */
  function AttributeSerialized(env: Env, ctx: Ctx, model: ModelDef, fields: seq<Field>, k: string): (r: Result<seq<Field>>)
    decreases FieldsSize(fields) + 1, 0
    ensures r.Ok? ==> r.value == RemoveKey(fields, k)
    ensures AssociationFor(model, k).None? || !PermissionFor(env, ctx, model, Some(k)).Found? ==> r == Ok(RemoveKey(fields, k))
  {
    var value := Get(fields, k);
    match PermissionFor(env, ctx, model, Some(k))
    case Found(_) =>
      (match AssociationFor(model, k)
       case Some(a) =>
         GetSize(fields, k);
         (match ModelSerialized(env, ctx, TargetName(a), value)
          case Err(f) => Err(f)
          case Ok(nv) =>
            RemoveSetKey(fields, k, nv);
            Ok(RemoveKey(SetKey(fields, k, nv), k)))
       case None => Ok(RemoveKey(fields, k)))
    case _ => Ok(RemoveKey(fields, k))
  }

  lemma {:induction false} RemoveSetKey(fields: seq<Field>, k: string, v: Value)
    ensures RemoveKey(SetKey(fields, k, v), k) == RemoveKey(fields, k)
  {
    if fields != [] {
      if fields[0].key == k {
        assert SetKey(fields, k, v) == [Field(k, v)] + fields[1..];
        assert RemoveKey([Field(k, v)] + fields[1..], k) == RemoveKey(fields[1..], k) by {
          assert ([Field(k, v)] + fields[1..])[1..] == fields[1..];
        }
      } else {
        RemoveSetKey(fields[1..], k, v);
        var s := SetKey(fields, k, v);
        assert s == [fields[0]] + SetKey(fields[1..], k, v);
        assert s[1..] == SetKey(fields[1..], k, v);
      }
    }
  }

  // ---------------------------------------------------------------------
  // SerializePlainObject / SerializePlainAttribute, as functions

  /** What SerializePlainObject resolves to, once `data` is plain JSON. */
  function Serialized(env: Env, ctx: Option<Ctx>, data: Value): (r: Result<Value>)
    decreases Size(data), 3
    ensures !Truthy(data) || ctx.None? ==> r == Ok(data)
    ensures r.Ok? && data.Obj? && !Truthy(Prop(data, PlainMarker)) ==> r.value.Obj? && Keys(r.value.fields) == Keys(data.fields)
    ensures r.Ok? && data.Arr? ==> r.value.Arr? && |r.value.items| == |data.items|
    ensures !data.Obj? && !data.Arr? ==> r == Ok(data)
    ensures Truthy(data) && ctx.Some? && Truthy(Prop(data, PlainMarker)) ==>
      r == ModelSerialized(env, ctx.value, Prop(data, PlainMarker), data)
    ensures r.Ok? && ctx.Some? && data.Obj? && !Truthy(Prop(data, PlainMarker)) && DistinctKeys(data.fields) ==>
      forall j :: 0 <= j < |data.fields| ==>
        (FieldSize(data.fields, j);
         var f := data.fields[j];
         && (f.val.Arr? || f.val.Obj? ==>
               AttributeValue(env, ctx, f.val).Ok? && Get(r.value.fields, f.key) == AttributeValue(env, ctx, f.val).value)
         && (!f.val.Arr? && !f.val.Obj? ==> Get(r.value.fields, f.key) == Get(data.fields, f.key)))
    ensures r.Ok? && ctx.Some? && data.Arr? ==> forall j :: 0 <= j < |data.items| ==>
      (ItemSize(data.items, j);
       AttributeValue(env, ctx, data.items[j]).Ok? && r.value.items[j] == AttributeValue(env, ctx, data.items[j]).value)
  {
    if !Truthy(data) || ctx.None? then Ok(data)
    else if Truthy(Prop(data, PlainMarker)) then ModelSerialized(env, ctx.value, Prop(data, PlainMarker), data)
    else match data
      case Obj(fields) =>
        (match FieldsSerialized(env, ctx, fields, 0, fields)
         case Err(f) => Err(f)
         case Ok(fs) => Ok(Obj(fs)))
      case Arr(items) =>
        (match SlotsSerialized(env, ctx, items, 0)
         case Err(f) => Err(f)
         case Ok(vs) => Ok(Arr(vs)))
      case _ => Ok(data)
  }

  /** The fields of a plain object from index `i` on; `cur` is the object as
      the earlier fields left it. Each field's value is read from the key
      snapshot `orig`: an earlier step assigns only its own key, and an
      object's keys are distinct, so this is the value `data[field]` reads. */
  function FieldsSerialized(env: Env, ctx: Option<Ctx>, orig: seq<Field>, i: nat, cur: seq<Field>): (r: Result<seq<Field>>)
    requires i <= |orig| && Keys(cur) == Keys(orig)
    decreases FieldsSize(orig) + 1, 2, |orig| - i
    ensures r.Ok? ==> Keys(r.value) == Keys(orig)
    ensures r.Ok? && DistinctKeys(orig) ==> forall j :: i <= j < |orig| ==>
      (FieldSize(orig, j);
       && (orig[j].val.Arr? || orig[j].val.Obj? ==>
             AttributeValue(env, ctx, orig[j].val).Ok? && Get(r.value, orig[j].key) == AttributeValue(env, ctx, orig[j].val).value)
       && (!orig[j].val.Arr? && !orig[j].val.Obj? ==> Get(r.value, orig[j].key) == Get(cur, orig[j].key)))
    ensures r.Ok? ==> forall k :: k !in Keys(orig[i..]) ==> Get(r.value, k) == Get(cur, k)
  {
    if i == |orig| then Ok(cur)
    else
      FieldSize(orig, i);
      assert orig[i].key in Keys(cur);
      match FieldSerialized(env, ctx, cur, orig[i])
      case Err(f) => Err(f)
      case Ok(next) => FieldsSerialized(env, ctx, orig, i + 1, next)
  }

  /** SerializePlainAttribute on one field: a falsy value or a scalar is
      left alone; an array or object is replaced by its serialization. */
  function FieldSerialized(env: Env, ctx: Option<Ctx>, cur: seq<Field>, f: Field): (r: Result<seq<Field>>)
    requires f.key in Keys(cur)
    decreases Size(f.val), 5
    ensures r.Ok? ==> Keys(r.value) == Keys(cur)
    ensures r.Ok? && !f.val.Arr? && !f.val.Obj? ==> r.value == cur
    ensures r.Ok? && (f.val.Arr? || f.val.Obj?) ==>
      AttributeValue(env, ctx, f.val).Ok? && Get(r.value, f.key) == AttributeValue(env, ctx, f.val).value
    ensures r.Ok? ==> forall k :: k != f.key ==> Get(r.value, k) == Get(cur, k)
  {
    if f.val.Arr? || f.val.Obj? then
      match AttributeValue(env, ctx, f.val)
      case Err(e) => Err(e)
      case Ok(nv) => Ok(SetKey(cur, f.key, nv))
    else Ok(cur)
  }

  /** The value SerializePlainAttribute stores for `value`: an array is
      mapped element-wise through SerializePlainObject, an object goes
      through it whole, and anything else is kept. */
  function AttributeValue(env: Env, ctx: Option<Ctx>, value: Value): (r: Result<Value>)
    decreases Size(value), 4
    ensures r.Ok? && value.Arr? ==> r.value.Arr? && |r.value.items| == |value.items|
    ensures r.Ok? && value.Arr? ==> forall j :: 0 <= j < |value.items| ==>
      (ItemSize(value.items, j);
       Serialized(env, ctx, value.items[j]).Ok? && r.value.items[j] == Serialized(env, ctx, value.items[j]).value)
    ensures !value.Arr? && !value.Obj? ==> r == Ok(value)
  {
    if !Truthy(value) then Ok(value)
    else match value
      case Arr(items) =>
        (match ElementsSerialized(env, ctx, items, 0)
         case Err(f) => Err(f)
         case Ok(vs) => Ok(Arr(vs)))
      case Obj(_) => Serialized(env, ctx, value)
      case _ => Ok(value)
  }

  /** `value.map(v => SerializePlainObject(ctx, v))` from index `i` on. */
  function ElementsSerialized(env: Env, ctx: Option<Ctx>, items: seq<Value>, i: nat): (r: Result<seq<Value>>)
    requires i <= |items|
    decreases ItemsSize(items) + 1, 2, |items| - i
    ensures r.Ok? ==> |r.value| == |items| - i
    ensures r.Ok? ==> forall j :: i <= j < |items| ==>
      (ItemSize(items, j);
       Serialized(env, ctx, items[j]).Ok? && r.value[j - i] == Serialized(env, ctx, items[j]).value)
  {
    if i == |items| then Ok([])
    else
      ItemSize(items, i);
      match Serialized(env, ctx, items[i])
      case Err(f) => Err(f)
      case Ok(v) =>
        match ElementsSerialized(env, ctx, items, i + 1)
        case Err(f) => Err(f)
        case Ok(vs) =>
          var r := [v] + vs;
          assert r[1..] == vs;
          Ok(r)
  }

  /** An array given to SerializePlainObject: its keys are the indices, so
      SerializePlainAttribute runs on every slot, from index `i` on. */
  function SlotsSerialized(env: Env, ctx: Option<Ctx>, items: seq<Value>, i: nat): (r: Result<seq<Value>>)
    requires i <= |items|
    decreases ItemsSize(items) + 1, 2, |items| - i
    ensures r.Ok? ==> |r.value| == |items| - i
    ensures r.Ok? ==> forall j :: i <= j < |items| ==>
      (ItemSize(items, j);
       AttributeValue(env, ctx, items[j]).Ok? && r.value[j - i] == AttributeValue(env, ctx, items[j]).value)
  {
    if i == |items| then Ok([])
    else
      ItemSize(items, i);
      match AttributeValue(env, ctx, items[i])
      case Err(f) => Err(f)
      case Ok(v) =>
        match SlotsSerialized(env, ctx, items, i + 1)
        case Err(f) => Err(f)
        case Ok(vs) =>
          var r := [v] + vs;
          assert r[1..] == vs;
          Ok(r)
  }

  // ---------------------------------------------------------------------
  // The serializer, step by step

  /** `Ok(prefix + vs)` for `Ok(vs)`; a failure stays a failure. */
  function Prepend(prefix: seq<Value>, r: Result<seq<Value>>): Result<seq<Value>>
  {
    match r
    case Err(f) => Err(f)
    case Ok(vs) => Ok(prefix + vs)
  }

  lemma PrependNothing(r: Result<seq<Value>>)
    ensures Prepend([], r) == r
  {
    if r.Ok? { assert [] + r.value == r.value; }
  }

  lemma PrependTwice(a: seq<Value>, b: seq<Value>, r: Result<seq<Value>>)
    ensures Prepend(a, Prepend(b, r)) == Prepend(a + b, r)
  {
    if r.Ok? { assert a + (b + r.value) == a + b + r.value; }
  }

  /** SerializePlainObject on plain JSON. */
  method SerializePlainObject(env: Env, ctx: Option<Ctx>, data: Value) returns (r: Result<Value>)
    decreases Size(data), 3
    ensures r == Serialized(env, ctx, data)
  {
    if !Truthy(data) || ctx.None? {
      return Ok(data);
    }
    var tag := Prop(data, PlainMarker);
    if Truthy(tag) {
      r := SerializeModel(env, ctx.value, tag, data);
      return;
    }
    match data
    case Obj(fields) =>
      var res := SerializeFields(env, ctx, fields);
      if res.Err? {
        return Err(res.fault);
      }
      return Ok(Obj(res.value));
    case Arr(items) =>
      var res := SerializeSlots(env, ctx, items);
      if res.Err? {
        return Err(res.fault);
      }
      return Ok(Arr(res.value));
    case _ =>
      return Ok(data);
  }

  /** The loop over `Object.keys(data)` of a plain object. */
  method SerializeFields(env: Env, ctx: Option<Ctx>, fields: seq<Field>) returns (r: Result<seq<Field>>)
    decreases FieldsSize(fields) + 1, 2
    ensures r == FieldsSerialized(env, ctx, fields, 0, fields)
  {
    var cur := fields;
    var i := 0;
    while i < |fields|
      invariant i <= |fields| && Keys(cur) == Keys(fields)
      invariant FieldsSerialized(env, ctx, fields, i, cur) == FieldsSerialized(env, ctx, fields, 0, fields)
    {
      FieldSize(fields, i);
      assert fields[i].key in Keys(cur);
      var next := SerializePlainAttribute(env, ctx, cur, fields[i]);
      if next.Err? {
        return Err(next.fault);
      }
      cur := next.value;
      i := i + 1;
    }
    return Ok(cur);
  }

  /** SerializePlainAttribute on one field of a plain object: an array or
      object value is replaced in place by its serialization. */
  method SerializePlainAttribute(env: Env, ctx: Option<Ctx>, data: seq<Field>, field: Field) returns (r: Result<seq<Field>>)
    requires field.key in Keys(data)
    decreases Size(field.val), 5
    ensures r == FieldSerialized(env, ctx, data, field)
  {
    var value := field.val;
    if value.Arr? || value.Obj? {
      var newValue := SerializePlainValue(env, ctx, value);
      if newValue.Err? {
        return Err(newValue.fault);
      }
      return Ok(SetKey(data, field.key, newValue.value));
    }
    return Ok(data);
  }

  /** The same loop when `data` is an array: its keys are the indices, and
      each slot is replaced in place. */
  method SerializeSlots(env: Env, ctx: Option<Ctx>, items: seq<Value>) returns (r: Result<seq<Value>>)
    decreases ItemsSize(items) + 1, 2
    ensures r == SlotsSerialized(env, ctx, items, 0)
  {
    var cur := items;
    var i := 0;
    PrependNothing(SlotsSerialized(env, ctx, items, 0));
    while i < |items|
      invariant i <= |items| && |cur| == |items| && cur[i..] == items[i..]
      invariant SlotsSerialized(env, ctx, items, 0) == Prepend(cur[..i], SlotsSerialized(env, ctx, items, i))
    {
      ItemSize(items, i);
      var newValue := SerializePlainValue(env, ctx, items[i]);
      if newValue.Err? {
        return Err(newValue.fault);
      }
      assert SlotsSerialized(env, ctx, items, i) == Prepend([newValue.value], SlotsSerialized(env, ctx, items, i + 1));
      PrependTwice(cur[..i], [newValue.value], SlotsSerialized(env, ctx, items, i + 1));
      cur := cur[i := newValue.value];
      assert cur[..i + 1] == cur[..i] + [newValue.value];
      i := i + 1;
    }
    assert cur[..i] == cur && cur + [] == cur;
    return Ok(cur);
  }

  /** The value SerializePlainAttribute stores back into `data[field]`. */
  method SerializePlainValue(env: Env, ctx: Option<Ctx>, value: Value) returns (r: Result<Value>)
    decreases Size(value), 4
    ensures r == AttributeValue(env, ctx, value)
  {
    if !Truthy(value) {
      return Ok(value);
    }
    match value
    case Arr(items) =>
      var res := SerializeElements(env, ctx, items);
      if res.Err? {
        return Err(res.fault);
      }
      return Ok(Arr(res.value));
    case Obj(_) =>
      r := SerializePlainObject(env, ctx, value);
    case _ =>
      return Ok(value);
  }

  /** `Promise.all(value.map(v => SerializePlainObject(ctx, v)))`. */
  method SerializeElements(env: Env, ctx: Option<Ctx>, items: seq<Value>) returns (r: Result<seq<Value>>)
    decreases ItemsSize(items) + 1, 2
    ensures r == ElementsSerialized(env, ctx, items, 0)
  {
    var out := [];
    var i := 0;
    PrependNothing(ElementsSerialized(env, ctx, items, 0));
    while i < |items|
      invariant i <= |items|
      invariant ElementsSerialized(env, ctx, items, 0) == Prepend(out, ElementsSerialized(env, ctx, items, i))
    {
      ItemSize(items, i);
      var v := SerializePlainObject(env, ctx, items[i]);
      if v.Err? {
        return Err(v.fault);
      }
      assert ElementsSerialized(env, ctx, items, i) == Prepend([v.value], ElementsSerialized(env, ctx, items, i + 1));
      PrependTwice(out, [v.value], ElementsSerialized(env, ctx, items, i + 1));
      out := out + [v.value];
      i := i + 1;
    }
    assert out + [] == out;
    return Ok(out);
  }

  /** SerializeModel. */
  method SerializeModel(env: Env, ctx: Ctx, modelName: Value, data: Value) returns (r: Result<Value>)
    decreases Size(data), 2
    ensures r == ModelSerialized(env, ctx, modelName, data)
  {
    if !Truthy(data) {
      return Ok(data);
    }
    var model := GetModel(env.models, Or(modelName, Prop(data, ModelMarker)));
    var stripped := DeleteProp(DeleteProp(data, ModelMarker), "__v");
    var modelPermissions := ModelPermission(env, ctx, model);
    if modelPermissions.Err? {
      return Err(modelPermissions.fault);
    }
    if !modelPermissions.value.Found? {
      // `modelPermissions.enabled` on `null`
      return Err(TypeError("modelPermissions.enabled"));
    }
    if !stripped.Obj? {
      return Ok(stripped);
    }
    DeletePropSize(data, ModelMarker);
    DeletePropSize(DeleteProp(data, ModelMarker), "__v");
    var fields := SerializeAttributes(env, ctx, model.value, stripped.fields, AllowedKeys(Keys(stripped.fields)));
    if fields.Err? {
      return Err(fields.fault);
    }
    return Ok(Obj(fields.value));
  }

  /** The `Promise.all` over the allowed keys of SerializeModel, in key order. */
  method SerializeAttributes(env: Env, ctx: Ctx, model: ModelDef, fields: seq<Field>, ks: seq<string>)
    returns (r: Result<seq<Field>>)
    decreases FieldsSize(fields) + 1, 1, |ks|
    ensures r == AttributesSerialized(env, ctx, model, fields, ks)
  {
    var cur := fields;
    var j := 0;
    while j < |ks|
      invariant j <= |ks| && FieldsSize(cur) <= FieldsSize(fields)
      invariant AttributesSerialized(env, ctx, model, cur, ks[j..]) == AttributesSerialized(env, ctx, model, fields, ks)
    {
      var next := SerializeAttribute(env, ctx, model, cur, ks[j]);
      if next.Err? {
        return Err(next.fault);
      }
      RemoveKeySize(cur, ks[j]);
      assert ks[j..][1..] == ks[j + 1..];
      cur := next.value;
      j := j + 1;
    }
    return Ok(cur);
  }

  /** SerializeAttribute on the node `data`, for one allowed key. */
  method SerializeAttribute(env: Env, ctx: Ctx, model: ModelDef, data: seq<Field>, attributeName: string)
    returns (r: Result<seq<Field>>)
    decreases FieldsSize(data) + 1, 0
    ensures r == AttributeSerialized(env, ctx, model, data, attributeName)
  {
    var value := Get(data, attributeName);
    var permission := PermissionFor(env, ctx, model, Some(attributeName));
    if !permission.Found? {
      return Ok(RemoveKey(data, attributeName));
    }
    var fields := data;
    var association := AssociationFor(model, attributeName);
    if association.Some? {
      GetSize(data, attributeName);
      var newValue := SerializeModel(env, ctx, TargetName(association.value), value);
      if newValue.Err? {
        return Err(newValue.fault);
      }
      fields := SetKey(fields, attributeName, newValue.value);
    }
    // the stub policy returns `undefined`, so the field is deleted
    fields := RemoveKey(fields, attributeName);
    return Ok(fields);
  }

  // ---------------------------------------------------------------------
  // Properties of the walk

  /** SerializePlainAttribute and SerializePlainObject agree on every value:
      an array field mapped element-wise is the same as an array walked
      slot by slot, since an array never carries the model tag. */
  lemma AttributeValueIsSerialized(env: Env, ctx: Option<Ctx>, v: Value)
    requires ctx.Some?
    decreases Size(v), 1
    ensures AttributeValue(env, ctx, v) == Serialized(env, ctx, v)
  {
    if v.Arr? {
      ElementsAreSlots(env, ctx, v.items, 0);
    }
  }

  lemma ElementsAreSlots(env: Env, ctx: Option<Ctx>, items: seq<Value>, i: nat)
    requires ctx.Some? && i <= |items|
    decreases ItemsSize(items) + 1, 0, |items| - i
    ensures ElementsSerialized(env, ctx, items, i) == SlotsSerialized(env, ctx, items, i)
  {
    if i < |items| {
      ItemSize(items, i);
      AttributeValueIsSerialized(env, ctx, items[i]);
      ElementsAreSlots(env, ctx, items, i + 1);
    }
  }

  /** A JSON tree with distinct keys in which no object carries a truthy
      `___strapi_model` tag. */
  ghost predicate PlainTree(v: Value)
    decreases Size(v)
  {
    match v
    case Obj(fields) =>
      && DistinctKeys(fields) && !Truthy(Get(fields, PlainMarker))
      && forall i :: 0 <= i < |fields| ==> (FieldSize(fields, i); PlainTree(fields[i].val))
    case Arr(items) =>
      forall i :: 0 <= i < |items| ==> (ItemSize(items, i); PlainTree(items[i]))
    case _ => true
  }

  /** The walk dispatches on `___strapi_model` but the model serializer
      deletes `__strapi_model`: a tagged object keeps its tag in the output. */
  lemma PlainTagKept(env: Env, ctx: Ctx, fields: seq<Field>)
    requires Truthy(Get(fields, PlainMarker))
    requires Serialized(env, Some(ctx), Obj(fields)).Ok?
    ensures Field(PlainMarker, Get(fields, PlainMarker)) in Serialized(env, Some(ctx), Obj(fields)).value.fields
  {
    GetIn(fields, PlainMarker);
    assert PlainMarker !in AllowedAttrs;
  }

  lemma {:induction false} SetKeySame(fields: seq<Field>, i: nat)
    requires DistinctKeys(fields) && i < |fields|
    ensures SetKey(fields, fields[i].key, fields[i].val) == fields
  {
    var k := fields[i].key;
    var v := fields[i].val;
    if i > 0 {
      assert fields[0].key != k;
      DistinctKeysTail(fields);
      assert fields[1..][i - 1] == fields[i];
      SetKeySame(fields[1..], i - 1);
      assert SetKey(fields, k, v) == [fields[0]] + SetKey(fields[1..], k, v);
    } else {
      assert SetKey(fields, k, v) == [Field(k, v)] + fields[1..];
    }
    assert fields == [fields[0]] + fields[1..];
  }

  /** A tree without model tags comes back unchanged. */
  lemma PlainTreeUnchanged(env: Env, ctx: Option<Ctx>, v: Value)
    requires ctx.Some? && PlainTree(v)
    decreases Size(v), 1
    ensures Serialized(env, ctx, v) == Ok(v)
    ensures AttributeValue(env, ctx, v) == Ok(v)
  {
    if Truthy(v) {
      match v
      case Obj(fields) => FieldsUnchanged(env, ctx, fields, 0);
      case Arr(items) =>
        SlotsUnchanged(env, ctx, items, 0);
        ElementsAreSlots(env, ctx, items, 0);
      case _ =>
    }
  }

  lemma FieldsUnchanged(env: Env, ctx: Option<Ctx>, fields: seq<Field>, i: nat)
    requires ctx.Some? && i <= |fields| && DistinctKeys(fields)
    requires forall j :: 0 <= j < |fields| ==> (FieldSize(fields, j); PlainTree(fields[j].val))
    decreases FieldsSize(fields) + 1, 0, |fields| - i
    ensures FieldsSerialized(env, ctx, fields, i, fields) == Ok(fields)
  {
    if i < |fields| {
      FieldSize(fields, i);
      PlainTreeUnchanged(env, ctx, fields[i].val);
      SetKeySame(fields, i);
      FieldsUnchanged(env, ctx, fields, i + 1);
    }
  }

  lemma SlotsUnchanged(env: Env, ctx: Option<Ctx>, items: seq<Value>, i: nat)
    requires ctx.Some? && i <= |items|
    requires forall j :: 0 <= j < |items| ==> (ItemSize(items, j); PlainTree(items[j]))
    decreases ItemsSize(items) + 1, 0, |items| - i
    ensures SlotsSerialized(env, ctx, items, i) == Ok(items[i..])
  {
    if i < |items| {
      ItemSize(items, i);
      PlainTreeUnchanged(env, ctx, items[i]);
      SlotsUnchanged(env, ctx, items, i + 1);
      assert items[i..] == [items[i]] + items[i + 1..];
    }
  }

  lemma {:induction false} RemoveAbsent(fields: seq<Field>, k: string)
    requires k !in Keys(fields)
    ensures RemoveKey(fields, k) == fields
  {
    if fields != [] {
      assert Keys(fields[1..]) == Keys(fields)[1..];
      RemoveAbsent(fields[1..], k);
      assert fields == [fields[0]] + fields[1..];
    }
  }

  lemma {:induction false} AllowedKeysNone(ks: seq<string>)
    requires forall k :: k in ks ==> k !in AllowedAttrs
    ensures AllowedKeys(ks) == []
  {
    if ks != [] {
      assert ks[0] in ks;
      AllowedKeysNone(ks[1..]);
    }
  }

  /** A worked case. The role `R` may read `Article`; `title` is public and
      `secret` is private; `author` is an association to `User`, a model
      the registry does not know. Of `{id, title, secret, extra, author}`
      only `id` is an allowed key, and it is not a declared attribute, so it
      alone is deleted: the private field, the undeclared field and the
      association all come back as they were. */
  const Article: ModelDef := ModelDef("Article", [AttrDef("title", "string", false), AttrDef("secret", "string", true)],
                                      [Assoc("author", "User", "", "")])

  const ArticleEnv: Env := Env(map["Article" := Article],
    [Entry(0, Permission("R", "application", "Article", "model", None, true)),
     Entry(1, Permission("R", "application", "Article", "attribute", Some("title"), true)),
     Entry(2, Permission("R", "application", "Article", "attribute", Some("secret"), false))])

  const Author: Value := Obj([Field(ModelMarker, Str("User")), Field("name", Str("n"))])

  const ArticleRest: seq<Field> :=
    [Field("title", Str("hi")), Field("secret", Str("x")), Field("extra", Str("y")), Field("author", Author)]

  const ArticleFields: seq<Field> := [Field("id", Num(1))] + ArticleRest

  lemma ArticleKeepsAllButId()
    ensures ModelSerialized(ArticleEnv, Ctx("R"), Str("Article"), Obj(ArticleFields)) == Ok(Obj(ArticleRest))
  {
    ArticleStripped();
    ArticleLookups();
    ArticleAllowed();
    ArticleAttributes();
    ModelSerializedObj(ArticleEnv, Ctx("R"), Str("Article"), ArticleFields, Article, ArticleFields);
  }

  /** SerializeModel as the source is written. Through line 69, line 161 asks
      the user service for `getCurrentUsersRole`, a name the service does not
      export (it exports `getCurrentUserRole`); calling `undefined` throws, so
      every truthy node rejects, after the deletes of lines 64-65 and before
      any attribute is looked at. `ModelSerialized` models the intended call,
      with the role it returns given as `ctx`. */
  function ModelSerializedAsWritten(env: Env, ctx: Ctx, modelName: Value, data: Value): (r: Result<Value>)
    ensures r.Ok? <==> !Truthy(data)
    ensures r.Ok? ==> r.value == data
  {
    if !Truthy(data) then Ok(data)
    else Err(TypeError("services.user.getCurrentUsersRole"))
  }

  /** The misspelt role lookup turns a node the intended serializer filters
      into a rejection of the whole response. */
  /** Every node the role may read, with no permitted association among the
      allowed keys, is served by the intended serializer and rejected by the
      code as written. */
  lemma AsWrittenRejectsPermitted(env: Env, ctx: Ctx, modelName: Value, data: Value, model: ModelDef)
    requires Truthy(data) && GetModel(env.models, Or(modelName, Prop(data, ModelMarker))) == Some(model)
    requires PermissionFor(env, ctx, model, None).Found? && NoPermittedAssociation(env, ctx, model, AllowedAttrs)
    ensures ModelSerialized(env, ctx, modelName, data).Ok?
    ensures ModelSerializedAsWritten(env, ctx, modelName, data).Err?
  {
  }

  lemma RoleLookupNameRejects()
    ensures ModelSerializedAsWritten(ArticleEnv, Ctx("R"), Str("Article"), Obj(ArticleFields)).Err?
    ensures ModelSerialized(ArticleEnv, Ctx("R"), Str("Article"), Obj(ArticleFields)) == Ok(Obj(ArticleRest))
  {
    ArticleKeepsAllButId();
  }

  /** SerializeModel on an object whose model and model-scope permission are
      found goes on to the allowed keys of the stripped node. */
  lemma ModelSerializedObj(env: Env, ctx: Ctx, modelName: Value, fields: seq<Field>, model: ModelDef, stripped: seq<Field>)
    requires GetModel(env.models, Or(modelName, Get(fields, ModelMarker))) == Some(model)
    requires PermissionFor(env, ctx, model, None).Found?
    requires RemoveKey(RemoveKey(fields, ModelMarker), "__v") == stripped
    ensures ModelSerialized(env, ctx, modelName, Obj(fields)) ==
      match AttributesSerialized(env, ctx, model, stripped, AllowedKeys(Keys(stripped)))
      case Err(f) => Err(f)
      case Ok(fs) => Ok(Obj(fs))
  {
    assert Truthy(Obj(fields));
    assert DeleteProp(DeleteProp(Obj(fields), ModelMarker), "__v") == Obj(stripped);
  }

  /** The pass over the allowed keys fails exactly when one of them names an
      association the role may read and the nested model serialization of
      that field's value fails. */
  lemma {:induction false} AttributesErrIff(env: Env, ctx: Ctx, model: ModelDef, fields: seq<Field>, ks: seq<string>)
    decreases |ks|
    ensures AttributesSerialized(env, ctx, model, fields, ks).Err? <==>
      exists k :: k in ks && NestedFails(env, ctx, model, fields, k)
  {
    if ks != [] {
      var k0 := ks[0];
      match AttributeSerialized(env, ctx, model, fields, k0)
      case Err(_) =>
        assert NestedFails(env, ctx, model, fields, k0);
      case Ok(next) =>
        assert !NestedFails(env, ctx, model, fields, k0);
        AttributesErrIff(env, ctx, model, next, ks[1..]);
        forall k | k in ks
          ensures NestedFails(env, ctx, model, next, k) == NestedFails(env, ctx, model, fields, k)
        {
          if k != k0 {
            GetRemoveOther(fields, k0, k);
          }
        }
        assert forall k :: k in ks <==> k == k0 || k in ks[1..];
    }
  }

  /** SerializeModel fails exactly when the node is truthy and its model is
      unknown, the role has no enabled model-scope record, or an allowed key
      of the stripped node fails its nested serialization. */
  lemma ModelSerializedErrIff(env: Env, ctx: Ctx, modelName: Value, data: Value)
    ensures ModelSerialized(env, ctx, modelName, data).Err? <==>
      Truthy(data) &&
      var model := GetModel(env.models, Or(modelName, Prop(data, ModelMarker)));
      (model.None? || !PermissionFor(env, ctx, model.value, None).Found? ||
       (data.Obj? &&
        var stripped := RemoveKey(RemoveKey(data.fields, ModelMarker), "__v");
        exists k :: k in AllowedKeys(Keys(stripped)) && NestedFails(env, ctx, model.value, stripped, k)))
  {
    if Truthy(data) {
      var model := GetModel(env.models, Or(modelName, Prop(data, ModelMarker)));
      if model.Some? && PermissionFor(env, ctx, model.value, None).Found? && data.Obj? {
        var stripped := RemoveKey(RemoveKey(data.fields, ModelMarker), "__v");
        ModelSerializedObj(env, ctx, modelName, data.fields, model.value, stripped);
        AttributesErrIff(env, ctx, model.value, stripped, AllowedKeys(Keys(stripped)));
      }
    }
  }

  /** SerializeAttribute on `k` serializes a permitted association and that
      nested serialization fails. */
  ghost predicate NestedFails(env: Env, ctx: Ctx, model: ModelDef, fields: seq<Field>, k: string)
  {
    PermissionFor(env, ctx, model, Some(k)).Found? && AssociationFor(model, k).Some?
    && ModelSerialized(env, ctx, TargetName(AssociationFor(model, k).value), Get(fields, k)).Err?
  }

  lemma ArticleAttributes()
    ensures AttributesSerialized(ArticleEnv, Ctx("R"), Article, ArticleFields, ["id"]) == Ok(ArticleRest)
  {
    ArticleRemoveId();
    ArticleLookups();
    NoPermissionDeletes(ArticleEnv, Ctx("R"), Article, ArticleFields, "id");
    OneKey(ArticleEnv, Ctx("R"), Article, ArticleFields, "id");
  }

  /** An allowed key without an enabled record, or not declared at all, is
      deleted from the node. */
  lemma NoPermissionDeletes(env: Env, ctx: Ctx, model: ModelDef, fields: seq<Field>, k: string)
    requires !PermissionFor(env, ctx, model, Some(k)).Found?
    ensures AttributeSerialized(env, ctx, model, fields, k) == Ok(RemoveKey(fields, k))
  {
  }

  lemma OneKey(env: Env, ctx: Ctx, model: ModelDef, fields: seq<Field>, k: string)
    ensures AttributesSerialized(env, ctx, model, fields, [k]) ==
      match AttributeSerialized(env, ctx, model, fields, k)
      case Err(f) => Err(f)
      case Ok(next) => Ok(next)
  {
    assert [k][1..] == [];
  }

  lemma ArticleKeys()
    ensures Keys(ArticleFields) == ["id"] + Keys(ArticleRest)
    ensures Keys(ArticleRest) == ["title", "secret", "extra", "author"]
  {
    assert ArticleFields[1..] == ArticleRest;
  }

  lemma ArticleStripped()
    ensures DeleteProp(DeleteProp(Obj(ArticleFields), ModelMarker), "__v") == Obj(ArticleFields)
    ensures Prop(Obj(ArticleFields), ModelMarker) == Undefined
    ensures RemoveKey(ArticleFields, "id") == ArticleRest
  {
    ArticleUntagged();
    RemoveAbsent(ArticleFields, ModelMarker);
    RemoveAbsent(ArticleFields, "__v");
    ArticleRemoveId();
  }

  lemma ArticleUntagged()
    ensures ModelMarker !in Keys(ArticleFields) && "__v" !in Keys(ArticleFields)
  {
    ArticleKeys();
  }

  lemma ArticleRemoveId()
    ensures RemoveKey(ArticleFields, "id") == ArticleRest
  {
    ArticleKeys();
    RemoveAbsent(ArticleRest, "id");
    assert ArticleFields[1..] == ArticleRest;
  }

  lemma ArticleAllowed()
    ensures AllowedKeys(Keys(ArticleFields)) == ["id"]
  {
    ArticleKeys();
    ArticleRestNotAllowed();
    AllowedKeysNone(Keys(ArticleRest));
    var ks := ["id"] + Keys(ArticleRest);
    assert ks[0] == "id" && ks[1..] == Keys(ArticleRest);
    assert "id" in AllowedAttrs;
  }

  lemma ArticleRestNotAllowed()
    ensures forall k :: k in Keys(ArticleRest) ==> k !in AllowedAttrs
  {
    ArticleKeys();
    assert "title" !in AllowedAttrs && "secret" !in AllowedAttrs;
    assert "extra" !in AllowedAttrs && "author" !in AllowedAttrs;
  }

  lemma ArticleLookups()
    ensures GetModel(ArticleEnv.models, Or(Str("Article"), Get(ArticleFields, ModelMarker))) == Some(Article)
    ensures PermissionFor(ArticleEnv, Ctx("R"), Article, None) == Found(ArticleEnv.rows[0])
    ensures PermissionFor(ArticleEnv, Ctx("R"), Article, Some("id")) == Undeclared
  {
    ArticleUntagged();
    assert Names(Article) == ["title", "secret"];
  }
}

=== FILE: user.dfy ===
/** The user service of the users-permissions plugin: recognising an already
    hashed password, resolving the current user and their role from a
    request, and the parameter rewriting done before the user store is
    asked to update or delete. Database queries and token decoding are
    parameters here (their results), bcrypt and the content-manager plugin
    are not modelled. */
module UserService {
  import opened Js

  /** `s.split(sep)` for a one-character separator: the pieces between the
      separators, an empty piece wherever two separators touch or a
      separator starts or ends the string. */
  function Split(s: string, sep: char): (parts: seq<string>)
    ensures |parts| >= 1
    ensures forall i :: 0 <= i < |parts| ==> sep !in parts[i]
  {
    if s == [] then [[]]
    else
      var rest := Split(s[1..], sep);
      if s[0] == sep then [[]] + rest
      else [[s[0]] + rest[0]] + rest[1..]
  }

  /** `parts.join(sep)`, the inverse of Split. */
  function Join(parts: seq<string>, sep: char): string
    requires |parts| >= 1
  {
    if |parts| == 1 then parts[0] else parts[0] + [sep] + Join(parts[1..], sep)
  }

  lemma {:induction false} SplitJoin(s: string, sep: char)
    ensures Join(Split(s, sep), sep) == s
  {
    if s != [] {
      var rest := Split(s[1..], sep);
      SplitJoin(s[1..], sep);
      if s[0] == sep {
        assert Split(s, sep) == [[]] + rest;
        assert ([[]] + rest)[1..] == rest;
      } else {
        var parts := Split(s, sep);
        assert parts == [[s[0]] + rest[0]] + rest[1..];
        if |rest| == 1 {
          assert Join(parts, sep) == [s[0]] + rest[0];
        } else {
          assert parts[1..] == rest[1..];
          assert Join(rest, sep) == rest[0] + [sep] + Join(rest[1..], sep);
        }
      }
      assert s == [s[0]] + s[1..];
    }
  }

  /** Splitting gives one piece more than there are separators. */
  lemma {:induction false} SplitCount(s: string, sep: char)
    ensures |Split(s, sep)| == multiset(s)[sep] + 1
  {
    if s != [] {
      SplitCount(s[1..], sep);
      assert s == [s[0]] + s[1..];
      assert multiset(s) == multiset([s[0]]) + multiset(s[1..]);
    }
  }

  /** isHashed: a non-empty string that splits into exactly four pieces on
      `$`, as a bcrypt digest `$<version>$<cost>$<salt+hash>` does. */
  function IsHashed(password: Value): (r: bool)
    ensures r <==> password.Str? && multiset(password.s)['$'] == 3
  {
    if !password.Str? || password.s == "" then false
    else
      SplitCount(password.s, '$');
      |Split(password.s, '$')| == 4
  }

  /** Every string of bcrypt's shape is recognised as hashed. */
  lemma BcryptShapeIsHashed(version: string, cost: string, digest: string)
    requires '$' !in version && '$' !in cost && '$' !in digest
    ensures IsHashed(Str("$" + version + "$" + cost + "$" + digest))
  {
    var s := "$" + version + "$" + cost + "$" + digest;
    assert multiset(s) == multiset("$") + multiset(version) + multiset("$") + multiset(cost) + multiset("$") + multiset(digest);
  }

  /** What the promise of hashPassword settles with: `null`, or the bcrypt
      digest of the string form of `plain`. */
  datatype HashOutcome = ResolvesNull | Hashes(plain: Value)

  /** hashPassword(user = {}): the branch taken before bcrypt is reached. A
      missing argument takes the default `{}`; with `null`, reading
      `user.password` inside the promise executor throws, so the returned
      promise rejects (`Err`). */
  function HashPassword(user: Value): (r: Result<HashOutcome>)
    ensures r.Err? <==> user.Null?
    ensures r == Ok(ResolvesNull) <==>
      !user.Null? && (!Truthy(Prop(user, "password")) || IsHashed(Prop(user, "password")))
    ensures r.Ok? && r.value.Hashes? ==>
      r.value.plain == Prop(user, "password") && Truthy(r.value.plain) && !IsHashed(r.value.plain)
  {
    var u := if user.Undefined? then Obj([]) else user;
    if u.Null? then Err(TypeError("user.password"))
    else
      var password := Prop(u, "password");
      if !Truthy(password) || IsHashed(password) then Ok(ResolvesNull) else Ok(Hashes(password))
  }

  /** A stored bcrypt digest handed back in is never hashed a second time. */
  lemma DigestIsNotRehashed(version: string, cost: string, digest: string)
    requires '$' !in version && '$' !in cost && '$' !in digest
    ensures HashPassword(Obj([Field("password", Str("$" + version + "$" + cost + "$" + digest))])) == Ok(ResolvesNull)
  {
    BcryptShapeIsHashed(version, cost, digest);
  }

  /** The parts of a Koa context read here: `ctx.state.user` and `ctx.request`. */
  datatype HttpCtx = HttpCtx(stateUser: Value, request: Value)

  /** `ctx.request && ctx.request.header && ctx.request.header.authorization`. */
  predicate HasAuthorization(request: Value)
  {
    Truthy(request) && Truthy(Prop(request, "header")) && Truthy(Prop(Prop(request, "header"), "authorization"))
  }

  /** getCurrentUser. `token` is what the JWT service decodes from the
      request and `findUser(_id, id)` what the user query's findOne returns. */
  function GetCurrentUser(ctx: HttpCtx, token: Value, findUser: (Value, Value) -> Value): (r: Result<Value>)
    ensures Truthy(ctx.stateUser) ==> r == Ok(ctx.stateUser)
    ensures !Truthy(ctx.stateUser) && !HasAuthorization(ctx.request) ==> r == Ok(Null)
    ensures r == Err(InvalidToken) <==>
      && !Truthy(ctx.stateUser) && HasAuthorization(ctx.request)
      && !token.Null? && !token.Undefined?
      && Prop(token, "_id") == Undefined && !Truthy(Prop(token, "id"))
    ensures r.Ok? && !Truthy(ctx.stateUser) && HasAuthorization(ctx.request) ==>
      r.value == findUser(Prop(token, "_id"), Prop(token, "id"))
  {
    if Truthy(ctx.stateUser) then Ok(ctx.stateUser)
    else if HasAuthorization(ctx.request) then
      if token.Null? || token.Undefined? then Err(TypeError("getToken(ctx)"))
      else
        var mongoId := Prop(token, "_id");
        var id := Prop(token, "id");
        if Or(id, mongoId) == Undefined then Err(InvalidToken)
        else Ok(findUser(mongoId, id))
    else Ok(Null)
  }

  /** A token without either id field makes getCurrentUser throw. */
  lemma TokenWithoutIdsThrows(request: Value, token: seq<Field>, findUser: (Value, Value) -> Value)
    requires HasAuthorization(request)
    requires "_id" !in Keys(token) && "id" !in Keys(token)
    ensures GetCurrentUser(HttpCtx(Undefined, request), Obj(token), findUser) == Err(InvalidToken)
  {
  }

  /** The role query `findOne({ type: 'public' })`: the first role whose
      `type` is `'public'`, or `null`. */
  function PublicRole(roles: seq<Value>): (r: Value)
    ensures r == Null <==> forall i :: 0 <= i < |roles| ==> Prop(roles[i], "type") != Str("public")
    ensures r != Null ==>
      (exists i :: 0 <= i < |roles| && roles[i] == r && Prop(r, "type") == Str("public")
        && forall j :: 0 <= j < i ==> Prop(roles[j], "type") != Str("public"))
  {
    if roles == [] then Null
    else if Prop(roles[0], "type") == Str("public") then roles[0]
    else
      var r := PublicRole(roles[1..]);
      assert forall i :: 1 <= i < |roles| ==> roles[i] == roles[1..][i - 1];
      r
  }

  /** The role a resolved user stands for: their own, or the public one. */
  function RoleOf(user: Value, roles: seq<Value>): (r: Value)
    ensures Truthy(user) && Truthy(Prop(user, "role")) ==> r == Prop(user, "role")
    ensures !(Truthy(user) && Truthy(Prop(user, "role"))) ==> r == PublicRole(roles)
  {
    if Truthy(user) && Truthy(Prop(user, "role")) then Prop(user, "role") else PublicRole(roles)
  }

  /** getCurrentUserRole: the `user` argument is replaced by the current user
      when it is falsy; the role query's rows are `roles`. */
  method GetCurrentUserRole(ctx: HttpCtx, user: Value, token: Value, findUser: (Value, Value) -> Value, roles: seq<Value>)
    returns (r: Result<Value>)
    ensures Truthy(user) ==> r == Ok(RoleOf(user, roles))
    ensures !Truthy(user) ==>
      (var current := GetCurrentUser(ctx, token, findUser);
       r == if current.Err? then Err(current.fault) else Ok(RoleOf(current.value, roles)))
  {
    var u := user;
    if !Truthy(u) {
      var current := GetCurrentUser(ctx, token, findUser);
      if current.Err? {
        return Err(current.fault);
      }
      u := current.value;
    }
    if Truthy(u) {
      var role := Prop(u, "role");
      if Truthy(role) {
        return Ok(role);
      }
    }
    return Ok(PublicRole(roles));
  }

  /** An authenticated request whose user has a role gets that role without
      the token or any query being consulted. */
  lemma StateUserRoleWins(ctx: HttpCtx, token: Value, token': Value,
                          findUser: (Value, Value) -> Value, findUser': (Value, Value) -> Value,
                          roles: seq<Value>, roles': seq<Value>)
    requires Truthy(ctx.stateUser) && Truthy(Prop(ctx.stateUser, "role"))
    ensures GetCurrentUser(ctx, token, findUser) == GetCurrentUser(ctx, token', findUser')
    ensures RoleOf(GetCurrentUser(ctx, token, findUser).value, roles) == Prop(ctx.stateUser, "role")
    ensures RoleOf(GetCurrentUser(ctx, token, findUser).value, roles) == RoleOf(GetCurrentUser(ctx, token', findUser').value, roles')
  {
  }

  /** The values of `fields`, in order. */
  function Values(fields: seq<Field>): (vs: seq<Value>)
    ensures |vs| == |fields|
    ensures forall i :: 0 <= i < |fields| ==> vs[i] == fields[i].val
  {
    if fields == [] then [] else [fields[0].val] + Values(fields[1..])
  }

  /** The `reduce` of removeAll over the keys `ks` of `query`: the value of
      every key other than `source`, in key order. */
  function CollectIds(query: seq<Field>, ks: seq<string>): (ids: seq<Value>)
    ensures |ids| <= |ks|
    ensures "source" !in ks ==> |ids| == |ks|
    ensures "source" in ks ==> |ids| < |ks|
  {
    if ks == [] then []
    else
      var rest := CollectIds(query, ks[1..]);
      if ks[0] != "source" then [Get(query, ks[0])] + rest else rest
  }

  /** The primary-key values removeAll deletes without the content manager. */
  function ToRemove(query: seq<Field>): (ids: seq<Value>)
    ensures |ids| <= |query|
  {
    CollectIds(query, Keys(query))
  }

  /** Reading `query[k]` for each key gives the fields' own values, so the
      ids are the values of the object with `source` deleted. */
  lemma {:induction false} CollectIdsAreValues(query: seq<Field>, rest: seq<Field>, pre: nat)
    requires DistinctKeys(query) && pre <= |query| && rest == query[pre..]
    ensures CollectIds(query, Keys(rest)) == Values(RemoveKey(rest, "source"))
    decreases |rest|
  {
    if rest != [] {
      assert rest[0] == query[pre];
      assert Get(query, rest[0].key) == rest[0].val by { GetDistinct(query, pre); }
      assert Keys(rest)[1..] == Keys(rest[1..]);
      CollectIdsAreValues(query, rest[1..], pre + 1);
    }
  }

  lemma {:induction false} GetDistinct(fields: seq<Field>, i: nat)
    requires DistinctKeys(fields) && i < |fields|
    ensures Get(fields, fields[i].key) == fields[i].val
  {
    if i > 0 {
      assert fields[0].key != fields[i].key;
      DistinctKeysTail(fields);
      assert fields[1..][i - 1] == fields[i];
      GetDistinct(fields[1..], i - 1);
    }
  }

  lemma ToRemoveSkipsSource(query: seq<Field>)
    requires DistinctKeys(query)
    ensures ToRemove(query) == Values(RemoveKey(query, "source"))
    ensures "source" !in Keys(query) ==> ToRemove(query) == Values(query)
  {
    assert query[0..] == query;
    CollectIdsAreValues(query, query, 0);
    if "source" !in Keys(query) {
      RemoveAbsentKey(query, "source");
    }
  }

  lemma {:induction false} RemoveAbsentKey(fields: seq<Field>, k: string)
    requires k !in Keys(fields)
    ensures RemoveKey(fields, k) == fields
  {
    if fields != [] {
      assert Keys(fields)[0] == fields[0].key;
      assert Keys(fields[1..]) == Keys(fields)[1..];
      RemoveAbsentKey(fields[1..], k);
      assert fields == [fields[0]] + fields[1..];
    }
  }

  /** `_.assign(target, source)`: every property of `source` is written into
      `target` in key order. */
  function Assign(target: seq<Field>, source: seq<Field>): (r: seq<Field>)
    ensures forall k :: k !in Keys(source) ==> Get(r, k) == Get(target, k)
    decreases source
  {
    if source == [] then target
    else
      var r := Assign(SetKey(target, source[0].key, source[0].val), source[1..]);
      assert forall k :: k !in Keys(source) ==> k != source[0].key && k !in Keys(source[1..]);
      r
  }

  /** After `_.assign`, the target holds every value of the source. */
  lemma {:induction false} AssignOverrides(target: seq<Field>, source: seq<Field>)
    requires DistinctKeys(source)
    ensures forall i :: 0 <= i < |source| ==> Get(Assign(target, source), source[i].key) == source[i].val
    decreases source
  {
    if source != [] {
      var next := SetKey(target, source[0].key, source[0].val);
      DistinctKeysTail(source);
      AssignOverrides(next, source[1..]);
      assert source[0].key !in Keys(source[1..]) by {
        forall j | 0 <= j < |source[1..]| ensures source[1..][j].key != source[0].key {
          assert source[1..][j] == source[j + 1];
        }
      }
      forall i | 1 <= i < |source| ensures Get(Assign(target, source), source[i].key) == source[i].val {
        assert source[1..][i - 1] == source[i];
      }
    }
  }

  /** A JavaScript object the service writes into: the `params` or `query`
      a controller hands over. */
  class JsObject {
    var fields: seq<Field>

    constructor (fields: seq<Field>)
      ensures this.fields == fields
    {
      this.fields := fields;
    }

    /** `o[k] = v`. */
    method Set(k: string, v: Value)
      modifies this
      ensures fields == SetKey(old(fields), k, v)
    {
      fields := SetKey(fields, k, v);
    }
  }

  /** `params.model = 'user'; params.id = (params._id || params.id);`, done by
      edit and remove before they hand over to the content manager. */
  method TargetUser(params: JsObject)
    modifies params
    ensures params.fields ==
      SetKey(SetKey(old(params.fields), "model", Str("user")), "id",
             Or(Get(old(params.fields), "_id"), Get(old(params.fields), "id")))
    ensures Get(params.fields, "model") == Str("user")
    ensures Get(params.fields, "id") == Or(Get(old(params.fields), "_id"), Get(old(params.fields), "id"))
    ensures forall k :: k != "model" && k != "id" ==> Get(params.fields, k) == Get(old(params.fields), k)
  {
    params.Set("model", Str("user"));
    params.Set("id", Or(Get(params.fields, "_id"), Get(params.fields, "id")));
  }

  /** What edit does to `params`: with the content manager the id rewrite,
      otherwise `_.assign(params, values)`. */
  method Edit(params: JsObject, values: seq<Field>, contentManager: bool)
    modifies params
    ensures contentManager ==>
      (params.fields == SetKey(SetKey(old(params.fields), "model", Str("user")), "id",
                               Or(Get(old(params.fields), "_id"), Get(old(params.fields), "id"))))
    ensures !contentManager ==> params.fields == Assign(old(params.fields), values)
  {
    if contentManager {
      TargetUser(params);
    } else {
      params.fields := Assign(params.fields, values);
    }
  }

  /** What remove does to `params`: the id rewrite with the content
      manager, nothing otherwise. */
  method Remove(params: JsObject, contentManager: bool)
    modifies params
    ensures contentManager ==>
      (params.fields == SetKey(SetKey(old(params.fields), "model", Str("user")), "id",
                               Or(Get(old(params.fields), "_id"), Get(old(params.fields), "id"))))
    ensures !contentManager ==> params.fields == old(params.fields)
  {
    if contentManager {
      TargetUser(params);
    }
  }

  /** removeAll: with the content manager `params` and `query` are tagged
      and the deletion is handed over (None); otherwise the primary-key
      values to delete are returned. */
  method RemoveAll(params: JsObject, query: JsObject, contentManager: bool) returns (ids: Option<seq<Value>>)
    requires params != query
    modifies params, query
    ensures contentManager ==> ids.None?
    ensures contentManager ==> params.fields == SetKey(old(params.fields), "model", Str("user"))
    ensures contentManager ==> query.fields == SetKey(old(query.fields), "source", Str("users-permissions"))
    ensures !contentManager ==> ids == Some(ToRemove(query.fields))
    ensures !contentManager ==> params.fields == old(params.fields) && query.fields == old(query.fields)
  {
    if contentManager {
      params.Set("model", Str("user"));
      query.Set("source", Str("users-permissions"));
      return None;
    }
    return Some(ToRemove(query.fields));
  }
}
